=== FILE: README.md ===
# Chess.com games ETL: a verified model of its core

This project models the core of a small ETL system. The system reads a player's
games from the Chess.com API month by month and keeps the games of a date window.
It turns each game's PGN text into a dictionary and derives per-game columns,
including the player's average time per move from the PGN clock annotations. It
then loads the rows into PostgreSQL with one of three write methods: insert,
upsert or overwrite. A second half copies extract templates from a source database
into a target, as full or incremental extracts loaded in chunks. It then
materialises SQL transforms in dependency order.

The model has one module per concern:

- `Wrappers`: Option, Result, and the exception kinds Python would raise.
- `Text`: `str.split`, `strip`, `replace`, `lower`, decimal digits and zero padding.
- `Calendar`: dates, `relativedelta`, and `strftime`/`strptime` with `%Y-%m-%d`.
- `MonthlyDates`: `generate_monthly_dates`, in the current and the older copy.
- `Pgn`: `pgn_to_dict`, including the move-number split.
- `Games`: `parse_game`, covering game ids, colour mirroring and the start date.
- `Extraction`: `extract_games` and `incremental_modify_dates`.
- `Features`: clock parsing, the average move time, `rating_diff`,
  `match_result` and `format_timedelta`.
- `PostgreSql`: the client's table operations and the `load` dispatch.
- `DatabaseExtractor`: extract configs and full or incremental extracts.
- `ExtractLoadTransform`: `extract_load`, `SqlTransform` and `transform`.

Loops in the source are Dafny methods proved equal to a specification function,
and the properties are proved about that function. The PostgreSQL client is a class
whose database state is a field that its methods update. A database is a map from
table names to a definition and its rows.

These are parameters of the model:

- the HTTP client's monthly answers (`Fetch`);
- a database's answer to a query (`RunSql`);
- what a SQL script does to a database (`execute`);
- the Jinja templates (what each renders, and its config block);
- `graphlib`'s `static_order` (given as its result);
- the current date.

## Model

| member | source | states |
|---|---|---|
| Calendar.AddOneMonth | app/assets/Chess.py:53 | `relativedelta(months=1)` lands in the next calendar month and keeps the day, or clamps it to that month's last day |
| Calendar.AddOneMonthLater | app/assets/Chess.py:51-53 | adding a month always gives a strictly later date, so the anchor loop ends |
| Calendar.MonthIndexOrder | app/assets/Chess.py:45 | the year-and-month test holds exactly when the month indices are equal, and the order of dates agrees with the order of months |
| Calendar.MinusDays | app/assets/Chess.py:129 | `relativedelta(days=-n)` gives a valid date strictly earlier for n > 0 and the same date for n = 0, or fails below year 1 |
| Calendar.PrevDayInverse | app/assets/Chess.py:129 | stepping back a day fails only at 0001-01-01, and the next day of the result is the date itself |
| Calendar.Parse | app/assets/Chess.py:41-42 | `strptime('%Y-%m-%d')` accepts only a valid calendar date and raises `ValueError` otherwise |
| Calendar.ParseFormat | app/assets/Chess.py:41-42 | `strptime` reads back every date `strftime('%Y-%m-%d')` writes |
| Calendar.FormatParse | app/assets/Chess.py:131-132 | `strftime` writes back exactly the text `strptime` accepted |
| Calendar.FormatFields | app/assets/Chess.py:131-132 | the formatted date has year, month and day digit fields in positions 0-3, 5-6 and 8-9, with the date's own values |
| MonthlyDates.AnchorLoop | app/assets/Chess.py:48-53 | the `while` loop collects exactly the monthly anchors from the start up to the end |
| MonthlyDates.GenerateMonthlyDates | app/assets/Chess.py:41-59 | the method computes the specification: it parses, takes the same-month shortcut, runs the loop and overwrites the last anchor |
| MonthlyDates.GenerateMonthlyDatesLegacy | chess_api/assets/Chess.py:36-50 | the older copy (no same-month shortcut) computes its specification |
| MonthlyDates.AnchorsShape | app/assets/Chess.py:51-53 | the anchors are empty iff the start is after the end; they begin at the start; the i-th lies i months later and not after the end; each is the previous plus one month; one month after the last is past the end |
| MonthlyDates.LastAnchorMonth | app/assets/Chess.py:51-57 | when the start is not after the end, the last anchor lies in the end's month or in the month before it |
| MonthlyDates.SameMonthWindow | app/assets/Chess.py:45-46 | a start and an end in the same month give exactly `[start, end]` |
| MonthlyDates.WindowShape | app/assets/Chess.py:48-58 | across months, the result fails with `IndexError` iff the start is after the end; otherwise it ends with the end, begins with the start when it has two or more dates, is strictly increasing and steps one month at a time |
| MonthlyDates.AnchorsWithinYear | app/assets/Chess.py:51-53 | within one year, and for a day of the month up to 28, the anchors are the same day of consecutive months |
| MonthlyDates.MonthlyDatesOfFormatted | app/assets/Chess.py:41-42 | on formatted dates, both copies compute their window from the parsed dates |
| MonthlyDates.DocumentedExample | app/assets/Chess.py:29-34 | the docstring example: 2023-01-15 to 2023-05-24 gives the 15th of January to April, then 2023-05-24 |
| MonthlyDates.MonthSkippedExample | app/assets/Chess.py:56-57 | as written, 2023-01-15 to 2023-05-10 gives 01-15, 02-15, 03-15, 05-10, so April is missing |
| MonthlyDates.StartLostExample | app/assets/Chess.py:56-57 | as written, 2023-01-15 to 2023-02-10 gives only 2023-02-10, so January is missing |
| MonthlyDates.CorrectedCoversEveryMonth | app/assets/Chess.py:24-26 | the corrected window starts at the start, ends at the end, and holds one strictly increasing date per month in between |
| MonthlyDates.LegacySameMonthLosesStart | chess_api/assets/Chess.py:39-48 | without the shortcut, a start and end in the same month give only `[end]` |
| MonthlyDates.StartAfterEndRaises | chess_api/assets/Chess.py:42-48 | a start after the end makes `dates[-1]` raise `IndexError`, except that the current copy's shortcut answers `[start, end]` in one month |
| MonthlyDates.LegacyMonthsDistinct | chess_api/assets/Chess.py:42-48 | the older copy's dates lie in strictly increasing months, so no month repeats |
| Pgn.MarkerAt | app/assets/Chess.py:152 | a match of `' \d{1,}\. '` found at a position is a space, one or more digits, a dot and a space |
| Pgn.SplitMovesRoundTrip | app/assets/Chess.py:152 | `re.split` gives one more piece than there are move-number markers, and the pieces joined with the markers give back the row |
| Pgn.SplitFromRoundTrip | app/assets/Chess.py:152 | the same round trip for the scan from any position |
| Pgn.ParseRows | app/assets/Chess.py:144-154 | all rows parse iff each does; the effects are the rows' effects in order; a header row without a space raises `IndexError` |
| Pgn.PgnToDict | app/assets/Chess.py:141-155 | the row loop computes `pgn_to_dict`'s specification |
| Pgn.RowByRow | app/assets/Chess.py:144-154 | updating the dictionary row by row is parsing all rows and then applying their effects in order, failing at the first row that raises |
| Pgn.TagPairRoundTrip | app/assets/Chess.py:145-147 | a header row `[Key "Value"]` sets `Key` to `Value` |
| Pgn.TagPairElement | app/assets/Chess.py:146 | `strip('[]').split(' ', maxsplit=1)` of a header row gives the key and the quoted value |
| Pgn.TagPairStrip | app/assets/Chess.py:146 | stripping the brackets of a header row leaves key, space and quoted value |
| Pgn.HeaderWithoutValueRaises | app/assets/Chess.py:146-147 | a header row with no space raises `IndexError` at `element[1]` |
| Pgn.MoveRowSetsCount | app/assets/Chess.py:150-154 | a non-empty row not starting with `[` stores its pieces under `moves_row`, and their number under `moves_count_per_player` |
| Pgn.MoveRowsAreNonHeaderRows | app/assets/Chess.py:145-151 | a row is a move row iff it is non-empty and does not start with `[`; it is skipped iff it is empty |
| Pgn.SkipsChangeNothing | app/assets/Chess.py:148-149 | the empty rows the loop skips do not change the result |
| Pgn.UntouchedKeyKept | app/assets/Chess.py:144-154 | a key no row sets keeps its presence and its value |
| Pgn.ApplyAllAppend | app/assets/Chess.py:144 | applying rows in two runs is the same as applying them in one |
| Pgn.LastSetTagWins | app/assets/Chess.py:147 | a tag's value is the one its last header row sets |
| Pgn.LastTagWins | app/assets/Chess.py:141-155 | in a whole PGN text, a tag row `[Key "Value"]` that no later row overrides gives `Key` the value `Value` |
| Pgn.NoMoveRowNoCount | app/assets/Chess.py:150-154 | without a move row, neither `moves_count_per_player` nor `moves_row` is set |
| Pgn.DigitRunEnd | app/assets/Chess.py:152 | `\d{1,}` matches greedily: the run ends at the first non-digit |
| Games.TrailingDigitsStart | app/assets/Chess.py:163 | the start of the trailing digit run: everything after it is a digit and the character before it is not |
| Games.GameIdOfUrl | app/assets/Chess.py:163 | a URL ending in `live/<digits>` or `daily/<digits>`, with or without a final newline, yields those digits as `game_id` |
| Games.GameIdShape | app/assets/Chess.py:163 | any `game_id` found is a non-empty digit string that the URL ends with, after `live/` or `daily/` |
| Games.LiveGameExample | app/assets/Chess.py:163 | a live game URL gives its number |
| Games.ViewTakesUsersSide | app/assets/Chess.py:168-193 | the colour is white iff white's name is the user's, otherwise black; the user's rating and result come from that side; the opponent's name, rating and member URL come from the other side; no accuracies give none for either |
| Games.MirrorKeepsPlayers | app/assets/Chess.py:168-193 | swapping the two sides (and the accuracies) swaps only the user's colour in the result |
| Games.StartDateOfPgnDate | app/assets/Chess.py:196 | a PGN `Date` tag `YYYY.MM.DD` gives `start_date` `YYYY-MM-DD`, which `strptime` reads back as that date |
| Games.ReplaceCharBack | app/assets/Chess.py:196 | replacing dots by dashes undoes replacing dashes by dots on a text without dots |
| Games.LegacyAgreesWithCurrent | chess_api/assets/Chess.py:93-133 | without PGN text, the current reader skips the game and the older one raises; with it, both succeed or fail together and produce the same record |
| Games.ParsedGameFields | app/assets/Chess.py:157-201 | a parsed game keeps the URL, PGN and username; its id is the URL's trailing digits; the colour is white or black; the PGN parses |
| Extraction.KeepGame | app/assets/Chess.py:75-80 | one turn of the inner loop computes its specification |
| Extraction.CollectMonth | app/assets/Chess.py:75-80 | the inner loop over one month's games computes its specification |
| Extraction.FromGamesStep | app/assets/Chess.py:75-80 | one month's rows are the first game's kept rows followed by the rest's |
| Extraction.FromGamesKeepsWindow | app/assets/Chess.py:76-80 | a row is kept iff it is some game's parse (not `None`), its start date parses and lies within the window |
| Extraction.ExtractFromMonths | app/assets/Chess.py:67-80 | the month loop computes its specification |
| Extraction.ExtractGames | app/assets/Chess.py:61-81 | `extract_games` computes its specification: the month list, then the window from its first to its last date |
| Extraction.LoopFetchesRequests | app/assets/Chess.py:68-74 | the loop fetches exactly the months of the request list, in order |
| Extraction.RequestsDistinct | app/assets/Chess.py:72-74 | the months fetched are pairwise distinct, and they are exactly the months of the list not already run |
| Extraction.SameMonthFetchedOnce | app/assets/Chess.py:45-46 | the same-month pair `[start, end]` is fetched once |
| Extraction.FromKeysKeepsWindow | app/assets/Chess.py:74-80 | every row kept comes from a fetched game, lies within the window and comes from a month that was fetched |
| Extraction.ExtractionSound | app/assets/Chess.py:61-81 | on success, no month is fetched twice, and every row is a kept game of a fetched month within the window from the first to the last date |
| Extraction.AprilNeverFetched | app/assets/Chess.py:56-74 | for 2023-01-15 to 2023-05-10 the months requested are January, February, March and May |
| Extraction.CorrectedFetchesEveryMonth | app/assets/Chess.py:24-26 | with the corrected window every month from the start's to the end's is requested once, in order |
| Extraction.DistinctMonthsAllRequested | app/assets/Chess.py:72-74 | dates in strictly increasing months, none run before, are all requested |
| Extraction.KeepLegacyGame | chess_api/assets/Chess.py:63-67 | one turn of the older inner loop computes its specification |
| Extraction.CollectLegacyMonth | chess_api/assets/Chess.py:63-67 | the older inner loop computes its specification |
| Extraction.ExtractGamesLegacy | chess_api/assets/Chess.py:52-70 | the older `extract_games` (no dedup, no skip) computes its specification |
| Extraction.LegacyWindowNeedsNoDedup | chess_api/assets/Chess.py:59-62 | the older month list has no repeated month, so fetching each date fetches each month once |
| Extraction.LegacyFromGamesInWindow | chess_api/assets/Chess.py:63-67 | every row the older loop keeps is a game's parse whose start date lies within the window |
| Extraction.IncrementalRereadsTwoDays | app/assets/Chess.py:126-133 | with a stored maximum date, the new start is two days before it and the new end is today, both formatted |
| Extraction.IncrementalKeepsWindow | app/assets/Chess.py:126-133 | without the table, or with no stored maximum, the dates are returned unchanged; a stored date `strptime` cannot read raises `ValueError` |
| Extraction.IncrementalExample | app/assets/Chess.py:103-113 | the docstring's example restated with the maximum as the text "2023-01-01", as the String column `start_date` (app/pipelines/Chess.py:104) holds it: start 2022-12-30 and end today |
| Features.DigitsThen | app/assets/Chess.py:213 | a `\d+` group followed by its stop character is a digit prefix of the text |
| Features.ReadGroups | app/assets/Chess.py:213 | a successful read of the groups is a prefix of the text made of digit groups and their stops |
| Features.ClockAt | app/assets/Chess.py:213 | a match of `\[%clk (\d+:\d+:\d+\.\d+)\]` at the head of the text is the rendering of a well-formed clock |
| Features.ScanClocks | app/assets/Chess.py:213 | `re.findall` gives only well-formed clocks |
| Features.DigitsThenOf | app/assets/Chess.py:213 | a digit group and its stop are read back |
| Features.ReadGroupsOf | app/assets/Chess.py:213 | groups joined by their stops are read back in full |
| Features.ClockAtRender | app/assets/Chess.py:213 | a rendered clock annotation is matched as that clock, whatever follows it |
| Features.ScanClocksRender | app/assets/Chess.py:213 | a clock annotation at the head is the first match, and matching goes on after it |
| Features.ScanClocksSkip | app/assets/Chess.py:213 | text in which every `[` is followed, inside it, by a character other than `%` (header rows, the text between comments) holds no match and leaves the matches after it as they are |
| Features.HeaderRowNoClockOpen | app/assets/Chess.py:145-147 | a tag-pair header row `[Name "value"]` opens no clock comment |
| Features.NoClockOpenConcat | app/assets/Chess.py:213 | pieces of text that open no clock comment open none when joined |
| Features.EventRowNoClockOpen | app/assets/Chess.py:213 | the row `[Event "Live Chess"]` opens no clock comment |
| Features.ScanAnnotated | app/assets/Chess.py:213 | in a game text of pieces that open no `[%` (header rows included), each followed by a clock comment, `findall` gives exactly those clocks in order |
| Features.Seconds | app/assets/Chess.py:216-218 | `convert_to_seconds` lies between the clock's whole hours, minutes and seconds and one second more |
| Features.SecondsOf | app/assets/Chess.py:221 | the list of seconds has one entry per clock, in order |
| Features.TimesOfAnnotated | app/assets/Chess.py:213-221 | for such an annotated game text, headers included, the times are the seconds of its clocks in order |
| Features.Evens | app/assets/Chess.py:224 | `[0::2]` keeps the entries at even positions, in order |
| Features.Odds | app/assets/Chess.py:225 | `[1::2]` keeps the entries at odd positions, in order |
| Features.Drops | app/assets/Chess.py:227-228 | the time spent on each move is the clock before it minus the clock after it |
| Features.SumDrops | app/assets/Chess.py:227-234 | the time spent telescopes: it sums to the first clock minus the last |
| Features.MeanDrop | app/assets/Chess.py:234-235 | the average time per move is (first - last) / (n - 1), or 0 for fewer than two readings |
| Features.UserAverage | app/assets/Chess.py:237-242 | a colour other than white or black raises with its message |
| Features.UserAverageOfTimes | app/assets/Chess.py:224-240 | for white, the average comes from the even-position clocks; for black, from the odd-position ones |
| Features.ParsedGamesHaveAverage | app/assets/Chess.py:237-242 | the average of every game `parse_game` returns succeeds: the `raise` is never reached for parsed games |
| Features.FirstWithoutColor | app/assets/Chess.py:237-242 | the first row without a valid colour: every row before it has one |
| Features.AddAverageMoveTimes | app/assets/Chess.py:210-243 | rows before the first invalid colour get their average, the rest are unchanged; the loop raises iff such a row exists |
| Features.RatingDiff | app/assets/Chess.py:251 | the difference is defined iff both ratings are, and the opponent's rating plus it is the user's |
| Features.RatingDiffAntisymmetric | app/assets/Chess.py:251 | swapping user and opponent negates the difference |
| Features.MatchResult | app/assets/Chess.py:256 | a label exists iff the result is one of `1-0`, `0-1`, `1/2-1/2` |
| Features.MatchResultInverse | app/assets/Chess.py:256 | each label maps back to the one token it came from, and is one of `win`, `defet`, `draw` |
| Features.BlackLossLabelledWin | app/assets/Chess.py:256 | as written, a user playing black in a game white won (`1-0`) is labelled `win` |
| Features.UserMatchResultAgrees | app/assets/Chess.py:256 | the corrected label is `win` iff the user's colour won, `defet` iff the other colour won, `draw` iff drawn, and it agrees with the table for white users |
| Features.TotalSeconds | app/assets/Chess.py:307 | `int(td.total_seconds())` truncates toward zero |
| Features.FormatTimedeltaReadsBack | app/assets/Chess.py:303-310 | reading `HH:MM:SS` back (signed hours, minutes and seconds in 0..59) gives the truncated total seconds, negatives included |
| Features.HmsReadsBack | app/assets/Chess.py:308-310 | for any whole number of seconds, the `divmod` fields formatted with `:02` read back as that number |
| Features.SignedValueOfFormat | app/assets/Chess.py:310 | `{hours:02}` reads back as the hours, negative values included |
| Features.FormatInt02Short | app/assets/Chess.py:310 | minutes and seconds below 60 are written with exactly two digits |
| Features.FormatTimedeltaExample | app/assets/Chess.py:303-310 | 3725.5 seconds is written `01:02:05` |
| PostgreSql.CopyColumn | app/connectors/postgresql.py:80-83 | a column is recreated with its name, type and primary-key flag; it is nullable iff not a key, and has no unique flag or default |
| PostgreSql.CopyColumns | app/connectors/postgresql.py:80-83 | each column of the table is copied, in order |
| PostgreSql.CopyColumnsIdempotent | app/connectors/postgresql.py:78-85 | recreating a recreated table changes nothing |
| PostgreSql.CreateTableSpec | app/connectors/postgresql.py:74-85 | after `create_table` succeeds, the table exists |
| PostgreSql.CreateTableCopies | app/connectors/postgresql.py:74-85 | `create_table` succeeds iff the metadata has the table (otherwise `KeyError`); an existing table is left as it is; a new one is empty and has the copied columns |
| PostgreSql.KeyColumnsMembers | app/connectors/postgresql.py:119-121 | the key columns are exactly the primary-key columns |
| PostgreSql.SetColumnsMembers | app/connectors/postgresql.py:125-127 | the updated columns are exactly the non-key columns |
| PostgreSql.KeyAndSetPartition | app/connectors/postgresql.py:119-127 | with unique column names, each column is a key column or an updated column, and never both |
| PostgreSql.FillAt | app/connectors/postgresql.py:104 | an inserted record has exactly the table's columns; a column it gives keeps its value, a column it leaves out takes that column's Python-side default, or NULL without one |
| PostgreSql.DefaultOfColumn | app/connectors/postgresql.py:104 | in a table with distinct column names, a left-out column takes its own default |
| PostgreSql.FillAllAt | app/connectors/postgresql.py:104 | for a batch whose records share their columns, each inserted record is completed that way, in order: its own values, else the column defaults, else NULL |
| PostgreSql.FillSnapshot | app/pipelines/Chess.py:156-160 | a player record without `snaphot_date` is stored with the timestamp default of that key column |
| PostgreSql.SnapshotKey | app/pipelines/Chess.py:156-158 | a stored player's key is its id, then its snapshot timestamp |
| PostgreSql.SnapshotStored | app/connectors/postgresql.py:99-105 | the first insert of a player stores it with the run's timestamp |
| PostgreSql.SnapshotSameRunClashes | app/connectors/postgresql.py:99-105 | the same run inserting the player again clashes on the key |
| PostgreSql.SnapshotsAccumulate | app/connectors/postgresql.py:99-105 | a later run, whose default is another timestamp, adds a second snapshot of the player |
| PostgreSql.SameKeysFitAsFirst | app/connectors/postgresql.py:104 | on a batch whose records share their columns, the first record fits the table iff every record does, so the record-by-record check is SQLAlchemy's first-record check |
| PostgreSql.InsertStatement | app/connectors/postgresql.py:104-105 | the insert appends the records completed with the column defaults; for a batch whose records share their columns, it succeeds iff every record (equivalently the first) fits the table and, for a keyed table, no key repeats among the records or clashes with a stored row |
| PostgreSql.UpdateRowAt | app/connectors/postgresql.py:123-127 | an updated row takes the incoming value in each updated column the record carries, and keeps the stored value elsewhere |
| PostgreSql.UpsertRowLength | app/connectors/postgresql.py:122-129 | an upserted record adds a row iff its key is new |
| PostgreSql.UpsertStatementSucceeds | app/connectors/postgresql.py:122-129 | for a batch whose records share their columns, the upsert succeeds iff the table has a non-key column for `set_`, the records fit, the table has a key, and no key repeats among the records; an empty `set_` raises `ValueError`; on success the completed records are upserted one by one |
| PostgreSql.AllKeyUpsertRaises | app/connectors/postgresql.py:118-129 | for a table whose columns are all key columns, `upsert` creates the table and then raises `ValueError`, writing no row |
| PostgreSql.UpdateKeepsKey | app/connectors/postgresql.py:123-127 | the conflict update never changes a row's key |
| PostgreSql.UpdateGivesIncoming | app/connectors/postgresql.py:123-127 | on a key conflict between complete rows, the stored row becomes the incoming row |
| PostgreSql.UpdatedColumn | app/connectors/postgresql.py:123-127 | each column of the updated row holds the incoming value |
| PostgreSql.UpsertRowShape | app/connectors/postgresql.py:122-129 | an upsert updates in place the one row with the same key, or appends the record; all other rows are unchanged |
| PostgreSql.DropTableSpec | app/connectors/postgresql.py:93-97 | `drop table if exists` removes that table and leaves every other table as it was |
| PostgreSql.WritesCreateTableFirst | app/connectors/postgresql.py:99-118 | insert and upsert raise `KeyError` and change nothing for a table the metadata lacks; otherwise the table exists afterwards; other tables are untouched |
| PostgreSql.OverwriteHoldsData | app/connectors/postgresql.py:107-112 | for a batch whose records share their columns, overwrite succeeds iff the table is in the metadata, the records fit and, for a keyed table, their keys are distinct; the table then holds exactly the records completed with the column defaults; other tables are untouched |
| PostgreSql.SlicesFromFirst | app/connectors/postgresql.py:139-145 | each turn's slice runs from `i` to `i + chunksize`, or to the end of the data for the last one |
| PostgreSql.UpsertFromSlices | app/connectors/postgresql.py:139-148 | the chunk loop upserts the slices one after the other and stops at the first that raises |
| PostgreSql.SlicesCover | app/connectors/postgresql.py:138-148 | the slices concatenate to the data, and each is non-empty and at most `chunksize` long |
| PostgreSql.NoDataNoCalls | app/connectors/postgresql.py:138-139 | no data means no upsert call and no change |
| PostgreSql.OneChunk | app/connectors/postgresql.py:138-148 | data that fits in one chunk is a single upsert |
| PostgreSql.ReflectedColumn | app/connectors/postgresql.py:57-58 | reflection keeps a column's name, type, key, nullability and uniqueness, and reads back no Python-side default |
| PostgreSql.CopyReflectedColumns | app/connectors/postgresql.py:57-58 | `create_table` from a reflected table copies the same columns as from the original definition |
| PostgreSql.TableSchemaOf | app/connectors/postgresql.py:61-66 | the schema lookup succeeds iff the table exists; it gives the stored columns in order, each without a Python-side default, and metadata naming every table; `create_table` from that metadata elsewhere copies the table's columns as from the original definition |
| PostgreSql.PostgreSqlClient.constructor | app/connectors/postgresql.py:11-34 | a client is connected to the given database |
| PostgreSql.PostgreSqlClient.ExecuteSql | app/connectors/postgresql.py:36-37 | the database becomes what the script makes of it, or stays unchanged when the script raises |
| PostgreSql.PostgreSqlClient.CreateTable | app/connectors/postgresql.py:74-85 | the client's database becomes the result of `create_table`, or stays unchanged with `KeyError` |
| PostgreSql.PostgreSqlClient.DropTable | app/connectors/postgresql.py:93-97 | the client's database loses the table |
| PostgreSql.PostgreSqlClient.Insert | app/connectors/postgresql.py:99-105 | the client's new database and result are those of `create_table` followed by the insert |
| PostgreSql.PostgreSqlClient.Overwrite | app/connectors/postgresql.py:107-112 | the client's new database and result are those of drop, then insert |
| PostgreSql.PostgreSqlClient.Upsert | app/connectors/postgresql.py:114-129 | the client's new database and result are those of `create_table` followed by the upsert |
| PostgreSql.PostgreSqlClient.UpsertInChunks | app/connectors/postgresql.py:131-148 | the loop computes the chunked upsert: `ValueError` for a chunk size of 0, nothing for a negative one, otherwise the slices in order |
| PostgreSql.PostgreSqlClient.UpsertChunk | app/connectors/postgresql.py:140-148 | one turn upserts its slice and leaves the rest of the loop to do what remains |
| PostgreSql.Load | app/assets/Chess.py:312-344 | `insert`, `upsert` and `overwrite` perform those writes; any other name raises with its message and writes nothing |
| DatabaseExtractor.NewSqlExtractConfig | assets/database_extractor.py:13-29 | a config is built only with a supported extract type |
| DatabaseExtractor.ConfigValidation | assets/database_extractor.py:19-29 | the constructor succeeds iff the type is `full` or `incremental` and a source table is named; it keeps the three values; an unknown type is reported first |
| DatabaseExtractor.ParseConfig | assets/database_extractor.py:37 | `SqlExtractConfig(**config)` succeeds only for a supported config that names the source table |
| DatabaseExtractor.ConfigDefaults | assets/database_extractor.py:13-18 | a block naming only the source table gives a full extract with no incremental column |
| DatabaseExtractor.ConfigUnknownKey | assets/database_extractor.py:37 | an unknown keyword is a `TypeError` |
| DatabaseExtractor.NewSqlExtractParser | assets/database_extractor.py:33-37 | a parser holds the named template of the environment and a supported config |
| DatabaseExtractor.FullExtractIgnoresTarget | assets/database_extractor.py:67-70 | a full extract runs the non-incremental rendering on the source, whatever the target holds |
| DatabaseExtractor.IncrementalUsesTargetMax | assets/database_extractor.py:72-88 | with the table in the target, the extract renders from the first row's `incremental_value` of the target's `max` query |
| DatabaseExtractor.IncrementalValueErrors | assets/database_extractor.py:72-78 | an empty answer to the target's `max` query raises `IndexError` at `sql_response[0]`, and a raising query fails the extract with its error |
| DatabaseExtractor.IncrementalFallsBackToFull | assets/database_extractor.py:80-93 | without the table in the target, an incremental extract is the full extract |
| DatabaseExtractor.ExtractRaiseUnreachable | assets/database_extractor.py:95-110 | for a parser built from an environment, `extract` never reaches its `raise` |
| DatabaseExtractor.UnsupportedExtractRaises | assets/database_extractor.py:107-110 | a config of any other type raises with a message naming the type |
| ExtractLoadTransform.NoTemplatesNoWrites | assets/extract_load_transform.py:20 | with no template, nothing is written |
| ExtractLoadTransform.TemplateUpsertsExtract | assets/extract_load_transform.py:21-33 | a template whose table is in the source upserts its extract in chunks of 1000, with the source's schema as reflected, or raises the extract's error with nothing written |
| ExtractLoadTransform.MissingSourceTableWritesNothing | assets/extract_load_transform.py:29 | a template whose table the source lacks raises `KeyError` and writes nothing |
| ExtractLoadTransform.ExtractLoadPrefix | assets/extract_load_transform.py:20-33 | the run over all templates is the run over the first k followed by the rest, from what the first k left behind |
| ExtractLoadTransform.ExtractLoadTemplate | assets/extract_load_transform.py:21-33 | one turn of the loop loads its template and leaves the rest of the loop to do what remains |
| ExtractLoadTransform.ExtractLoad | assets/extract_load_transform.py:10-33 | the loop computes `extract_load`'s specification; when source and target are one client, later templates read what earlier ones wrote |
| ExtractLoadTransform.TemplateName | assets/extract_load_transform.py:46 | the template name is the table name followed by `.sql` |
| ExtractLoadTransform.TemplateNameInjective | assets/extract_load_transform.py:46 | different tables have different template names |
| ExtractLoadTransform.NewSqlTransform | assets/extract_load_transform.py:36-46 | a transform is built iff its template exists, holding that template; otherwise it is `TemplateNotFound` for the name |
| ExtractLoadTransform.ScriptDropsThenCreates | assets/extract_load_transform.py:52-57 | the script is two statements: drop the table, then create it from the rendered select |
| ExtractLoadTransform.CreateTableAs | assets/extract_load_transform.py:48-58 | `create_table_as` executes that script through the client |
| ExtractLoadTransform.RunFromCallsPrefix | assets/extract_load_transform.py:66-67 | the nodes called are a prefix of the order |
| ExtractLoadTransform.RunFromSucceeds | assets/extract_load_transform.py:66-67 | a successful run has called every remaining node in order, and the database is the result of their scripts |
| ExtractLoadTransform.RunFromFails | assets/extract_load_transform.py:66-67 | a failed run stops at the node whose script raised, after the earlier nodes succeeded |
| ExtractLoadTransform.CycleRunsNothing | assets/extract_load_transform.py:65 | a cycle raises before any node runs |
| ExtractLoadTransform.TransformRunsInDependencyOrder | assets/extract_load_transform.py:61-67 | nodes run at most once and each after all its predecessors; a successful run ran every node |
| ExtractLoadTransform.TransformNode | assets/extract_load_transform.py:66-67 | one turn of the loop runs its node and leaves the rest to the remaining turns |
| ExtractLoadTransform.Transform | assets/extract_load_transform.py:61-67 | the loop computes `transform`'s specification |
| Text.JoinSplit | app/assets/Chess.py:143 | joining the parts of `split('\n')` gives the text back |
| Text.SplitJoin | assets/extract_load_transform.py:52-57 | splitting joined parts that lack the separator gives the parts back |
| Text.SplitOnceAtFirst | app/assets/Chess.py:146 | `split(' ', maxsplit=1)` cuts at the first space |
| Text.Strip | app/assets/Chess.py:146-147 | `strip` removes a prefix and a suffix of the stripped characters and leaves a result that neither starts nor ends with one |
| Text.StripExact | app/assets/Chess.py:146-147 | stripping a text padded with stripped characters gives its core |
| Text.StripKeepsAbsent | app/assets/Chess.py:146-147 | stripping adds no character |
| Text.ReplaceChar | app/assets/Chess.py:196 | `replace` swaps every occurrence of one character and nothing else |
| Text.Lower | app/assets/Chess.py:168 | `lower` maps each ASCII capital to its small letter and keeps every other character, so the length is kept |
| Text.NatToStringValue | app/assets/Chess.py:310 | the decimal digits of a number read back as it |
| Text.ZeroPadValue | app/assets/Chess.py:310 | zero padding does not change the value |
| Text.ZeroPadOfDigits | app/assets/Chess.py:131-132 | padding the value of a digit string to its own length gives it back |
| Text.FormatInt02 | app/assets/Chess.py:310 | `{n:02}` writes the value, with a minus sign for negatives, in at least two characters |

## Left out

- The HTTP client is not modelled. A month's games are a parameter. A failed
  request gives `None`, and iterating over `None` raises `TypeError`.
- `extract_user_info`, `extract_eco_codes`, `transform_players`, the metadata
  logging and the pipeline scripts are outside this core.
- `logging` calls and the older `extract_games`'s `print` are not modelled (they
  are output only).
- pandas is left out. `transform`'s datetime columns (`start_date_time`,
  `end_date_time`, `game_duration`, `game_duration_sec`), the ECO merge, the
  renames and the column selection are not modelled. Line 250 of
  app/assets/Chess.py selects rows and discards the selection, so it has no
  effect. Of that function, the model keeps `rating_diff`, `match_result` and
  `format_timedelta`. `format_timedelta` takes the duration as a whole number of
  microseconds.
- Features.AddAverageMoveTimes: works on an array of rows rather than a DataFrame
  index. The `round(1)` of the average is left out, because clock seconds are
  exact reals here rather than floats.
- Features.Seconds: `float(seconds)` is exact. Floating-point rounding is not
  modelled.
- Calendar.Parse: `strptime('%Y-%m-%d')` is modelled only for the canonical form
  with a 4-digit year and 2-digit month and day. Python also accepts one-digit
  month or day fields, which are not modelled. Years above 9999, where
  `relativedelta` overflows, are not modelled either.
- Extraction.RequestsDistinct: the month-dedup key `strftime('%Y-%m')` is a
  (year, month) pair here. The two agree for 4-digit years.
- Games.GameIdOfUrl: `game_id` stays the digit string the regular expression
  gives, as `parse_game` does. The games table declares the column `BigInteger`
  (app/pipelines/Chess.py:101); turning the string into a number happens in the
  database driver, which is not modelled. `\d` is read as the ASCII digits `0`-`9`,
  while Python's `re` also matches other Unicode decimal digits; chess.com URLs
  carry ASCII digits only.
- Pgn.MarkerAt: the `\d` of the move-number pattern is the ASCII digits only, as
  for Games.GameIdOfUrl.
- Features.ClockAt: the `\d` of the clock pattern is the ASCII digits only, as for
  Games.GameIdOfUrl.
- Text.Lower: ASCII only. `A`-`Z` become `a`-`z` and every other character is
  kept. Python's `str.lower()` also lowers non-ASCII letters, and for some (`İ`)
  the result is longer. So a player named `Ärger` with username `ärger` is white in
  Python but black in the model (app/assets/Chess.py:168). chess.com usernames are
  ASCII.
- Features.MatchResult: the code labels `0-1` as `defet`, and the model keeps that
  spelling.
- Games.ParsedGameFields: fields that are copied unchanged (`time_class`,
  `end_time`, the ECO tags, `StartTime`) are carried but not checked beyond
  equality.
- PostgreSql.InsertStatement: the SQL statements are modelled by their effect on
  the rows. Column types, constraint kinds other than the primary key, and
  server-side errors beyond key clashes are left out. A column default is a scalar
  value fixed when the table is defined (`default=datetime.now()` is evaluated
  once); callable and server-side defaults are not modelled. `execute_sql` scripts are a
  parameter (`execute`). The upsert is applied with the key of the definition it is
  given; a stored table whose key differs from it, which PostgreSQL would reject at
  `ON CONFLICT`, is not modelled.
- PostgreSql.InsertStatement: a batch's records are taken to share one set of
  columns, as `to_dict(orient="records")` (app/assets/Chess.py:331-341) and `run_sql`
  (assets/extract_load_transform.py:30) give them. SQLAlchemy takes a multi-row
  statement's columns from the first record. In a non-uniform batch, a later record
  lacking a first-record column without a default raises CompileError, and a later
  record's extra names are ignored. That rule is not modelled; the model checks and
  completes each record on its own (`SameKeysFitAsFirst` shows the two agree on
  uniform batches).
- PostgreSql.FillAllAt: completes each record on its own; the first-record column set
  of a non-uniform batch is not modelled (see `PostgreSql.InsertStatement`).
- PostgreSql.UpsertStatementSucceeds: the same per-record check; the first-record
  rule for non-uniform batches is not modelled.
- PostgreSql.OverwriteHoldsData: the same per-record check; the first-record rule for
  non-uniform batches is not modelled.
- Extraction.IncrementalWindow: the maximum is taken as text, as the String column
  `start_date` (app/pipelines/Chess.py:104) gives it. A non-string maximum (the
  docstring's `datetime(2023, 1, 1)`) makes `strptime` raise TypeError; that case is
  not modelled.
- PostgreSql.TableSchemaOf: reflection gives the stored name, type, key, nullability
  and uniqueness of each column. A Python-side `default` is not stored in the database,
  so reflected columns have none. A `server_default` is not modelled. The
  `create_all_tables`, `select_all`, `table_exists` and `get_metadata` helpers are
  covered only where the core uses them.
- DatabaseExtractor.IncrementalUsesTargetMax: `run_sql` is a parameter, and the
  rendered SQL is whatever the template renders. Jinja itself is not modelled.
- ExtractLoadTransform.TransformRunsInDependencyOrder: `graphlib`'s
  `static_order` is given as its result. That is either a topological order of
  the node graph or `CycleError`, and the sorting algorithm is not modelled.
- ExtractLoadTransform.Transform: every node writes through one client, as the
  pipeline builds them.
- Concurrency, connection handling and transactions are not modelled.

## Findings

| source | as written | input that shows it | evidently intended | confidence | as-written member | corrected member |
|---|---|---|---|---|---|---|
| app/assets/Chess.py:56-57 (also chess_api/assets/Chess.py:47-48) | the last monthly anchor is overwritten with the end date, even when that anchor lies in the month before the end's month | 2023-01-15 to 2023-05-10 gives 01-15, 02-15, 03-15, 05-10, so April's games are never fetched; 2023-01-15 to 2023-02-10 gives only 2023-02-10, so January is lost | every month from the start's to the end's is queried once, with the start first and the end last | high, not executed | MonthlyDates.MonthSkippedExample | MonthlyDates.CorrectedCoversEveryMonth |
| app/assets/Chess.py:256 | `match_result` maps the raw PGN result token from white's point of view, whatever `user_color` is | a game the user played as black and lost (`1-0`) is labelled `win` | the label describes the user's own result | medium, not executed | Features.BlackLossLabelledWin | Features.UserMatchResultAgrees |

The first finding has two more as-written lemmas:

- MonthlyDates.StartLostExample covers the case where January is lost.
- Extraction.AprilNeverFetched shows the months actually requested.

Extraction.CorrectedFetchesEveryMonth states the corrected window's effect on the
requests.

=== FILE: calendar.dfy ===
/** Proleptic Gregorian dates as Python's `datetime` handles them at midnight: the
    one-month step of `relativedelta(months=1)`, the day arithmetic of
    `relativedelta(days=-2)`, and the `'%Y-%m-%d'` text form read by `strptime`
    and written by `strftime`. */
module Calendar {
  import opened Wrappers
  import opened Text

  datatype Date = Date(year: int, month: int, day: int)

  predicate IsLeapYear(y: int)
  {
    y % 4 == 0 && (y % 100 != 0 || y % 400 == 0)
  }

  function DaysInMonth(y: int, m: int): (n: int)
    requires 1 <= m <= 12
    ensures 28 <= n <= 31
    ensures n == 31 <==> m in {1, 3, 5, 7, 8, 10, 12}
  {
    if m == 2 then (if IsLeapYear(y) then 29 else 28)
    else if m == 4 || m == 6 || m == 9 || m == 11 then 30
    else 31
  }

  /** A date `datetime` can represent (years past 9999 are not rejected here). */
  predicate Valid(d: Date)
  {
    d.year >= 1 && 1 <= d.month <= 12 && 1 <= d.day <= DaysInMonth(d.year, d.month)
  }

  /** Chronological order, as `<=` on two `datetime` values. */
  predicate Le(a: Date, b: Date)
  {
    a.year < b.year || (a.year == b.year && (a.month < b.month || (a.month == b.month && a.day <= b.day)))
  }

  predicate Lt(a: Date, b: Date)
  {
    Le(a, b) && a != b
  }

  /** The calendar month a date falls in, counted from year 0. */
  function MonthIndex(d: Date): int
  {
    12 * d.year + d.month - 1
  }

  predicate SameMonth(a: Date, b: Date)
  {
    a.year == b.year && a.month == b.month
  }

  /** Dates order their months: an earlier date is never in a later month, and a
      date in an earlier month is earlier. */
  lemma MonthIndexOrder(a: Date, b: Date)
    requires Valid(a) && Valid(b)
    ensures Le(a, b) ==> MonthIndex(a) <= MonthIndex(b)
    ensures MonthIndex(a) < MonthIndex(b) ==> Lt(a, b)
    ensures SameMonth(a, b) <==> MonthIndex(a) == MonthIndex(b)
  {
  }

  function Min(a: int, b: int): int { if a <= b then a else b }

  /** `d + relativedelta(months=1)`: the next calendar month, keeping the day but
      clamping it to that month's last day. */
  function AddOneMonth(d: Date): (r: Date)
    requires Valid(d)
    ensures Valid(r)
    ensures MonthIndex(r) == MonthIndex(d) + 1
    ensures r.day <= d.day
    ensures r.day == d.day || r.day == DaysInMonth(r.year, r.month)
  {
    var (y, m) := if d.month == 12 then (d.year + 1, 1) else (d.year, d.month + 1);
    Date(y, m, Min(d.day, DaysInMonth(y, m)))
  }

  /** A month step always moves strictly later. */
  lemma AddOneMonthLater(d: Date)
    requires Valid(d)
    ensures Lt(d, AddOneMonth(d))
  {
    MonthIndexOrder(d, AddOneMonth(d));
  }

  // ----------------------------------------------------------- day arithmetic

  /** The day after `d`. */
  function NextDay(d: Date): (r: Date)
    requires Valid(d)
    ensures Valid(r) && Lt(d, r)
  {
    if d.day < DaysInMonth(d.year, d.month) then Date(d.year, d.month, d.day + 1)
    else if d.month < 12 then Date(d.year, d.month + 1, 1)
    else Date(d.year + 1, 1, 1)
  }

  /** `d - timedelta(days=1)`, which overflows before 0001-01-01. */
  function PrevDay(d: Date): (r: Result<Date>)
    requires Valid(d)
    ensures r.Success? ==> Valid(r.value) && Lt(r.value, d)
  {
    if d.day > 1 then Success(Date(d.year, d.month, d.day - 1))
    else if d.month > 1 then Success(Date(d.year, d.month - 1, DaysInMonth(d.year, d.month - 1)))
    else if d.year > 1 then Success(Date(d.year - 1, 12, 31))
    else Failure(OverflowError)
  }

  /** Stepping back a day and forward again is the identity, and only the first
      representable day has no predecessor. */
  lemma PrevDayInverse(d: Date)
    requires Valid(d)
    ensures PrevDay(d).Failure? <==> d == Date(1, 1, 1)
    ensures PrevDay(d).Success? ==> NextDay(PrevDay(d).value) == d
  {
  }

  /** `d + relativedelta(days=-n)`. */
  function MinusDays(d: Date, n: nat): (r: Result<Date>)
    requires Valid(d)
    ensures r.Success? ==> Valid(r.value) && (n > 0 ==> Lt(r.value, d)) && (n == 0 ==> r.value == d)
    decreases n
  {
    if n == 0 then Success(d)
    else
      match PrevDay(d)
      case Failure(e) => Failure(e)
      case Success(p) =>
        var r := MinusDays(p, n - 1);
        if r.Success? then LtTransitive(r.value, p, d); r else r
  }

  lemma LtTransitive(a: Date, b: Date, c: Date)
    requires Le(a, b) && Lt(b, c)
    ensures Lt(a, c)
  {
  }

  // -------------------------------------------------------------- text form

  /** `d.strftime('%Y-%m-%d')`, the year padded to four digits. */
  function Format(d: Date): (s: string)
    requires Valid(d) && d.year <= 9999
    ensures |s| == 10
  {
    NatToStringLength(d.year, 4);
    NatToStringLength(d.month, 2);
    NatToStringLength(d.day, 2);
    ZeroPad(d.year, 4) + "-" + ZeroPad(d.month, 2) + "-" + ZeroPad(d.day, 2)
  }

  /** `datetime.strptime(s, '%Y-%m-%d')` for the ten-character form; anything else,
      and any impossible day, raises `ValueError`. */
  function Parse(s: string): (r: Result<Date>)
    ensures r.Success? ==> Valid(r.value) && r.value.year <= 9999
    ensures r.Failure? ==> r.error == ValueError
  {
    if |s| == 10 && s[4] == '-' && s[7] == '-'
       && AllDigits(s[..4]) && AllDigits(s[5..7]) && AllDigits(s[8..])
    then
      var d := Date(DigitsValue(s[..4]), DigitsValue(s[5..7]), DigitsValue(s[8..]));
      DigitsValueBound(s[..4]);
      if Valid(d) then Success(d) else Failure(ValueError)
    else Failure(ValueError)
  }

  /** `Parse` on a well-shaped text, field by field (used to evaluate examples). */
  lemma ParseDigits(s: string)
    requires |s| == 10 && s[4] == '-' && s[7] == '-'
    requires forall i :: 0 <= i < 10 && i != 4 && i != 7 ==> IsDigit(s[i])
    ensures var d := Date(1000 * DigitValue(s[0]) + 100 * DigitValue(s[1]) + 10 * DigitValue(s[2]) + DigitValue(s[3]),
                          10 * DigitValue(s[5]) + DigitValue(s[6]),
                          10 * DigitValue(s[8]) + DigitValue(s[9]));
            Parse(s) == if Valid(d) then Success(d) else Failure(ValueError)
  {
    assert AllDigits(s[..4]) && AllDigits(s[5..7]) && AllDigits(s[8..]);
    DigitsValue4(s[..4]);
    DigitsValue2(s[5..7]);
    DigitsValue2(s[8..]);
  }

  /** Reading what `strftime` wrote gives the same date back. */
  lemma ParseFormat(d: Date)
    requires Valid(d) && d.year <= 9999
    ensures Parse(Format(d)) == Success(d)
  {
    FormatFields(d);
  }

  /** The ten characters `strftime` writes: the three fields at their places, each
      reading back as its number. */
  lemma FormatFields(d: Date)
    requires Valid(d) && d.year <= 9999
    ensures var s := Format(d);
            && |s| == 10 && s[4] == '-' && s[7] == '-'
            && AllDigits(s[..4]) && AllDigits(s[5..7]) && AllDigits(s[8..])
            && DigitsValue(s[..4]) == d.year && DigitsValue(s[5..7]) == d.month && DigitsValue(s[8..]) == d.day
  {
    var y, m, dd := ZeroPad(d.year, 4), ZeroPad(d.month, 2), ZeroPad(d.day, 2);
    PadField(d.year, 4);
    PadField(d.month, 2);
    PadField(d.day, 2);
    assert Format(d) == y + "-" + m + "-" + dd;
    assert Format(d)[..4] == y && Format(d)[5..7] == m && Format(d)[8..] == dd;
  }

  /** A number below 10^w zero-padded to w digits takes exactly w digits and reads
      back as itself. */
  lemma PadField(n: nat, w: nat)
    requires 1 <= w <= 4 && n < Pow10(w)
    ensures |ZeroPad(n, w)| == w && DigitsValue(ZeroPad(n, w)) == n
  {
    NatToStringLength(n, w);
    ZeroPadValue(n, w);
  }

  /** A number below 10^w is written with at most w digits. */
  lemma {:induction false} NatToStringLength(n: nat, w: nat)
    requires w >= 1 && n < Pow10(w)
    ensures |NatToString(n)| <= w
  {
    if n >= 10 {
      assert w >= 2;
      assert n / 10 < Pow10(w - 1);
      NatToStringLength(n / 10, w - 1);
    }
  }

  /** A digit string of length w denotes a number below 10^w. */
  lemma {:induction false} DigitsValueBound(t: string)
    requires AllDigits(t)
    ensures DigitsValue(t) < Pow10(|t|)
  {
    if t != [] {
      DigitsValueBound(t[..|t| - 1]);
    }
  }

  function Pow10(w: nat): nat
  {
    if w == 0 then 1 else 10 * Pow10(w - 1)
  }

  /** Every text `strptime` accepts is already in the form `strftime` writes. */
  lemma FormatParse(s: string)
    requires Parse(s).Success?
    ensures Format(Parse(s).value) == s
  {
    var d := Parse(s).value;
    ZeroPadOfDigits(s[..4]);
    ZeroPadOfDigits(s[5..7]);
    ZeroPadOfDigits(s[8..]);
    assert s == s[..4] + "-" + s[5..7] + "-" + s[8..];
  }
}

=== FILE: database_extractor.dfy ===
/** `assets/database_extractor.py`: the configuration block an extract template
    declares, and the choice between a full and an incremental extract. Jinja
    templates and the databases' answers to queries are parameters: a template is
    what it renders for each set of arguments, and `runSql` is what a database in a
    given state answers to a query. */
module DatabaseExtractor {
  import opened Wrappers
  import opened PostgreSql

  // ------------------------------------------------------------------ templates

  /** The keyword arguments a template is rendered with: none (`render()`), a full
      extract (`is_incremental=False`), or an incremental extract from a value. */
  datatype TemplateArgs = NoArgs | FullArgs | IncrementalArgs(incrementalValue: Value)

  /** A Jinja template: the text it renders for each set of arguments, and the `config`
      block of its module, where `None` is Python's `None`. */
  datatype Template = Template(render: TemplateArgs -> string, config: map<string, Option<string>>)

  /** A Jinja environment: the names `list_templates` gives, and the templates by name. */
  datatype Environment = Environment(names: seq<string>, templates: map<string, Template>)

  /** `environment.get_template(name)`. */
  function GetTemplate(env: Environment, name: string): Result<Template>
  {
    if name in env.templates then Success(env.templates[name]) else Failure(TemplateNotFound(name))
  }

  /** What a database in a given state answers to a query (`run_sql`), or the error it
      raises. */
  type RunSql = (Db, string) -> Result<seq<Row>>

  // --------------------------------------------------------------- the config

  const FullExtract: string := "full"
  const IncrementalExtract: string := "incremental"
  const ExtractTypes: seq<string> := [FullExtract, IncrementalExtract]

  datatype SqlExtractConfig = SqlExtractConfig(sourceTableName: string, extractType: string,
                                               incrementalColumn: Option<string>)

  /** An extract type the extractor knows how to run. */
  predicate Supported(config: SqlExtractConfig)
  {
    config.extractType in ExtractTypes
  }

  /** `str(value)` for a string or `None`. */
  function PyStr(value: Option<string>): string
  {
    match value
    case None => "None"
    case Some(s) => s
  }

  function UnsupportedTypeMessage(extractType: Option<string>): string
  {
    "Extract type '" + PyStr(extractType) + "' is not supported. Please choose from ['full', 'incremental']."
  }

  function MissingSourceMessage(): string
  {
    "Please specify a source_table_name in your asset's config block."
  }

  /** `SqlExtractConfig(source_table_name, extract_type, incremental_column)`: the extract
      type is checked first, then the source table. Only a supported configuration is
      ever built. */
  function NewSqlExtractConfig(sourceTableName: Option<string>, extractType: Option<string>,
                               incrementalColumn: Option<string>): (r: Result<SqlExtractConfig>)
    ensures r.Success? ==> Supported(r.value)
  {
    if extractType.None? || extractType.value !in ExtractTypes then
      Failure(Raised(UnsupportedTypeMessage(extractType)))
    else if sourceTableName.None? then Failure(Raised(MissingSourceMessage()))
    else Success(SqlExtractConfig(sourceTableName.value, extractType.value, incrementalColumn))
  }

  /** The constructor accepts exactly a known extract type with a source table, and then
      keeps the three values; an unknown type is reported even when the source table is
      missing too. */
  lemma ConfigValidation(sourceTableName: Option<string>, extractType: Option<string>, incrementalColumn: Option<string>)
    ensures var r := NewSqlExtractConfig(sourceTableName, extractType, incrementalColumn);
            && (r.Success? <==>
                  (extractType == Some(FullExtract) || extractType == Some(IncrementalExtract)) && sourceTableName.Some?)
            && (r.Success? ==>
                  r.value.sourceTableName == sourceTableName.value && Some(r.value.extractType) == extractType
                  && r.value.incrementalColumn == incrementalColumn)
            && (extractType != Some(FullExtract) && extractType != Some(IncrementalExtract) ==>
                  r == Failure(Raised(UnsupportedTypeMessage(extractType))))
  {
    if extractType == Some(FullExtract) || extractType == Some(IncrementalExtract) {
      assert extractType.value in ExtractTypes;
    } else {
      assert extractType.None? || extractType.value !in ExtractTypes;
    }
  }

  /** The keyword arguments the constructor takes. */
  const ConfigKeys: set<string> := {"source_table_name", "extract_type", "incremental_column"}

  /** `SqlExtractConfig(**config)`: an unknown keyword or a missing `source_table_name`
      is a `TypeError` before the constructor runs; `extract_type` defaults to `full`
      and `incremental_column` to `None`. */
  function ParseConfig(block: map<string, Option<string>>): (r: Result<SqlExtractConfig>)
    ensures r.Success? ==> Supported(r.value) && "source_table_name" in block
  {
    if !(block.Keys <= ConfigKeys) || "source_table_name" !in block then Failure(TypeError)
    else
      NewSqlExtractConfig(block["source_table_name"],
                          if "extract_type" in block then block["extract_type"] else Some(FullExtract),
                          if "incremental_column" in block then block["incremental_column"] else None)
  }

  /** A block naming only the source table gives a full extract with no incremental
      column. */
  lemma ConfigDefaults(sourceTableName: string)
    ensures ParseConfig(map["source_table_name" := Some(sourceTableName)])
            == Success(SqlExtractConfig(sourceTableName, FullExtract, None))
  {
    var block := map["source_table_name" := Some(sourceTableName)];
    assert block.Keys <= ConfigKeys;
  }

  /** A block with a keyword the constructor does not take is refused whatever else it
      holds. */
  lemma ConfigUnknownKey(block: map<string, Option<string>>, key: string)
    requires key in block && key !in ConfigKeys
    ensures ParseConfig(block) == Failure(TypeError)
  {
  }

  // --------------------------------------------------------------- the parser

  datatype SqlExtractParser = SqlExtractParser(template: Template, config: SqlExtractConfig)

  /** `SqlExtractParser(file_path, environment)`: the template, then its configuration. */
  function NewSqlExtractParser(env: Environment, filePath: string): (r: Result<SqlExtractParser>)
    ensures r.Success? ==> filePath in env.templates && r.value.template == env.templates[filePath]
    ensures r.Success? ==> Supported(r.value.config)
  {
    match GetTemplate(env, filePath)
    case Failure(e) => Failure(e)
    case Success(template) =>
      match ParseConfig(template.config)
      case Failure(e) => Failure(e)
      case Success(config) => Success(SqlExtractParser(template, config))
  }

  /** `get_templated_sql(**kwargs)`. */
  function TemplatedSql(parser: SqlExtractParser, args: TemplateArgs): string
  {
    parser.template.render(args)
  }

  // ------------------------------------------------------------ the extractor

  /** `_full_extract`: the template rendered with `is_incremental=False`, run on the
      source. */
  function FullExtractOf(parser: SqlExtractParser, sourceDb: Db, runSql: RunSql): Result<seq<Row>>
  {
    runSql(sourceDb, TemplatedSql(parser, FullArgs))
  }

  /** The query of `_get_incremental_value`, as its f-string builds it. */
  function IncrementalValueQuery(config: SqlExtractConfig): string
  {
    "\n            select max(" + PyStr(config.incrementalColumn) + ") as incremental_value\n            from "
    + config.sourceTableName + "\n        "
  }

  /** `_get_incremental_value`: the largest value of the incremental column in the
      target's table named like the source table; `sql_response[0]` fails on an empty
      answer and `.get` gives `None` for a missing column. */
  function IncrementalValue(parser: SqlExtractParser, targetDb: Db, runSql: RunSql): Result<Value>
  {
    match runSql(targetDb, IncrementalValueQuery(parser.config))
    case Failure(e) => Failure(e)
    case Success(rows) => if rows == [] then Failure(IndexError) else Success(Get(rows[0], "incremental_value"))
  }

  /** `_incremental_extract`: with the table present in the target, the template
      rendered from the target's largest value; otherwise a full extract. */
  function IncrementalExtractOf(parser: SqlExtractParser, sourceDb: Db, targetDb: Db, runSql: RunSql): Result<seq<Row>>
  {
    if parser.config.sourceTableName in targetDb then
      match IncrementalValue(parser, targetDb, runSql)
      case Failure(e) => Failure(e)
      case Success(value) => runSql(sourceDb, TemplatedSql(parser, IncrementalArgs(value)))
    else FullExtractOf(parser, sourceDb, runSql)
  }

  function ExtractUnsupportedMessage(extractType: string): string
  {
    "Extraction type '" + extractType + "' is not supported. Skipping extraction."
  }

  /** `extract`: the extract the configuration asks for. */
  function Extract(parser: SqlExtractParser, sourceDb: Db, targetDb: Db, runSql: RunSql): Result<seq<Row>>
  {
    if parser.config.extractType == FullExtract then FullExtractOf(parser, sourceDb, runSql)
    else if parser.config.extractType == IncrementalExtract then IncrementalExtractOf(parser, sourceDb, targetDb, runSql)
    else Failure(Raised(ExtractUnsupportedMessage(parser.config.extractType)))
  }

  /** A full extract runs the non-incremental rendering on the source and never looks at
      the target. */
  lemma FullExtractIgnoresTarget(parser: SqlExtractParser, sourceDb: Db, targetDb: Db, otherTarget: Db, runSql: RunSql)
    requires parser.config.extractType == FullExtract
    ensures Extract(parser, sourceDb, targetDb, runSql) == runSql(sourceDb, parser.template.render(FullArgs))
    ensures Extract(parser, sourceDb, targetDb, runSql) == Extract(parser, sourceDb, otherTarget, runSql)
  {
  }

  /** An incremental extract against a target that has the table runs, on the source,
      the rendering from the first row's `incremental_value` of the target's answer to
      the `max` query over the configured column and table. */
  lemma IncrementalUsesTargetMax(parser: SqlExtractParser, sourceDb: Db, targetDb: Db, runSql: RunSql, rows: seq<Row>)
    requires parser.config.extractType == IncrementalExtract
    requires parser.config.sourceTableName in targetDb
    requires runSql(targetDb, IncrementalValueQuery(parser.config)) == Success(rows) && rows != []
    ensures Extract(parser, sourceDb, targetDb, runSql)
            == runSql(sourceDb, parser.template.render(IncrementalArgs(Get(rows[0], "incremental_value"))))
  {
  }

  /** An incremental extract whose `max` query on the target answers no row fails at
      `sql_response[0]` with `IndexError`, and one whose query raises fails with that
      error; nothing is read from the source. */
  lemma IncrementalValueErrors(parser: SqlExtractParser, sourceDb: Db, targetDb: Db, runSql: RunSql)
    requires parser.config.extractType == IncrementalExtract
    requires parser.config.sourceTableName in targetDb
    ensures runSql(targetDb, IncrementalValueQuery(parser.config)) == Success([]) ==>
              Extract(parser, sourceDb, targetDb, runSql) == Failure(IndexError)
    ensures runSql(targetDb, IncrementalValueQuery(parser.config)).Failure? ==>
              Extract(parser, sourceDb, targetDb, runSql) == Failure(runSql(targetDb, IncrementalValueQuery(parser.config)).error)
  {
  }

  /** Without the table in the target, an incremental extract is exactly the full
      extract of the same template. */
  lemma IncrementalFallsBackToFull(parser: SqlExtractParser, sourceDb: Db, targetDb: Db, runSql: RunSql)
    requires parser.config.extractType == IncrementalExtract
    requires parser.config.sourceTableName !in targetDb
    ensures Extract(parser, sourceDb, targetDb, runSql)
            == Extract(parser.(config := parser.config.(extractType := FullExtract)), sourceDb, targetDb, runSql)
  {
  }

  /** The `raise` of `extract` is out of reach for a parser built from an environment:
      its configuration passed the constructor, so the extract is the full or the
      incremental one. */
  lemma ExtractRaiseUnreachable(env: Environment, filePath: string, sourceDb: Db, targetDb: Db, runSql: RunSql)
    requires NewSqlExtractParser(env, filePath).Success?
    ensures var parser := NewSqlExtractParser(env, filePath).value;
            Extract(parser, sourceDb, targetDb, runSql)
            == if parser.config.extractType == FullExtract then FullExtractOf(parser, sourceDb, runSql)
               else IncrementalExtractOf(parser, sourceDb, targetDb, runSql)
  {
  }

  /** A configuration of any other type raises, naming the type. */
  lemma UnsupportedExtractRaises(parser: SqlExtractParser, sourceDb: Db, targetDb: Db, runSql: RunSql)
    requires !Supported(parser.config)
    ensures Extract(parser, sourceDb, targetDb, runSql)
            == Failure(Raised(ExtractUnsupportedMessage(parser.config.extractType)))
  {
  }
}

=== FILE: extract_load_transform.dfy ===
/** `assets/extract_load_transform.py`: copying every extract template's rows from a
    source database into a target, and materialising SQL transforms one table at a
    time in dependency order. What a script does to a database is a parameter
    (`execute`), and `graphlib`'s `static_order` is given as its result. */
module ExtractLoadTransform {
  import opened Wrappers
  import opened Text
  import opened PostgreSql
  import opened DatabaseExtractor

  // ------------------------------------------------------------- extract_load

  /** The default `chunksize` of `upsert_in_chunks`. */
  const DefaultChunkSize: int := 1000

  /** One template of `extract_load`: the parser, the source table's schema, the extract,
      then the chunked upsert into the target. */
  function ExtractLoadStep(env: Environment, name: string, sourceDb: Db, targetDb: Db, runSql: RunSql): Outcome
  {
    match NewSqlExtractParser(env, name)
    case Failure(e) => Outcome(targetDb, Failure(e))
    case Success(parser) =>
      match TableSchemaSpec(sourceDb, parser.config.sourceTableName)
      case Failure(e) => Outcome(targetDb, Failure(e))
      case Success(schema) =>
        match Extract(parser, sourceDb, targetDb, runSql)
        case Failure(e) => Outcome(targetDb, Failure(e))
        case Success(data) => UpsertInChunksSpec(targetDb, data, schema.0, schema.1, DefaultChunkSize)
  }

  /** `ExtractLoadStep` for the templates of one environment: a template's name, the
      source's state and the target's state give the target's new state. */
  function LoadStep(env: Environment, runSql: RunSql): (string, Db, Db) -> Outcome
  {
    (name: string, sourceDb: Db, targetDb: Db) => ExtractLoadStep(env, name, sourceDb, targetDb, runSql)
  }

  /** The loop of `extract_load` from the `k`-th template name on, with `load` for the
      body, stopping at the first template that raises. When the source and the target
      are one client, each template reads the database the earlier ones wrote. */
  function ExtractLoadFrom(load: (string, Db, Db) -> Outcome, names: seq<string>, k: nat,
                           sourceDb: Db, targetDb: Db, sameClient: bool): Outcome
    decreases |names| - k
  {
    if k >= |names| then Outcome(targetDb, Success(()))
    else
      var o := load(names[k], if sameClient then targetDb else sourceDb, targetDb);
      if o.result.Failure? then o else ExtractLoadFrom(load, names, k + 1, sourceDb, o.db, sameClient)
  }

  /** `extract_load` over every template of `env`, in `list_templates` order. */
  function ExtractLoadSpec(env: Environment, sourceDb: Db, targetDb: Db, sameClient: bool, runSql: RunSql): Outcome
  {
    ExtractLoadFrom(LoadStep(env, runSql), env.names, 0, sourceDb, targetDb, sameClient)
  }

  /** With no template, nothing is written. */
  lemma NoTemplatesNoWrites(env: Environment, sourceDb: Db, targetDb: Db, sameClient: bool, runSql: RunSql)
    requires env.names == []
    ensures ExtractLoadSpec(env, sourceDb, targetDb, sameClient, runSql) == Outcome(targetDb, Success(()))
  {
  }

  /** A template whose parser, schema and extract succeed upserts the extracted rows in
      chunks of 1000 into the table the source's schema describes; an incremental
      template whose table the target already has extracts from the target's largest
      value. */
  lemma TemplateUpsertsExtract(env: Environment, name: string, sourceDb: Db, targetDb: Db, runSql: RunSql)
    requires NewSqlExtractParser(env, name).Success?
    requires var parser := NewSqlExtractParser(env, name).value;
             parser.config.sourceTableName in sourceDb
    ensures var parser := NewSqlExtractParser(env, name).value;
            var table := ReflectedMetadata(sourceDb)[parser.config.sourceTableName];
            && (Extract(parser, sourceDb, targetDb, runSql).Failure? ==>
                  ExtractLoadStep(env, name, sourceDb, targetDb, runSql)
                  == Outcome(targetDb, Failure(Extract(parser, sourceDb, targetDb, runSql).error)))
            && (Extract(parser, sourceDb, targetDb, runSql).Success? ==>
                  ExtractLoadStep(env, name, sourceDb, targetDb, runSql)
                  == UpsertInChunksSpec(targetDb, Extract(parser, sourceDb, targetDb, runSql).value, table,
                                        ReflectedMetadata(sourceDb), DefaultChunkSize))
  {
    var parser := NewSqlExtractParser(env, name).value;
    TableSchemaOf(sourceDb, parser.config.sourceTableName, targetDb);
  }

  /** A template whose table the source lacks fails with `KeyError` and writes nothing. */
  lemma MissingSourceTableWritesNothing(env: Environment, name: string, sourceDb: Db, targetDb: Db, runSql: RunSql)
    requires NewSqlExtractParser(env, name).Success?
    requires NewSqlExtractParser(env, name).value.config.sourceTableName !in sourceDb
    ensures ExtractLoadStep(env, name, sourceDb, targetDb, runSql) == Outcome(targetDb, Failure(KeyError))
  {
    TableSchemaOf(sourceDb, NewSqlExtractParser(env, name).value.config.sourceTableName, targetDb);
  }

  /** The templates before the first failing one stay loaded: the run over all the
      names is the run over the first `k` of them followed by the rest, from what
      those left behind. */
  lemma {:induction false} ExtractLoadPrefix(load: (string, Db, Db) -> Outcome, names: seq<string>, k: nat,
                                             sourceDb: Db, targetDb: Db, sameClient: bool)
    requires k <= |names|
    ensures var upTo := ExtractLoadFrom(load, names[..k], 0, sourceDb, targetDb, sameClient);
            ExtractLoadFrom(load, names, 0, sourceDb, targetDb, sameClient)
            == if upTo.result.Failure? then upTo else ExtractLoadFrom(load, names, k, sourceDb, upTo.db, sameClient)
  {
    PrefixFrom(load, names, 0, k, sourceDb, targetDb, sameClient);
  }

  lemma {:induction false} PrefixFrom(load: (string, Db, Db) -> Outcome, names: seq<string>, j: nat, k: nat,
                                      sourceDb: Db, targetDb: Db, sameClient: bool)
    requires j <= k <= |names|
    ensures var upTo := ExtractLoadFrom(load, names[..k], j, sourceDb, targetDb, sameClient);
            ExtractLoadFrom(load, names, j, sourceDb, targetDb, sameClient)
            == if upTo.result.Failure? then upTo else ExtractLoadFrom(load, names, k, sourceDb, upTo.db, sameClient)
    decreases k - j
  {
    if j < k {
      assert names[..k][j] == names[j];
      var o := load(names[j], if sameClient then targetDb else sourceDb, targetDb);
      if o.result.Success? {
        PrefixFrom(load, names, j + 1, k, sourceDb, o.db, sameClient);
      }
    }
  }

  // ---------------------------------------------------------------- transforms

  /** A `SqlTransform`: the table it materialises and its template. */
  datatype SqlTransform = SqlTransform(tableName: string, template: Template)

  /** The name of a transform's template: the table's name with `.sql`. */
  function TemplateName(tableName: string): (name: string)
    ensures |name| == |tableName| + 4 && name[..|tableName|] == tableName && name[|tableName|..] == ".sql"
  {
    tableName + ".sql"
  }

  /** Different tables use different templates. */
  lemma TemplateNameInjective(a: string, b: string)
    requires TemplateName(a) == TemplateName(b)
    ensures a == b
  {
    assert a == TemplateName(a)[..|a|];
  }

  /** `SqlTransform(postgresql_client, environment, table_name)`: the constructor loads
      the template named after the table. */
  function NewSqlTransform(env: Environment, tableName: string): (r: Result<SqlTransform>)
    ensures r.Success? <==> TemplateName(tableName) in env.templates
    ensures r.Success? ==> r.value.tableName == tableName && r.value.template == env.templates[TemplateName(tableName)]
    ensures r.Failure? ==> r.error == TemplateNotFound(TemplateName(tableName))
  {
    match GetTemplate(env, TemplateName(tableName))
    case Failure(e) => Failure(e)
    case Success(template) => Success(SqlTransform(tableName, template))
  }

  /** The two statements of `create_table_as`, as its f-string lays them out. */
  function DropStatement(tableName: string): string
  {
    "\n            drop table if exists " + tableName
  }

  function CreateStatement(tableName: string, select: string): string
  {
    "\n            create table " + tableName + " as (\n                " + select + "\n            )\n        "
  }

  /** The script of `create_table_as`: drop the table, then create it from the rendered
      select. */
  function CreateTableAsScript(node: SqlTransform): string
  {
    DropStatement(node.tableName) + ";" + CreateStatement(node.tableName, node.template.render(NoArgs))
  }

  /** When neither the table name nor the rendered select holds a `;`, the script is
      exactly two statements: first the drop, then the create, both of the node's
      table. */
  lemma {:induction false} ScriptDropsThenCreates(node: SqlTransform)
    requires ';' !in node.tableName && ';' !in node.template.render(NoArgs)
    ensures Split(CreateTableAsScript(node), ';')
            == [DropStatement(node.tableName), CreateStatement(node.tableName, node.template.render(NoArgs))]
  {
    var drop, create := DropStatement(node.tableName), CreateStatement(node.tableName, node.template.render(NoArgs));
    assert ';' !in drop by {
      assert drop == "\n            drop table if exists " + node.tableName;
    }
    assert ';' !in create by {
      assert create == "\n            create table " + node.tableName + " as (\n                "
                       + node.template.render(NoArgs) + "\n            )\n        ";
    }
    assert Join([drop, create], ';') == CreateTableAsScript(node);
    SplitJoin([drop, create], ';');
  }

  /** Nodes of the dependency graph, as `graphlib` holds them: by identity. */
  type NodeId = nat

  /** A `TopologicalSorter`: its nodes, and each node's predecessors. */
  datatype Dag = Dag(nodes: map<NodeId, SqlTransform>, predecessors: map<NodeId, set<NodeId>>)

  function Predecessors(dag: Dag, n: NodeId): set<NodeId>
  {
    if n in dag.predecessors then dag.predecessors[n] else {}
  }

  /** What `static_order` promises: every node exactly once, each after all of its
      predecessors. */
  predicate IsStaticOrder(dag: Dag, order: seq<NodeId>)
  {
    && (forall i, j :: 0 <= i < j < |order| ==> order[i] != order[j])
    && (forall i :: 0 <= i < |order| ==> order[i] in dag.nodes)
    && (forall n :: n in dag.nodes ==> n in order)
    && (forall i, p :: 0 <= i < |order| && p in Predecessors(dag, order[i]) ==> p in order[..i])
  }

  /** What `transform` leaves behind, and the nodes whose `create_table_as` it called,
      in call order. */
  datatype Run = Run(db: Db, result: Result<()>, ran: seq<NodeId>)

  /** The nodes of `order` from the `k`-th on, stopping at the first that raises. */
  function RunFrom(dag: Dag, order: seq<NodeId>, k: nat, db: Db, execute: (Db, string) -> Result<Db>): Run
    requires forall i :: 0 <= i < |order| ==> order[i] in dag.nodes
    decreases |order| - k
  {
    if k >= |order| then Run(db, Success(()), [])
    else
      match execute(db, CreateTableAsScript(dag.nodes[order[k]]))
      case Failure(e) => Run(db, Failure(e), [order[k]])
      case Success(after) =>
        var rest := RunFrom(dag, order, k + 1, after, execute);
        Run(rest.db, rest.result, [order[k]] + rest.ran)
  }

  /** `transform`: the whole order first (a cycle raises before any node runs), then
      `create_table_as` on each node in that order. */
  function TransformSpec(dag: Dag, order: Result<seq<NodeId>>, db: Db, execute: (Db, string) -> Result<Db>): Run
    requires order.Success? ==> IsStaticOrder(dag, order.value)
  {
    match order
    case Failure(e) => Run(db, Failure(e), [])
    case Success(nodes) => RunFrom(dag, nodes, 0, db, execute)
  }

  /** The scripts of `nodes`, all succeeding, one after the other. */
  function RunAll(dag: Dag, nodes: seq<NodeId>, db: Db, execute: (Db, string) -> Result<Db>): Result<Db>
    requires forall i :: 0 <= i < |nodes| ==> nodes[i] in dag.nodes
    decreases |nodes|
  {
    if nodes == [] then Success(db)
    else
      match execute(db, CreateTableAsScript(dag.nodes[nodes[0]]))
      case Failure(e) => Failure(e)
      case Success(after) => RunAll(dag, nodes[1..], after, execute)
  }

  /** The run from the `k`-th node calls a prefix of the rest of the order, in order. */
  lemma {:induction false} RunFromCallsPrefix(dag: Dag, order: seq<NodeId>, k: nat, db: Db, execute: (Db, string) -> Result<Db>)
    requires forall i :: 0 <= i < |order| ==> order[i] in dag.nodes
    requires k <= |order|
    ensures var run := RunFrom(dag, order, k, db, execute);
            |run.ran| <= |order| - k && run.ran == order[k..k + |run.ran|]
    decreases |order| - k
  {
    if k < |order| {
      var run := RunFrom(dag, order, k, db, execute);
      match execute(db, CreateTableAsScript(dag.nodes[order[k]]))
      case Failure(e) =>
        assert run.ran == [order[k]] == order[k..k + 1];
      case Success(after) =>
        var rest := RunFrom(dag, order, k + 1, after, execute);
        assert run.ran == [order[k]] + rest.ran;
        RunFromCallsPrefix(dag, order, k + 1, after, execute);
        assert order[k..k + |run.ran|] == [order[k]] + order[k + 1..k + 1 + |rest.ran|];
    }
  }

  /** A run from the `k`-th node that succeeds called every remaining node, and the
      database is what their scripts make of it one after the other. */
  lemma {:induction false} RunFromSucceeds(dag: Dag, order: seq<NodeId>, k: nat, db: Db, execute: (Db, string) -> Result<Db>)
    requires forall i :: 0 <= i < |order| ==> order[i] in dag.nodes
    requires k <= |order|
    requires RunFrom(dag, order, k, db, execute).result.Success?
    ensures var run := RunFrom(dag, order, k, db, execute);
            run.ran == order[k..] && RunAll(dag, order[k..], db, execute) == Success(run.db)
    decreases |order| - k
  {
    if k < |order| {
      var after := execute(db, CreateTableAsScript(dag.nodes[order[k]])).value;
      RunFromSucceeds(dag, order, k + 1, after, execute);
      assert order[k..] == [order[k]] + order[k + 1..];
      assert order[k..][1..] == order[k + 1..];
    }
  }

  /** A run from the `k`-th node that fails stops at the node whose script raised, after
      the nodes before it have made the database what it is: their tables stay. */
  lemma {:induction false} RunFromFails(dag: Dag, order: seq<NodeId>, k: nat, db: Db, execute: (Db, string) -> Result<Db>)
    requires forall i :: 0 <= i < |order| ==> order[i] in dag.nodes
    requires k <= |order|
    requires RunFrom(dag, order, k, db, execute).result.Failure?
    ensures var run := RunFrom(dag, order, k, db, execute);
            && |run.ran| >= 1 && (forall i :: 0 <= i < |run.ran| ==> run.ran[i] in dag.nodes)
            && RunAll(dag, run.ran[..|run.ran| - 1], db, execute) == Success(run.db)
            && execute(run.db, CreateTableAsScript(dag.nodes[run.ran[|run.ran| - 1]])) == Failure(run.result.error)
    decreases |order| - k
  {
    var run := RunFrom(dag, order, k, db, execute);
    RunFromCallsPrefix(dag, order, k, db, execute);
    match execute(db, CreateTableAsScript(dag.nodes[order[k]]))
    case Failure(e) =>
      assert run.ran[..0] == [];
    case Success(after) =>
      var rest := RunFrom(dag, order, k + 1, after, execute);
      RunFromFails(dag, order, k + 1, after, execute);
      assert run.ran[..|run.ran| - 1] == [order[k]] + rest.ran[..|rest.ran| - 1];
      assert run.ran[..|run.ran| - 1][1..] == rest.ran[..|rest.ran| - 1];
  }

  /** A cycle stops `transform` before any node runs: nothing is called and nothing
      changes. */
  lemma CycleRunsNothing(dag: Dag, db: Db, execute: (Db, string) -> Result<Db>)
    ensures TransformSpec(dag, Failure(CycleError), db, execute) == Run(db, Failure(CycleError), [])
  {
  }

  /** A successful `transform` calls `create_table_as` once on every node of the graph,
      each after all of its predecessors; a failed one stops at the failing node, after
      having called only nodes whose predecessors had all run before them. */
  lemma {:induction false} TransformRunsInDependencyOrder(dag: Dag, order: seq<NodeId>, db: Db, execute: (Db, string) -> Result<Db>)
    requires IsStaticOrder(dag, order)
    ensures var run := TransformSpec(dag, Success(order), db, execute);
            && (forall i, j :: 0 <= i < j < |run.ran| ==> run.ran[i] != run.ran[j])
            && (forall i, p :: 0 <= i < |run.ran| && p in Predecessors(dag, run.ran[i]) ==> p in run.ran[..i])
            && (run.result.Success? ==> forall n :: n in dag.nodes <==> n in run.ran)
  {
    var run := TransformSpec(dag, Success(order), db, execute);
    RunFromCallsPrefix(dag, order, 0, db, execute);
    assert run.ran == order[..|run.ran|];
    forall i, p | 0 <= i < |run.ran| && p in Predecessors(dag, run.ran[i])
      ensures p in run.ran[..i]
    {
      assert run.ran[i] == order[i];
      assert run.ran[..i] == order[..i];
    }
    if run.result.Success? {
      RunFromSucceeds(dag, order, 0, db, execute);
      assert run.ran == order;
    }
  }

  // ------------------------------------------------------------ the methods

  /** `create_table_as` on a node whose client is `client`. */
  method CreateTableAs(client: PostgreSqlClient, node: SqlTransform, execute: (Db, string) -> Result<Db>)
    returns (r: Result<()>)
    modifies client
    ensures Outcome(client.db, r) == ExecuteSpec(old(client.db), CreateTableAsScript(node), execute)
  {
    var execSql := DropStatement(node.tableName) + ";" + CreateStatement(node.tableName, node.template.render(NoArgs));
    r := client.ExecuteSql(execSql, execute);
  }

  /** The run from the `k`-th node, after the nodes `ran` have been called. */
  function RunAfter(dag: Dag, order: seq<NodeId>, k: nat, db: Db, execute: (Db, string) -> Result<Db>, ran: seq<NodeId>): Run
    requires forall i :: 0 <= i < |order| ==> order[i] in dag.nodes
  {
    var rest := RunFrom(dag, order, k, db, execute);
    Run(rest.db, rest.result, ran + rest.ran)
  }

  /** One turn of the loop of `transform`: `create_table_as` on the `i`-th node. */
  method TransformNode(client: PostgreSqlClient, dag: Dag, order: seq<NodeId>, i: nat,
                       execute: (Db, string) -> Result<Db>, ghost ran: seq<NodeId>, ghost goal: Run)
    returns (r: Result<()>)
    requires forall j :: 0 <= j < |order| ==> order[j] in dag.nodes
    requires i < |order|
    requires RunAfter(dag, order, i, client.db, execute, ran) == goal
    modifies client
    ensures r.Failure? ==> Run(client.db, r, ran + [order[i]]) == goal
    ensures r.Success? ==> RunAfter(dag, order, i + 1, client.db, execute, ran + [order[i]]) == goal
  {
    ghost var rest := RunFrom(dag, order, i + 1, client.db, execute);
    r := CreateTableAs(client, dag.nodes[order[i]], execute);
    if r.Success? {
      assert ran + [order[i]] + RunFrom(dag, order, i + 1, client.db, execute).ran
             == ran + ([order[i]] + RunFrom(dag, order, i + 1, client.db, execute).ran);
    }
  }

  /** `transform`, with every node writing through `client` as the pipeline builds
      them; `ran` records the nodes whose `create_table_as` was called. */
  method Transform(client: PostgreSqlClient, dag: Dag, staticOrder: Result<seq<NodeId>>, execute: (Db, string) -> Result<Db>)
    returns (r: Result<()>, ghost ran: seq<NodeId>)
    requires staticOrder.Success? ==> IsStaticOrder(dag, staticOrder.value)
    modifies client
    ensures Run(client.db, r, ran) == TransformSpec(dag, staticOrder, old(client.db), execute)
  {
    ran := [];
    if staticOrder.Failure? {
      return Failure(staticOrder.error), ran;
    }
    var dagRendered := staticOrder.value;
    ghost var goal := RunAfter(dag, dagRendered, 0, client.db, execute, []);
    assert [] + RunFrom(dag, dagRendered, 0, client.db, execute).ran == RunFrom(dag, dagRendered, 0, client.db, execute).ran;
    var i := 0;
    while i < |dagRendered|
      invariant 0 <= i <= |dagRendered|
      invariant RunAfter(dag, dagRendered, i, client.db, execute, ran) == goal
    {
      r := TransformNode(client, dag, dagRendered, i, execute, ran, goal);
      ran := ran + [dagRendered[i]];
      if r.Failure? {
        return;
      }
      i := i + 1;
    }
    assert ran + [] == ran;
    return Success(()), ran;
  }

  /** One turn of the loop of `extract_load`: the `k`-th template, loaded from `source`
      into `target`. */
  method ExtractLoadTemplate(env: Environment, k: nat, source: PostgreSqlClient, target: PostgreSqlClient,
                             runSql: RunSql, ghost sourceDb: Db, ghost goal: Outcome)
    returns (r: Result<()>)
    requires k < |env.names|
    requires source != target ==> source.db == sourceDb
    requires ExtractLoadFrom(LoadStep(env, runSql), env.names, k, sourceDb, target.db, source == target) == goal
    modifies target
    ensures r.Failure? ==> Outcome(target.db, r) == goal
    ensures r.Success? ==> ExtractLoadFrom(LoadStep(env, runSql), env.names, k + 1, sourceDb, target.db, source == target) == goal
  {
    var asset := env.names[k];
    assert ExtractLoadStep(env, asset, if source == target then target.db else sourceDb, target.db, runSql)
           == LoadStep(env, runSql)(asset, if source == target then target.db else sourceDb, target.db);
    var sqlExtractParser := NewSqlExtractParser(env, asset);
    if sqlExtractParser.Failure? {
      return Failure(sqlExtractParser.error);
    }
    var parser := sqlExtractParser.value;
    var tableSchema := TableSchemaSpec(source.db, parser.config.sourceTableName);
    if tableSchema.Failure? {
      return Failure(tableSchema.error);
    }
    var (table, metadata) := tableSchema.value;
    var tableData := Extract(parser, source.db, target.db, runSql);
    if tableData.Failure? {
      return Failure(tableData.error);
    }
    r := target.UpsertInChunks(tableData.value, table, metadata, DefaultChunkSize);
  }

  /** `extract_load`: every template of the environment, in `list_templates` order. */
  method ExtractLoad(env: Environment, source: PostgreSqlClient, target: PostgreSqlClient, runSql: RunSql)
    returns (r: Result<()>)
    modifies target
    ensures Outcome(target.db, r) == ExtractLoadSpec(env, old(source.db), old(target.db), source == target, runSql)
  {
    ghost var sourceDb := source.db;
    ghost var goal := ExtractLoadFrom(LoadStep(env, runSql), env.names, 0, sourceDb, target.db, source == target);
    var k := 0;
    while k < |env.names|
      invariant k <= |env.names|
      invariant source != target ==> source.db == sourceDb
      invariant ExtractLoadFrom(LoadStep(env, runSql), env.names, k, sourceDb, target.db, source == target) == goal
    {
      r := ExtractLoadTemplate(env, k, source, target, runSql, sourceDb, goal);
      if r.Failure? {
        return;
      }
      k := k + 1;
    }
    return Success(());
  }
}

=== FILE: extraction.dfy ===
/** `extract_games` and `incremental_modify_dates`: which monthly archives an
    extraction fetches, which of their games it keeps, and how an incremental run moves
    its window. The archive client is a parameter: `fetch(year, month)` is what
    `get_monthly_games` returns, `None` for a failed request. */
module Extraction {
  import opened Wrappers
  import opened Calendar
  import opened MonthlyDates
  import opened Games

  type Fetch = (int, int) -> Option<seq<RawGame>>

  /** The month a date falls in, as `strftime('%Y-%m')` names it. */
  function MonthKey(d: Date): (int, int)
  {
    (d.year, d.month)
  }

  /** `xs` followed by the rows of `r`, or `r`'s error. */
  function Prefixed<T>(xs: seq<T>, r: Result<seq<T>>): Result<seq<T>>
  {
    match r
    case Failure(e) => Failure(e)
    case Success(ys) => Success(xs + ys)
  }

  /** The body of the inner loop for one game: a game without PGN text is skipped, a
      game that fails to parse or whose start date fails `strptime` aborts the run, and a
      parsed game is kept when its start date lies in `[lo, hi]`. */
  function GameStep(game: RawGame, username: string, lo: Date, hi: Date): Result<seq<ParsedGame>>
  {
    match ParseGame(game, username)
    case Failure(e) => Failure(e)
    case Success(None) => Success([])
    case Success(Some(row)) =>
      match Parse(row.record.startDate)
      case Failure(e) => Failure(e)
      case Success(day) => Success(if Le(lo, day) && Le(day, hi) then [row] else [])
  }

  /** The game parses to `row` and its start date lies in `[lo, hi]`. */
  predicate Kept(game: RawGame, username: string, lo: Date, hi: Date, row: ParsedGame)
  {
    && ParseGame(game, username) == Success(Some(row))
    && Parse(row.record.startDate).Success?
    && Le(lo, Parse(row.record.startDate).value) && Le(Parse(row.record.startDate).value, hi)
  }

  // ------------------------------------------------------------- one month

  /** The inner loop over one month's games. */
  function FromGames(games: seq<RawGame>, username: string, lo: Date, hi: Date): Result<seq<ParsedGame>>
    decreases |games|
  {
    if games == [] then Success([])
    else
      match GameStep(games[0], username, lo, hi)
      case Failure(e) => Failure(e)
      case Success(xs) => Prefixed(xs, FromGames(games[1..], username, lo, hi))
  }

  /** The body of `for game in games`. */
  method KeepGame(game: RawGame, username: string, lo: Date, hi: Date) returns (r: Result<seq<ParsedGame>>)
    ensures r == GameStep(game, username, lo, hi)
  {
    var parsedGame := ParseGame(game, username);
    if parsedGame.Failure? {
      return Failure(parsedGame.error);
    }
    if parsedGame.value.None? {
      return Success([]);
    }
    var row := parsedGame.value.value;
    var gameDate := Parse(row.record.startDate);
    if gameDate.Failure? {
      return Failure(gameDate.error);
    }
    if Le(lo, gameDate.value) && Le(gameDate.value, hi) {
      return Success([row]);
    }
    return Success([]);
  }

  /** `for game in games` of one month, appending to `valid_games`. */
  method CollectMonth(games: seq<RawGame>, username: string, lo: Date, hi: Date) returns (r: Result<seq<ParsedGame>>)
    ensures r == FromGames(games, username, lo, hi)
  {
    var validGames: seq<ParsedGame> := [];
    PrefixedNil(FromGames(games, username, lo, hi));
    for k := 0 to |games|
      invariant Prefixed(validGames, FromGames(games[k..], username, lo, hi)) == FromGames(games, username, lo, hi)
    {
      assert games[k..][1..] == games[k + 1..] && games[k..][0] == games[k];
      var kept := KeepGame(games[k], username, lo, hi);
      if kept.Failure? {
        return Failure(kept.error);
      }
      PrefixedAssoc(validGames, kept.value, FromGames(games[k + 1..], username, lo, hi));
      validGames := validGames + kept.value;
    }
    assert validGames + [] == validGames;
    return Success(validGames);
  }

  lemma PrefixedNil<T>(r: Result<seq<T>>)
    ensures Prefixed([], r) == r
  {
    if r.Success? {
      assert [] + r.value == r.value;
    }
  }

  lemma PrefixedAssoc<T>(xs: seq<T>, ys: seq<T>, r: Result<seq<T>>)
    ensures Prefixed(xs, Prefixed(ys, r)) == Prefixed(xs + ys, r)
  {
    if r.Success? {
      assert xs + (ys + r.value) == xs + ys + r.value;
    }
  }

  /** One step of the inner loop: a successful run over the games is the first game's
      row, if it is kept, followed by the run over the others. */
  lemma FromGamesStep(games: seq<RawGame>, username: string, lo: Date, hi: Date)
    requires games != [] && FromGames(games, username, lo, hi).Success?
    ensures FromGames(games[1..], username, lo, hi).Success?
    ensures var xs := GameStep(games[0], username, lo, hi);
            && xs.Success?
            && FromGames(games, username, lo, hi).value == xs.value + FromGames(games[1..], username, lo, hi).value
            && forall row :: row in xs.value <==> Kept(games[0], username, lo, hi, row)
  {
  }

  /** The kept rows are exactly the rows of the month's games that parse and start
      inside the window. */
  lemma {:induction false} FromGamesKeepsWindow(games: seq<RawGame>, username: string, lo: Date, hi: Date)
    requires FromGames(games, username, lo, hi).Success?
    ensures forall row :: row in FromGames(games, username, lo, hi).value <==>
              exists g :: g in games && Kept(g, username, lo, hi, row)
    decreases |games|
  {
    if games != [] {
      var rest := games[1..];
      FromGamesStep(games, username, lo, hi);
      FromGamesKeepsWindow(rest, username, lo, hi);
      var kept := FromGames(games, username, lo, hi).value;
      forall row
        ensures row in kept <==> exists g :: g in games && Kept(g, username, lo, hi, row)
      {
        if row in kept && !Kept(games[0], username, lo, hi, row) {
          var g :| g in rest && Kept(g, username, lo, hi, row);
          assert g in games;
        }
        if exists g :: g in games && Kept(g, username, lo, hi, row) {
          var g :| g in games && Kept(g, username, lo, hi, row);
          if g != games[0] {
            assert g in rest;
          }
        }
      }
    }
  }

  // ------------------------------------------------------------- the months

  /** The outer loop: a month already in `dates_ran` is skipped, any other is fetched,
      and iterating over a failed fetch raises `TypeError`. */
  function FromMonths(months: seq<Date>, ran: seq<(int, int)>, fetch: Fetch, username: string, lo: Date, hi: Date): Result<seq<ParsedGame>>
    decreases |months|
  {
    if months == [] then Success([])
    else
      var key := MonthKey(months[0]);
      if key in ran then FromMonths(months[1..], ran, fetch, username, lo, hi)
      else
        match fetch(key.0, key.1)
        case None => Failure(TypeError)
        case Some(games) =>
          match FromGames(games, username, lo, hi)
          case Failure(e) => Failure(e)
          case Success(kept) => Prefixed(kept, FromMonths(months[1..], ran + [key], fetch, username, lo, hi))
  }

  /** `extract_games` once the months are known: the window is from the first month
      date to the last (`months[0]` raises on an empty list). */
  function FromWindow(months: seq<Date>, fetch: Fetch, username: string): Result<seq<ParsedGame>>
  {
    if |months| == 0 then Failure(IndexError)
    else FromMonths(months, [], fetch, username, months[0], months[|months| - 1])
  }

  /** `extract_games(start_date, end_date, client)` of app/assets. */
  function ExtractGamesSpec(startDate: string, endDate: string, fetch: Fetch, username: string): Result<seq<ParsedGame>>
  {
    match MonthlyDates.MonthlyDates(startDate, endDate)
    case Failure(e) => Failure(e)
    case Success(months) => FromWindow(months, fetch, username)
  }

  /** The loop over `months` with its `dates_ran` list. */
  method ExtractFromMonths(months: seq<Date>, fetch: Fetch, username: string) returns (r: Result<seq<ParsedGame>>)
    ensures r == FromWindow(months, fetch, username)
  {
    if |months| == 0 {
      return Failure(IndexError);
    }
    var validGames: seq<ParsedGame> := [];
    var startDate, endDate := months[0], months[|months| - 1];
    var datesRan: seq<(int, int)> := [];
    PrefixedNil(FromMonths(months, [], fetch, username, startDate, endDate));
    for i := 0 to |months|
      invariant Prefixed(validGames, FromMonths(months[i..], datesRan, fetch, username, startDate, endDate))
                == FromMonths(months, [], fetch, username, startDate, endDate)
    {
      assert months[i..][1..] == months[i + 1..];
      var monthStr := MonthKey(months[i]);
      if monthStr !in datesRan {
        datesRan := datesRan + [monthStr];
        var games := fetch(monthStr.0, monthStr.1);
        if games.None? {
          return Failure(TypeError);
        }
        var kept := CollectMonth(games.value, username, startDate, endDate);
        if kept.Failure? {
          return Failure(kept.error);
        }
        PrefixedAssoc(validGames, kept.value, FromMonths(months[i + 1..], datesRan, fetch, username, startDate, endDate));
        validGames := validGames + kept.value;
      }
    }
    assert validGames + [] == validGames;
    return Success(validGames);
  }

  /** `extract_games` of app/assets. */
  method ExtractGames(startDate: string, endDate: string, fetch: Fetch, username: string) returns (r: Result<seq<ParsedGame>>)
    ensures r == ExtractGamesSpec(startDate, endDate, fetch, username)
  {
    var months := GenerateMonthlyDates(startDate, endDate);
    if months.Failure? {
      return Failure(months.error);
    }
    r := ExtractFromMonths(months.value, fetch, username);
  }

  // ------------------------------------------------------------- requests

  /** The months fetched, in order: each month key the first time it is met, unless it
      was already run. */
  function Requests(months: seq<Date>, ran: seq<(int, int)>): seq<(int, int)>
    decreases |months|
  {
    if months == [] then []
    else
      var key := MonthKey(months[0]);
      if key in ran then Requests(months[1..], ran) else [key] + Requests(months[1..], ran + [key])
  }

  /** Fetching a list of months, in order, and keeping each month's games. */
  function FromKeys(keys: seq<(int, int)>, fetch: Fetch, username: string, lo: Date, hi: Date): Result<seq<ParsedGame>>
    decreases |keys|
  {
    if keys == [] then Success([])
    else
      match fetch(keys[0].0, keys[0].1)
      case None => Failure(TypeError)
      case Some(games) =>
        match FromGames(games, username, lo, hi)
        case Failure(e) => Failure(e)
        case Success(kept) => Prefixed(kept, FromKeys(keys[1..], fetch, username, lo, hi))
  }

  /** The `dates_ran` loop is the fetch of its requests: every month met, once each. */
  lemma {:induction false} LoopFetchesRequests(months: seq<Date>, ran: seq<(int, int)>, fetch: Fetch, username: string, lo: Date, hi: Date)
    ensures FromMonths(months, ran, fetch, username, lo, hi) == FromKeys(Requests(months, ran), fetch, username, lo, hi)
    decreases |months|
  {
    if months != [] {
      var key := MonthKey(months[0]);
      if key in ran {
        LoopFetchesRequests(months[1..], ran, fetch, username, lo, hi);
      } else {
        LoopFetchesRequests(months[1..], ran + [key], fetch, username, lo, hi);
        var keys := [key] + Requests(months[1..], ran + [key]);
        assert keys[0] == key && keys[1..] == Requests(months[1..], ran + [key]);
      }
    }
  }

  /** The requests are distinct, none was already run, and together they are every
      month key of the list not already run. */
  lemma {:induction false} RequestsDistinct(months: seq<Date>, ran: seq<(int, int)>)
    ensures var q := Requests(months, ran);
            && (forall i, j :: 0 <= i < j < |q| ==> q[i] != q[j])
            && (forall k :: k in q <==> k !in ran && exists i :: 0 <= i < |months| && MonthKey(months[i]) == k)
    decreases |months|
  {
    if months != [] {
      var key := MonthKey(months[0]);
      var rest := months[1..];
      assert forall i :: 0 < i < |months| ==> months[i] == rest[i - 1];
      if key in ran {
        RequestsDistinct(rest, ran);
        forall k | k !in ran && (exists i :: 0 <= i < |months| && MonthKey(months[i]) == k)
          ensures exists i :: 0 <= i < |rest| && MonthKey(rest[i]) == k
        {
          var i :| 0 <= i < |months| && MonthKey(months[i]) == k;
          assert i > 0;
          assert MonthKey(rest[i - 1]) == k;
        }
        forall k | k in Requests(rest, ran)
          ensures exists i :: 0 <= i < |months| && MonthKey(months[i]) == k
        {
          var i :| 0 <= i < |rest| && MonthKey(rest[i]) == k;
          assert MonthKey(months[i + 1]) == k;
        }
      } else {
        RequestsDistinct(rest, ran + [key]);
        var q', q := Requests(rest, ran + [key]), Requests(months, ran);
        assert q == [key] + q';
        forall k | k !in ran && (exists i :: 0 <= i < |months| && MonthKey(months[i]) == k)
          ensures k in q
        {
          var i :| 0 <= i < |months| && MonthKey(months[i]) == k;
          if i > 0 {
            assert MonthKey(rest[i - 1]) == k;
          }
        }
        forall k | k in q
          ensures k !in ran && exists i :: 0 <= i < |months| && MonthKey(months[i]) == k
        {
          if k == key {
            assert MonthKey(months[0]) == k;
          } else {
            assert k in q';
            var i :| 0 <= i < |rest| && MonthKey(rest[i]) == k;
            assert MonthKey(months[i + 1]) == k;
          }
        }
        forall i, j | 0 <= i < j < |q|
          ensures q[i] != q[j]
        {
          assert q[j] == q'[j - 1] && q'[j - 1] in q';
          if i > 0 {
            assert q[i] == q'[i - 1];
          }
        }
      }
    }
  }

  /** A same-month window (the shortcut `[start, end]`) fetches its month once. */
  lemma SameMonthFetchedOnce(start: Date, end: Date)
    requires SameMonth(start, end)
    ensures Requests([start, end], []) == [MonthKey(start)]
  {
    assert [start, end][1..] == [end];
    assert [end][1..] == [];
    var k := MonthKey(start);
    assert MonthKey(end) == k;
    assert [] + [k] == [k];
    assert Requests([end], [k]) == [];
  }

  /** Every kept row parsed from a game of a fetched month and starts inside the window. */
  lemma {:induction false} FromKeysKeepsWindow(keys: seq<(int, int)>, fetch: Fetch, username: string, lo: Date, hi: Date)
    requires FromKeys(keys, fetch, username, lo, hi).Success?
    ensures forall row :: row in FromKeys(keys, fetch, username, lo, hi).value ==>
              exists i, g :: 0 <= i < |keys| && fetch(keys[i].0, keys[i].1).Some?
                             && g in fetch(keys[i].0, keys[i].1).value && Kept(g, username, lo, hi, row)
    decreases |keys|
  {
    if keys != [] {
      var games := fetch(keys[0].0, keys[0].1).value;
      FromGamesKeepsWindow(games, username, lo, hi);
      FromKeysKeepsWindow(keys[1..], fetch, username, lo, hi);
      var kept := FromGames(games, username, lo, hi).value;
      forall row | row in FromKeys(keys, fetch, username, lo, hi).value
        ensures exists i, g :: 0 <= i < |keys| && fetch(keys[i].0, keys[i].1).Some?
                               && g in fetch(keys[i].0, keys[i].1).value && Kept(g, username, lo, hi, row)
      {
        if row in kept {
          var g :| g in games && Kept(g, username, lo, hi, row);
          assert 0 < |keys| && g in fetch(keys[0].0, keys[0].1).value;
        } else {
          var i, g :| 0 <= i < |keys[1..]| && fetch(keys[1..][i].0, keys[1..][i].1).Some?
                      && g in fetch(keys[1..][i].0, keys[1..][i].1).value && Kept(g, username, lo, hi, row);
          assert keys[1..][i] == keys[i + 1];
        }
      }
    }
  }

  /** What `extract_games` returns: rows of games of the months it fetched, each inside
      the window from the first month date to the last, fetched once per month. */
  lemma ExtractionSound(startDate: string, endDate: string, fetch: Fetch, username: string)
    requires ExtractGamesSpec(startDate, endDate, fetch, username).Success?
    ensures var months := MonthlyDates.MonthlyDates(startDate, endDate).value;
            var q := Requests(months, []);
            && |months| > 0
            && (forall i, j :: 0 <= i < j < |q| ==> q[i] != q[j])
            && (forall row :: row in ExtractGamesSpec(startDate, endDate, fetch, username).value ==>
                  exists i, g :: 0 <= i < |q| && fetch(q[i].0, q[i].1).Some?
                                 && g in fetch(q[i].0, q[i].1).value
                                 && Kept(g, username, months[0], months[|months| - 1], row))
  {
    var months := MonthlyDates.MonthlyDates(startDate, endDate).value;
    LoopFetchesRequests(months, [], fetch, username, months[0], months[|months| - 1]);
    RequestsDistinct(months, []);
    FromKeysKeepsWindow(Requests(months, []), fetch, username, months[0], months[|months| - 1]);
  }

  /** As written, the window 2023-01-15 to 2023-05-10 never fetches April 2023 (the
      texts of these dates give this window, by `MonthlyDatesOfFormatted`). */
  lemma AprilNeverFetched()
    ensures var months := WindowFrom(Date(2023, 1, 15), Date(2023, 5, 10));
            months.Success? && (2023, 4) !in Requests(months.value, [])
  {
    var months := [Date(2023, 1, 15), Date(2023, 2, 15), Date(2023, 3, 15), Date(2023, 5, 10)];
    assert WindowFrom(Date(2023, 1, 15), Date(2023, 5, 10)) == Success(months) by {
      MonthSkippedExample();
    }
    RequestsDistinct(months, []);
    assert forall i :: 0 <= i < |months| ==> MonthKey(months[i]) != (2023, 4);
  }

  /** With the corrected window every calendar month from the start's to the end's is
      fetched, once, in order. */
  lemma CorrectedFetchesEveryMonth(start: Date, end: Date)
    requires Valid(start) && Valid(end) && !SameMonth(start, end) && Le(start, end)
    ensures CorrectedWindowFrom(start, end).Success?
    ensures var q := Requests(CorrectedWindowFrom(start, end).value, []);
            && |q| == MonthIndex(end) - MonthIndex(start) + 1
            && forall i :: 0 <= i < |q| ==> 12 * q[i].0 + q[i].1 - 1 == MonthIndex(start) + i
  {
    CorrectedCoversEveryMonth(start, end);
    var w := CorrectedWindowFrom(start, end).value;
    DistinctMonthsAllRequested(w, []);
  }

  /** Dates in strictly rising months are all requested, in order. */
  lemma {:induction false} DistinctMonthsAllRequested(w: seq<Date>, ran: seq<(int, int)>)
    requires forall i :: 0 <= i < |w| ==> MonthKey(w[i]) !in ran
    requires forall i, j :: 0 <= i < j < |w| ==> MonthIndex(w[i]) < MonthIndex(w[j])
    ensures Requests(w, ran) == seq(|w|, i requires 0 <= i < |w| => MonthKey(w[i]))
    decreases |w|
  {
    if w != [] {
      var key := MonthKey(w[0]);
      forall i | 0 <= i < |w[1..]|
        ensures MonthKey(w[1..][i]) !in ran + [key]
      {
        assert w[1..][i] == w[i + 1];
        assert MonthIndex(w[0]) < MonthIndex(w[i + 1]);
      }
      DistinctMonthsAllRequested(w[1..], ran + [key]);
    }
  }

  // ------------------------------------------------------------- older copy

  /** The inner loop body of chess_api/assets: every game must parse. */
  function LegacyGameStep(game: RawGame, username: string, lo: Date, hi: Date): Result<seq<GameRecord>>
  {
    match ParseGameLegacy(game, username)
    case Failure(e) => Failure(e)
    case Success(row) =>
      match Parse(row.startDate)
      case Failure(e) => Failure(e)
      case Success(day) => Success(if Le(lo, day) && Le(day, hi) then [row] else [])
  }

  function LegacyFromGames(games: seq<RawGame>, username: string, lo: Date, hi: Date): Result<seq<GameRecord>>
    decreases |games|
  {
    if games == [] then Success([])
    else
      match LegacyGameStep(games[0], username, lo, hi)
      case Failure(e) => Failure(e)
      case Success(xs) => Prefixed(xs, LegacyFromGames(games[1..], username, lo, hi))
  }

  /** The outer loop of chess_api/assets: every month date is fetched, without
      de-duplication. */
  function LegacyFromMonths(months: seq<Date>, fetch: Fetch, username: string, lo: Date, hi: Date): Result<seq<GameRecord>>
    decreases |months|
  {
    if months == [] then Success([])
    else
      match fetch(months[0].year, months[0].month)
      case None => Failure(TypeError)
      case Some(games) =>
        match LegacyFromGames(games, username, lo, hi)
        case Failure(e) => Failure(e)
        case Success(kept) => Prefixed(kept, LegacyFromMonths(months[1..], fetch, username, lo, hi))
  }

  /** `extract_games(start_date, end_date, username)` of chess_api/assets. */
  function LegacyExtractGamesSpec(startDate: string, endDate: string, fetch: Fetch, username: string): Result<seq<GameRecord>>
  {
    match LegacyMonthlyDates(startDate, endDate)
    case Failure(e) => Failure(e)
    case Success(months) =>
      if |months| == 0 then Failure(IndexError)
      else LegacyFromMonths(months, fetch, username, months[0], months[|months| - 1])
  }

  method KeepLegacyGame(game: RawGame, username: string, lo: Date, hi: Date) returns (r: Result<seq<GameRecord>>)
    ensures r == LegacyGameStep(game, username, lo, hi)
  {
    var parsedGame := ParseGameLegacy(game, username);
    if parsedGame.Failure? {
      return Failure(parsedGame.error);
    }
    var gameDate := Parse(parsedGame.value.startDate);
    if gameDate.Failure? {
      return Failure(gameDate.error);
    }
    if Le(lo, gameDate.value) && Le(gameDate.value, hi) {
      return Success([parsedGame.value]);
    }
    return Success([]);
  }

  method CollectLegacyMonth(games: seq<RawGame>, username: string, lo: Date, hi: Date) returns (r: Result<seq<GameRecord>>)
    ensures r == LegacyFromGames(games, username, lo, hi)
  {
    var validGames: seq<GameRecord> := [];
    PrefixedNil(LegacyFromGames(games, username, lo, hi));
    for k := 0 to |games|
      invariant Prefixed(validGames, LegacyFromGames(games[k..], username, lo, hi)) == LegacyFromGames(games, username, lo, hi)
    {
      assert games[k..][1..] == games[k + 1..] && games[k..][0] == games[k];
      var kept := KeepLegacyGame(games[k], username, lo, hi);
      if kept.Failure? {
        return Failure(kept.error);
      }
      PrefixedAssoc(validGames, kept.value, LegacyFromGames(games[k + 1..], username, lo, hi));
      validGames := validGames + kept.value;
    }
    assert validGames + [] == validGames;
    return Success(validGames);
  }

  /** `extract_games` of chess_api/assets. */
  method ExtractGamesLegacy(startDate: string, endDate: string, fetch: Fetch, username: string) returns (r: Result<seq<GameRecord>>)
    ensures r == LegacyExtractGamesSpec(startDate, endDate, fetch, username)
  {
    var generated := GenerateMonthlyDatesLegacy(startDate, endDate);
    if generated.Failure? {
      return Failure(generated.error);
    }
    var months := generated.value;
    if |months| == 0 {
      return Failure(IndexError);
    }
    var validGames: seq<GameRecord> := [];
    var lo, hi := months[0], months[|months| - 1];
    PrefixedNil(LegacyFromMonths(months, fetch, username, lo, hi));
    for i := 0 to |months|
      invariant Prefixed(validGames, LegacyFromMonths(months[i..], fetch, username, lo, hi))
                == LegacyFromMonths(months, fetch, username, lo, hi)
    {
      assert months[i..][1..] == months[i + 1..] && months[i..][0] == months[i];
      var games := fetch(months[i].year, months[i].month);
      if games.None? {
        return Failure(TypeError);
      }
      var kept := CollectLegacyMonth(games.value, username, lo, hi);
      if kept.Failure? {
        return Failure(kept.error);
      }
      PrefixedAssoc(validGames, kept.value, LegacyFromMonths(months[i + 1..], fetch, username, lo, hi));
      validGames := validGames + kept.value;
    }
    assert validGames + [] == validGames;
    return Success(validGames);
  }

  /** The older copy's windows never repeat a month, so the de-duplication the current
      version added would request every one of its month dates. */
  lemma LegacyWindowNeedsNoDedup(start: Date, end: Date)
    requires Valid(start) && Valid(end) && LegacyWindowFrom(start, end).Success?
    ensures var w := LegacyWindowFrom(start, end).value;
            Requests(w, []) == seq(|w|, i requires 0 <= i < |w| => MonthKey(w[i]))
  {
    LegacyMonthsDistinct(start, end);
    DistinctMonthsAllRequested(LegacyWindowFrom(start, end).value, []);
  }

  /** Every row the older copy keeps starts inside its window. */
  lemma {:induction false} LegacyFromGamesInWindow(games: seq<RawGame>, username: string, lo: Date, hi: Date)
    requires LegacyFromGames(games, username, lo, hi).Success?
    ensures forall row :: row in LegacyFromGames(games, username, lo, hi).value ==>
              && (exists g :: g in games && ParseGameLegacy(g, username) == Success(row))
              && Parse(row.startDate).Success?
              && Le(lo, Parse(row.startDate).value) && Le(Parse(row.startDate).value, hi)
    decreases |games|
  {
    if games != [] {
      LegacyFromGamesInWindow(games[1..], username, lo, hi);
      var xs := LegacyGameStep(games[0], username, lo, hi).value;
      assert LegacyFromGames(games, username, lo, hi).value == xs + LegacyFromGames(games[1..], username, lo, hi).value;
      forall row | row in LegacyFromGames(games, username, lo, hi).value
        ensures exists g :: g in games && ParseGameLegacy(g, username) == Success(row)
      {
        if row in xs {
          assert ParseGameLegacy(games[0], username) == Success(row);
        } else {
          var g :| g in games[1..] && ParseGameLegacy(g, username) == Success(row);
          assert g in games;
        }
      }
    }
  }

  // ------------------------------------------------------ incremental window

  /** `incremental_modify_dates`: when the target table exists and holds a latest game
      date for the user, the window becomes two days before that date up to today (`now`,
      the clock, is a parameter); otherwise it is left as it was. `maxValue` is what the
      `select max(...)` query returned, as text. */
  function IncrementalWindow(tableExists: bool, maxValue: Option<string>, now: Date,
                             startDate: string, endDate: string): Result<(string, string)>
    requires Valid(now) && now.year <= 9999
  {
    if !tableExists || maxValue.None? then Success((startDate, endDate))
    else
      match Parse(maxValue.value)
      case Failure(e) => Failure(e)
      case Success(latest) =>
        match MinusDays(latest, 2)
        case Failure(e) => Failure(e)
        case Success(from) => Success((Format(from), Format(now)))
  }

  /** An incremental run re-reads the last two days: the new start is the day two days
      before the latest stored date, and the new end is today. */
  lemma IncrementalRereadsTwoDays(maxValue: string, now: Date, startDate: string, endDate: string)
    requires Valid(now) && now.year <= 9999
    requires Parse(maxValue).Success? && Parse(maxValue).value.year >= 2
    ensures IncrementalWindow(true, Some(maxValue), now, startDate, endDate).Success?
    ensures var (from, to) := IncrementalWindow(true, Some(maxValue), now, startDate, endDate).value;
            && Parse(from).Success? && Parse(to) == Success(now)
            && NextDay(NextDay(Parse(from).value)) == Parse(maxValue).value
  {
    var latest := Parse(maxValue).value;
    PrevDayInverse(latest);
    var p1 := PrevDay(latest).value;
    PrevDayInverse(p1);
    var p2 := PrevDay(p1).value;
    assert MinusDays(p1, 1) == Success(p2) by {
      assert MinusDays(p2, 0) == Success(p2);
    }
    assert MinusDays(latest, 2) == Success(p2);
    ParseFormat(p2);
    ParseFormat(now);
  }

  /** Without the table, or without a stored game for the user, the window is kept;
      a stored date `strptime` cannot read raises `ValueError`. */
  lemma IncrementalKeepsWindow(tableExists: bool, maxValue: Option<string>, now: Date, startDate: string, endDate: string)
    requires Valid(now) && now.year <= 9999
    ensures !tableExists || maxValue.None? ==>
              IncrementalWindow(tableExists, maxValue, now, startDate, endDate) == Success((startDate, endDate))
    ensures tableExists && maxValue.Some? && Parse(maxValue.value).Failure? ==>
              IncrementalWindow(tableExists, maxValue, now, startDate, endDate) == Failure(ValueError)
  {
  }

  /** The docstring's example, restated with the maximum as the text "2023-01-01" that
      the String column `start_date` of the games table holds (the docstring's own mock
      returns a `datetime`, which `strptime` does not accept): that latest stored date
      restarts the window on 2022-12-30 and ends it today. */
  lemma IncrementalExample(now: Date)
    requires Valid(now) && now.year <= 9999
    ensures IncrementalWindow(true, Some("2023-01-01"), now, "2022-01-01", "2023-01-01")
            == Success((Format(Date(2022, 12, 30)), Format(now)))
  {
    ParseDigits("2023-01-01");
    assert Parse("2023-01-01") == Success(Date(2023, 1, 1));
    assert PrevDay(Date(2023, 1, 1)) == Success(Date(2022, 12, 31));
    assert MinusDays(Date(2022, 12, 30), 0) == Success(Date(2022, 12, 30));
    assert MinusDays(Date(2023, 1, 1), 2) == Success(Date(2022, 12, 30));
  }
}

=== FILE: features.dfy ===
/** The per-game columns `transform` derives: the user's average time per move read
    from the clock comments of the PGN text (`_get_avg_move_time`), the rating
    difference, the match result and the game duration as `HH:MM:SS`
    (`format_timedelta`). */
module Features {
  import opened Wrappers
  import opened Text
  import opened Calendar
  import opened Pgn
  import opened Games

  // ------------------------------------------ re.findall(r'\[%clk (\d+:\d+:\d+\.\d+)\]')

  /** The four digit groups of one clock comment `[%clk H:M:S.F]`. */
  datatype Clock = Clock(hours: string, minutes: string, seconds: string, fraction: string)

  /** What one `\d+` matches. */
  predicate IsGroup(d: string)
  {
    |d| > 0 && AllDigits(d)
  }

  predicate WellFormed(c: Clock)
  {
    IsGroup(c.hours) && IsGroup(c.minutes) && IsGroup(c.seconds) && IsGroup(c.fraction)
  }

  function Groups(c: Clock): seq<string>
  {
    [c.hours, c.minutes, c.seconds, c.fraction]
  }

  /** The character that closes each group of the pattern. */
  const ClockStops: seq<char> := [':', ':', '.', ']']

  function ClockOpen(): string { "[%clk " }

  /** Each group followed by its closing character. */
  function Joined(groups: seq<string>, stops: seq<char>): string
    requires |groups| == |stops|
  {
    if groups == [] then [] else groups[0] + [stops[0]] + Joined(groups[1..], stops[1..])
  }

  /** What follows `[%clk `: the four groups, each closed by its separator. */
  function Fields(c: Clock): string
  {
    Joined(Groups(c), ClockStops)
  }

  /** The text of a clock comment, as the PGN clock-command extension writes it. */
  function Render(c: Clock): string
  {
    ClockOpen() + Fields(c)
  }

  /** One group of the pattern at the start of `t`: a greedy run of digits, at least
      one, then the character `stop`; gives the digits and the length read. */
  function DigitsThen(t: string, stop: char): (r: Option<(string, nat)>)
    ensures r.Some? ==> IsGroup(r.value.0) && r.value.1 <= |t| && t[..r.value.1] == r.value.0 + [stop]
  {
    var j := DigitRunEnd(t, 0);
    if j > 0 && j < |t| && t[j] == stop then
      assert t[..j + 1] == t[0..j] + [stop];
      Some((t[0..j], j + 1))
    else None
  }

  /** A prefix of `t` that reads `a` and then, from there on, `b`, is `a + b`. */
  lemma {:induction false} JoinedPrefix(t: string, n: nat, k: nat, a: string, b: string)
    requires n + k <= |t| && t[..n] == a && t[n..][..k] == b
    ensures t[..n + k] == a + b
  {
    assert t[..n + k] == t[..n] + t[n..][..k];
  }

  /** The groups closed by `stops`, one after the other, at the start of `t`, and the
      length read. */
  function ReadGroups(t: string, stops: seq<char>): (r: Option<(seq<string>, nat)>)
    ensures r.Some? ==> && |r.value.0| == |stops| && r.value.1 <= |t|
                        && (forall i :: 0 <= i < |stops| ==> IsGroup(r.value.0[i]))
                        && t[..r.value.1] == Joined(r.value.0, stops)
    decreases |stops|
  {
    if stops == [] then Some(([], 0))
    else
      match DigitsThen(t, stops[0])
      case None => None
      case Some((d, n)) =>
        match ReadGroups(t[n..], stops[1..])
        case None => None
        case Some((ds, m)) =>
          JoinedPrefix(t, n, m, d + [stops[0]], Joined(ds, stops[1..]));
          assert ([d] + ds)[1..] == ds;
          Some(([d] + ds, n + m))
  }

  /** The clock comment the pattern matches at the very start of `s`, and the length of
      the match. Each digit run is greedy and is followed by a non-digit, so the regular
      expression has at most one match starting at any position. */
  function ClockAt(s: string): (r: Option<(Clock, nat)>)
    ensures r.Some? ==> WellFormed(r.value.0) && 0 < r.value.1 <= |s| && s[..r.value.1] == Render(r.value.0)
  {
    if |s| >= 6 && s[..6] == ClockOpen() then
      match ReadGroups(s[6..], ClockStops)
      case None => None
      case Some((g, n)) =>
        ClockOfGroups(s, g, n);
        Some((Clock(g[0], g[1], g[2], g[3]), 6 + n))
    else None
  }

  /** The four groups read after `[%clk ` make a well-formed clock whose rendering is
      the text read. */
  lemma ClockOfGroups(s: string, g: seq<string>, n: nat)
    requires |s| >= 6 && s[..6] == ClockOpen()
    requires ReadGroups(s[6..], ClockStops) == Some((g, n))
    ensures |g| == 4
    ensures var c := Clock(g[0], g[1], g[2], g[3]);
            WellFormed(c) && 6 + n <= |s| && s[..6 + n] == Render(c)
  {
    assert |ClockStops| == 4;
    GroupsOfFour(g);
    JoinedPrefix(s, 6, n, ClockOpen(), Fields(Clock(g[0], g[1], g[2], g[3])));
  }

  /** Four digit groups are the groups of the well-formed clock made of them. */
  lemma GroupsOfFour(g: seq<string>)
    requires |g| == 4 && forall i :: 0 <= i < 4 ==> IsGroup(g[i])
    ensures Groups(Clock(g[0], g[1], g[2], g[3])) == g
    ensures WellFormed(Clock(g[0], g[1], g[2], g[3]))
  {
    assert IsGroup(g[0]) && IsGroup(g[1]) && IsGroup(g[2]) && IsGroup(g[3]);
  }

  /** `re.findall`: the clock comments of `s` from left to right, resuming after each
      match and one character further after each position that does not match. */
  function ScanClocks(s: string): (r: seq<Clock>)
    ensures forall i :: 0 <= i < |r| ==> WellFormed(r[i])
    decreases |s|
  {
    if s == [] then []
    else
      match ClockAt(s)
      case Some((c, n)) => [c] + ScanClocks(s[n..])
      case None => ScanClocks(s[1..])
  }

  /** `DigitRunEnd` stops at the first non-digit. */
  lemma {:induction false} DigitRunEndAt(s: string, k: nat, j: nat)
    requires k <= j < |s| && AllDigits(s[k..j]) && !IsDigit(s[j])
    ensures DigitRunEnd(s, k) == j
    decreases j - k
  {
    if k < j {
      assert s[k] == s[k..j][0];
      assert s[k + 1..j] == s[k..j][1..];
      DigitRunEndAt(s, k + 1, j);
    }
  }

  /** A group followed by its separator is read in full. */
  lemma {:induction false} DigitsThenOf(d: string, stop: char, rest: string)
    requires IsGroup(d) && !IsDigit(stop)
    ensures DigitsThen(d + [stop] + rest, stop) == Some((d, |d| + 1))
    ensures (d + [stop] + rest)[|d| + 1..] == rest
  {
    var t := d + [stop] + rest;
    assert t[0..|d|] == d;
    DigitRunEndAt(t, 0, |d|);
  }

  /** Groups each closed by a non-digit are read back in full. */
  lemma {:induction false} ReadGroupsOf(groups: seq<string>, stops: seq<char>, rest: string)
    requires |groups| == |stops|
    requires forall i :: 0 <= i < |groups| ==> IsGroup(groups[i])
    requires forall i :: 0 <= i < |stops| ==> !IsDigit(stops[i])
    ensures ReadGroups(Joined(groups, stops) + rest, stops) == Some((groups, |Joined(groups, stops)|))
    decreases |stops|
  {
    if stops == [] {
      assert Joined(groups, stops) + rest == rest;
    } else {
      var d, tail := groups[0], Joined(groups[1..], stops[1..]);
      var t := Joined(groups, stops) + rest;
      assert t == d + [stops[0]] + (tail + rest);
      assert DigitsThen(t, stops[0]) == Some((d, |d| + 1)) && t[|d| + 1..] == tail + rest by {
        DigitsThenOf(d, stops[0], tail + rest);
      }
      assert ReadGroups(tail + rest, stops[1..]) == Some((groups[1..], |tail|)) by {
        ReadGroupsOf(groups[1..], stops[1..], rest);
      }
      assert groups == [d] + groups[1..];
      assert |Joined(groups, stops)| == |d| + 1 + |tail|;
    }
  }

  /** A rendered clock comment is matched in full, with its own four groups. */
  lemma {:induction false} ClockAtRender(c: Clock, rest: string)
    requires WellFormed(c)
    ensures ClockAt(Render(c) + rest) == Some((c, |Render(c)|))
  {
    var s := Render(c) + rest;
    assert s[..6] == ClockOpen();
    assert ReadGroups(s[6..], ClockStops) == Some((Groups(c), |Fields(c)|)) by {
      assert s[6..] == Fields(c) + rest;
      assert forall i :: 0 <= i < |ClockStops| ==> !IsDigit(ClockStops[i]);
      ReadGroupsOf(Groups(c), ClockStops, rest);
    }
  }

  /** After a clock comment the scan goes on with the rest of the text. */
  lemma {:induction false} ScanClocksRender(c: Clock, rest: string)
    requires WellFormed(c)
    ensures ScanClocks(Render(c) + rest) == [c] + ScanClocks(rest)
  {
    ClockAtRender(c, rest);
    assert (Render(c) + rest)[|Render(c)|..] == rest;
  }

  /** Text in which every opening bracket is followed, inside the text, by something
      other than `%`: header rows such as `[Event "Live Chess"]` and the text between
      clock comments. */
  predicate NoClockOpen(x: string)
  {
    forall k :: 0 <= k < |x| && x[k] == '[' ==> k + 1 < |x| && x[k + 1] != '%'
  }

  /** A tag-pair header row opens no clock comment. */
  lemma {:induction false} HeaderRowNoClockOpen(name: string, value: string)
    requires |name| > 0 && name[0] != '%'
    requires forall k :: 0 <= k < |name| ==> name[k] != '['
    requires forall k :: 0 <= k < |value| ==> value[k] != '['
    ensures NoClockOpen("[" + name + " \"" + value + "\"]\n")
  {
    var x := "[" + name + " \"" + value + "\"]\n";
    assert x[1] == name[0];
    forall k | 0 < k < |x|
      ensures x[k] != '['
    {
      if k <= |name| {
        assert x[k] == name[k - 1];
      } else if k < |name| + 3 {
        assert x[k] == " \""[k - |name| - 1];
      } else if k < |name| + 3 + |value| {
        assert x[k] == value[k - |name| - 3];
      } else {
        assert x[k] == "\"]\n"[k - |name| - 3 - |value|];
      }
    }
  }

  /** Header rows and movetext pieces that open no clock comment still open none when
      written one after another. */
  lemma {:induction false} NoClockOpenConcat(a: string, b: string)
    requires NoClockOpen(a) && NoClockOpen(b)
    ensures NoClockOpen(a + b)
  {
    var x := a + b;
    forall k | 0 <= k < |x| && x[k] == '['
      ensures k + 1 < |x| && x[k + 1] != '%'
    {
      if k < |a| {
        assert a[k] == '[';
      } else {
        assert b[k - |a|] == '[';
      }
    }
  }

  /** The first header row of a chess.com game. */
  lemma EventRowNoClockOpen()
    ensures NoClockOpen("[Event \"Live Chess\"]\n")
  {
    HeaderRowNoClockOpen("Event", "Live Chess");
  }

  /** Text in which no `[` starts a `[%` holds no clock comment. */
  lemma {:induction false} ScanClocksSkip(x: string, rest: string)
    requires NoClockOpen(x)
    ensures ScanClocks(x + rest) == ScanClocks(rest)
    decreases |x|
  {
    if x != [] {
      var s := x + rest;
      assert s[0] == x[0];
      assert ClockAt(s).None? by {
        if |s| >= 6 {
          if x[0] != '[' {
            assert s[..6][0] != ClockOpen()[0];
          } else {
            assert s[..6][1] == x[1] != ClockOpen()[1];
          }
        }
      }
      assert NoClockOpen(x[1..]) by {
        forall k | 0 <= k < |x[1..]| && x[1..][k] == '['
          ensures k + 1 < |x[1..]| && x[1..][k + 1] != '%'
        {
          assert x[k + 1] == '[';
        }
      }
      assert ScanClocks(s) == ScanClocks(s[1..]);
      assert s[1..] == x[1..] + rest;
      ScanClocksSkip(x[1..], rest);
    } else {
      assert x + rest == rest;
    }
  }

  /** Movetext with one clock comment after each piece of text that opens none. */
  function Annotate(texts: seq<string>, clocks: seq<Clock>): string
    requires |texts| == |clocks|
  {
    if texts == [] then [] else texts[0] + Render(clocks[0]) + Annotate(texts[1..], clocks[1..])
  }

  /** `findall` returns exactly the clock comments of the movetext, in text order. */
  lemma {:induction false} ScanAnnotated(texts: seq<string>, clocks: seq<Clock>)
    requires |texts| == |clocks|
    requires forall i :: 0 <= i < |texts| ==> NoClockOpen(texts[i])
    requires forall i :: 0 <= i < |clocks| ==> WellFormed(clocks[i])
    ensures ScanClocks(Annotate(texts, clocks)) == clocks
  {
    if texts != [] {
      ScanAnnotatedStep(texts, clocks);
      assert forall i :: 0 <= i < |texts| - 1 ==> texts[1..][i] == texts[i + 1];
      assert forall i :: 0 <= i < |clocks| - 1 ==> clocks[1..][i] == clocks[i + 1];
      ScanAnnotated(texts[1..], clocks[1..]);
      assert clocks == [clocks[0]] + clocks[1..];
    }
  }

  /** The first clock comment of annotated movetext is the first match. */
  lemma ScanAnnotatedStep(texts: seq<string>, clocks: seq<Clock>)
    requires |texts| == |clocks| && texts != []
    requires NoClockOpen(texts[0]) && WellFormed(clocks[0])
    ensures ScanClocks(Annotate(texts, clocks)) == [clocks[0]] + ScanClocks(Annotate(texts[1..], clocks[1..]))
  {
    var tail := Annotate(texts[1..], clocks[1..]);
    assert Annotate(texts, clocks) == texts[0] + (Render(clocks[0]) + tail);
    ScanClocksSkip(texts[0], Render(clocks[0]) + tail);
    ScanClocksRender(clocks[0], tail);
  }

  // ------------------------------------------------------- convert_to_seconds

  /** `int(hours) * 3600 + int(minutes) * 60 + float(seconds)`, with the seconds read
      exactly: the whole seconds of the clock and a fraction below one. */
  function Seconds(c: Clock): (r: real)
    requires WellFormed(c)
    ensures var whole := (DigitsValue(c.hours) * 3600 + DigitsValue(c.minutes) * 60 + DigitsValue(c.seconds)) as real;
            whole <= r < whole + 1.0
  {
    DigitsValueBound(c.fraction);
    FractionBelowOne(DigitsValue(c.fraction), Pow10(|c.fraction|));
    (DigitsValue(c.hours) * 3600 + DigitsValue(c.minutes) * 60 + DigitsValue(c.seconds)) as real
      + DigitsValue(c.fraction) as real / Pow10(|c.fraction|) as real
  }

  /** A digit string read after the decimal point is a fraction below one. */
  lemma {:induction false} FractionBelowOne(d: nat, p: nat)
    requires d < p
    ensures 0.0 <= d as real / p as real < 1.0
  {
    var q := d as real / p as real;
    assert q * p as real == d as real;
  }

  function SecondsOf(clocks: seq<Clock>): (t: seq<real>)
    requires forall i :: 0 <= i < |clocks| ==> WellFormed(clocks[i])
    ensures |t| == |clocks| && forall i :: 0 <= i < |clocks| ==> t[i] == Seconds(clocks[i])
  {
    if clocks == [] then [] else [Seconds(clocks[0])] + SecondsOf(clocks[1..])
  }

  /** `times_in_seconds`: the clock readings of a game's PGN text, in text order. */
  function Times(pgn: string): seq<real>
  {
    SecondsOf(ScanClocks(pgn))
  }

  // ------------------------------------------------------ parity and averages

  /** `t[0::2]`: the readings after white's moves. */
  function Evens<T>(t: seq<T>): (r: seq<T>)
    ensures |r| == (|t| + 1) / 2
    ensures forall i :: 0 <= i < |r| ==> r[i] == t[2 * i]
  {
    if |t| <= 2 then (if t == [] then [] else [t[0]]) else [t[0]] + Evens(t[2..])
  }

  /** `t[1::2]`: the readings after black's moves. */
  function Odds<T>(t: seq<T>): (r: seq<T>)
    ensures |r| == |t| / 2
    ensures forall i :: 0 <= i < |r| ==> r[i] == t[2 * i + 1]
  {
    if t == [] then [] else Evens(t[1..])
  }

  /** `calculate_time_differences`: how much each reading dropped to the next. */
  function Drops(t: seq<real>): (d: seq<real>)
    ensures |d| == if |t| == 0 then 0 else |t| - 1
    ensures forall i :: 0 <= i < |d| ==> d[i] == t[i] - t[i + 1]
  {
    if |t| < 2 then [] else [t[0] - t[1]] + Drops(t[1..])
  }

  function Sum(d: seq<real>): real
  {
    if d == [] then 0.0 else d[0] + Sum(d[1..])
  }

  /** `sum(d) / len(d) if d else 0`. */
  function Average(d: seq<real>): real
  {
    if d == [] then 0.0 else Sum(d) / |d| as real
  }

  /** The drops telescope: together they are the first reading minus the last. */
  lemma {:induction false} SumDrops(t: seq<real>)
    requires |t| >= 1
    ensures Sum(Drops(t)) == t[0] - t[|t| - 1]
  {
    if |t| >= 2 {
      SumDrops(t[1..]);
      assert Drops(t) == [t[0] - t[1]] + Drops(t[1..]);
    }
  }

  /** The clock used from the first to the last of `t`, spread over the moves between
      them; zero with fewer than two readings. */
  function MeanPerMove(t: seq<real>): real
  {
    if |t| < 2 then 0.0 else (t[0] - t[|t| - 1]) / (|t| - 1) as real
  }

  /** The mean of the drops is the clock used from the first to the last reading,
      spread over the moves between them. */
  lemma {:induction false} MeanDrop(t: seq<real>)
    ensures Average(Drops(t)) == MeanPerMove(t)
  {
    if |t| >= 2 {
      SumDrops(t);
      var d := Drops(t);
      var n := (|t| - 1) as real;
      assert d != [] && |d| as real == n;
      assert Sum(d) == t[0] - t[|t| - 1];
      assert Average(d) == Sum(d) / n;
    }
  }

  function InvalidColorMessage(): string
  {
    "The User does not have a valid color i.e either white or black"
  }

  /** The average time per move of the side `userColor` in the game `pgn`. */
  function UserAverage(pgn: string, userColor: string): (r: Result<real>)
    ensures r.Failure? <==> userColor != "white" && userColor != "black"
    ensures r.Failure? ==> r.error == Raised(InvalidColorMessage())
  {
    var t := Times(pgn);
    if userColor == "white" then Success(Average(Drops(Evens(t))))
    else if userColor == "black" then Success(Average(Drops(Odds(t))))
    else Failure(Raised(InvalidColorMessage()))
  }

  /** The user's average is the clock the user's side used between its first and last
      reading, spread over the moves in between; zero with fewer than two readings. */
  lemma {:induction false} UserAverageOfTimes(pgn: string, userColor: string)
    requires userColor == "white" || userColor == "black"
    ensures UserAverage(pgn, userColor)
            == Success(MeanPerMove(if userColor == "white" then Evens(Times(pgn)) else Odds(Times(pgn))))
  {
    var mine := if userColor == "white" then Evens(Times(pgn)) else Odds(Times(pgn));
    assert UserAverage(pgn, userColor) == Success(Average(Drops(mine)));
    MeanDrop(mine);
  }

  /** For movetext with a clock comment after each move, the readings the average is
      taken over are exactly those comments, in order. */
  lemma {:induction false} TimesOfAnnotated(texts: seq<string>, clocks: seq<Clock>)
    requires |texts| == |clocks|
    requires forall i :: 0 <= i < |texts| ==> NoClockOpen(texts[i])
    requires forall i :: 0 <= i < |clocks| ==> WellFormed(clocks[i])
    ensures Times(Annotate(texts, clocks)) == SecondsOf(clocks)
  {
    ScanAnnotated(texts, clocks);
  }

  /** Every game `parse_game` returns has a colour the average accepts, so the raise in
      `_get_avg_move_time` is never reached for parsed games. */
  lemma {:induction false} ParsedGamesHaveAverage(game: RawGame, username: string)
    requires ParseGame(game, username).Success? && ParseGame(game, username).value.Some?
    ensures var r := ParseGame(game, username).value.value.record;
            UserAverage(r.pgn, r.view.userColor).Success?
  {
    ParsedGameFields(game, username);
  }

  // ------------------------------------------------------- _get_avg_move_time

  /** A row of the games table with its `user_avg_move_time_sec` column. */
  datatype Row = Row(game: ParsedGame, userAvgMoveTime: Option<real>)

  /** A row whose colour `_get_avg_move_time` accepts. */
  predicate HasColor(row: Row)
  {
    row.game.record.view.userColor == "white" || row.game.record.view.userColor == "black"
  }

  /** The row with its average move time written in. */
  function WithAverage(row: Row): Row
    requires HasColor(row)
  {
    row.(userAvgMoveTime := Some(UserAverage(row.game.record.pgn, row.game.record.view.userColor).value))
  }

  /** The first row whose colour is neither white nor black, or the number of rows. */
  function FirstWithoutColor(rows: seq<Row>): (k: nat)
    ensures k <= |rows|
    ensures forall i :: 0 <= i < k ==> HasColor(rows[i])
    ensures k < |rows| ==> !HasColor(rows[k])
  {
    if rows == [] || !HasColor(rows[0]) then 0 else 1 + FirstWithoutColor(rows[1..])
  }

  /** A row with a colour before the first row without one moves that first row on. */
  lemma FirstWithoutColorPast(rows: seq<Row>, i: nat)
    requires i <= FirstWithoutColor(rows) && i < |rows| && HasColor(rows[i])
    ensures i < FirstWithoutColor(rows)
  {
  }

  /** The rows after the first `i` have had their averages written in, one at a time. */
  ghost function WrittenUpTo(before: seq<Row>, i: nat): (r: seq<Row>)
    requires i <= FirstWithoutColor(before)
    ensures |r| == |before|
  {
    if i == 0 then before else WrittenUpTo(before, i - 1)[i - 1 := WithAverage(before[i - 1])]
  }

  /** After `i` writes, the rows from `i` on are untouched. */
  lemma {:induction false} WrittenUpToRest(before: seq<Row>, i: nat, j: int)
    requires i <= FirstWithoutColor(before) && i <= j < |before|
    ensures WrittenUpTo(before, i)[j] == before[j]
  {
    if i > 0 {
      var previous := WrittenUpTo(before, i - 1);
      assert WrittenUpTo(before, i) == previous[i - 1 := WithAverage(before[i - 1])];
      WrittenUpToRest(before, i - 1, j);
    }
  }

  /** After `i` writes, each row before `i` holds its average and the rest are as
      they were. */
  lemma {:induction false} WrittenUpToAt(before: seq<Row>, i: nat)
    requires i <= FirstWithoutColor(before)
    ensures forall j :: 0 <= j < i ==> WrittenUpTo(before, i)[j] == WithAverage(before[j])
    ensures forall j :: i <= j < |before| ==> WrittenUpTo(before, i)[j] == before[j]
  {
    if i > 0 {
      var previous := WrittenUpTo(before, i - 1);
      assert WrittenUpTo(before, i) == previous[i - 1 := WithAverage(before[i - 1])];
      WrittenUpToAt(before, i - 1);
    }
  }

  /** `_get_avg_move_time`: goes through the rows in order writing each one's average
      in place, and raises at the first row without a valid colour, leaving the rows
      before it written and the rest as they were. */
  method AddAverageMoveTimes(rows: array<Row>) returns (r: Result<()>)
    modifies rows
    ensures var k := FirstWithoutColor(old(rows[..]));
            && (r.Success? <==> k == rows.Length)
            && (r.Failure? ==> r.error == Raised(InvalidColorMessage()))
            && (forall i :: 0 <= i < k ==> rows[i] == WithAverage(old(rows[i])))
            && (forall i :: k <= i < rows.Length ==> rows[i] == old(rows[i]))
  {
    ghost var before := rows[..];
    var i := 0;
    while i < rows.Length
      invariant i <= FirstWithoutColor(before) && rows.Length == |before|
      invariant rows[..] == WrittenUpTo(before, i)
    {
      WrittenUpToRest(before, i, i);
      var row := rows[i];
      var average := UserAverage(row.game.record.pgn, row.game.record.view.userColor);
      if average.Failure? {
        WrittenUpToAt(before, i);
        return Failure(average.error);
      }
      FirstWithoutColorPast(before, i);
      rows[i] := row.(userAvgMoveTime := Some(average.value));
      i := i + 1;
    }
    WrittenUpToAt(before, i);
    return Success(());
  }

  // --------------------------------------------------------- per-row columns

  /** `user_rating - opponent_rating`; a missing rating gives a missing difference. */
  function RatingDiff(userRating: Option<int>, opponentRating: Option<int>): (r: Option<int>)
    ensures r.Some? <==> userRating.Some? && opponentRating.Some?
    ensures r.Some? ==> opponentRating.value + r.value == userRating.value
  {
    if userRating.Some? && opponentRating.Some? then Some(userRating.value - opponentRating.value) else None
  }

  /** Seen from the opponent's side the difference changes sign. */
  lemma {:induction false} RatingDiffAntisymmetric(a: Option<int>, b: Option<int>)
    ensures RatingDiff(b, a) == if RatingDiff(a, b).Some? then Some(-RatingDiff(a, b).value) else None
  {
  }

  /** The rating difference of a parsed game, from the user's side of the board. */
  function GameRatingDiff(p: ParsedGame): Option<int>
  {
    RatingDiff(p.record.view.userRating, p.record.view.opponentRating)
  }

  /** The `match_result` table, applied to the PGN `Result` tag with pandas `map`:
      tokens outside the table, and a missing tag, give a missing value. */
  function MatchResult(pgnResult: Option<PgnValue>): (r: Option<string>)
    ensures r.Some? <==> pgnResult.Some? && pgnResult.value.Str? && pgnResult.value.text in {"1-0", "0-1", "1/2-1/2"}
  {
    match pgnResult
    case Some(Str(t)) =>
      if t == "1-0" then Some("win")
      else if t == "0-1" then Some("defet")
      else if t == "1/2-1/2" then Some("draw")
      else None
    case _ => None
  }

  /** The table's inverse: the token each label comes from. */
  function ResultToken(outcome: string): Option<string>
  {
    if outcome == "win" then Some("1-0")
    else if outcome == "defet" then Some("0-1")
    else if outcome == "draw" then Some("1/2-1/2")
    else None
  }

  /** Each label is one of the three and comes from exactly one token. */
  lemma {:induction false} MatchResultInverse(pgnResult: Option<PgnValue>)
    ensures MatchResult(pgnResult).Some? ==>
              ResultToken(MatchResult(pgnResult).value) == Some(pgnResult.value.text)
    ensures MatchResult(pgnResult).Some? ==> MatchResult(pgnResult).value in {"win", "defet", "draw"}
  {
  }

  /** The colour that won according to a PGN result token, if either did. */
  function Winner(token: string): Option<string>
  {
    if token == "1-0" then Some("white") else if token == "0-1" then Some("black") else None
  }

  /** As written, the label does not depend on the user's colour: a game the user lost
      with black (`1-0`, white won) is labelled a win. */
  lemma {:induction false} BlackLossLabelledWin(p: ParsedGame)
    requires p.record.view.userColor == "black" && p.pgnResult == Some(Str("1-0"))
    ensures Winner(p.pgnResult.value.text) == Some("white")
    ensures MatchResult(p.pgnResult) == Some("win")
  {
  }

  /** The result from the user's side of the board: the token is read for white, so it
      is turned around for a black user. */
  function UserMatchResult(pgnResult: Option<PgnValue>, userColor: string): Option<string>
  {
    match pgnResult
    case Some(Str(t)) =>
      if t == "1/2-1/2" then Some("draw")
      else if Winner(t).None? then None
      else if Winner(t) == Some(userColor) then Some("win")
      else if userColor == "white" || userColor == "black" then Some("defet")
      else None
    case _ => None
  }

  /** The corrected label says win exactly when the user's colour won, defeat exactly
      when the other colour won, and agrees with the table for white users. */
  lemma {:induction false} UserMatchResultAgrees(token: string, userColor: string)
    requires userColor == "white" || userColor == "black"
    ensures UserMatchResult(Some(Str(token)), userColor) == Some("win") <==> Winner(token) == Some(userColor)
    ensures (UserMatchResult(Some(Str(token)), userColor) == Some("defet"))
              <==> (Winner(token).Some? && Winner(token) != Some(userColor))
    ensures UserMatchResult(Some(Str(token)), userColor) == Some("draw") <==> token == "1/2-1/2"
    ensures userColor == "white" ==> UserMatchResult(Some(Str(token)), userColor) == MatchResult(Some(Str(token)))
  {
  }

  // --------------------------------------------------------- format_timedelta

  /** `int(td.total_seconds())` for a duration of `micros` microseconds: `int`
      truncates toward zero. */
  function TotalSeconds(micros: int): (s: int)
    ensures micros >= 0 ==> s >= 0 && s * 1000000 <= micros < (s + 1) * 1000000
    ensures micros < 0 ==> s <= 0 && (s - 1) * 1000000 < micros <= s * 1000000
  {
    if micros >= 0 then micros / 1000000 else -((-micros) / 1000000)
  }

  /** `divmod` by 3600 and by 60 (the quotient rounds down), written as `H:MM:SS` with
      each field padded to two characters. */
  function FormatTimedelta(micros: int): string
  {
    var total := TotalSeconds(micros);
    var hours, remainder := total / 3600, total % 3600;
    var minutes, seconds := remainder / 60, remainder % 60;
    FormatInt02(hours) + ":" + FormatInt02(minutes) + ":" + FormatInt02(seconds)
  }

  /** Reads `H:MM:SS` back: an optionally negative hour count, then minutes and seconds
      of exactly two digits and below 60. */
  function ReadHms(s: string): Option<int>
  {
    var parts := Split(s, ':');
    if |parts| != 3 then None
    else
      var h, m, sec := parts[0], parts[1], parts[2];
      if !IsTwoDigitsBelow60(m) || !IsTwoDigitsBelow60(sec) || SignedValue(h).None? then None
      else Some(SignedValue(h).value * 3600 + DigitsValue(m) * 60 + DigitsValue(sec))
  }

  predicate IsTwoDigitsBelow60(t: string)
  {
    |t| == 2 && AllDigits(t) && DigitsValue(t) < 60
  }

  /** `int(h)` for digits with an optional minus sign. */
  function SignedValue(h: string): Option<int>
  {
    if |h| > 0 && AllDigits(h) then Some(DigitsValue(h) as int)
    else if |h| > 1 && h[0] == '-' && AllDigits(h[1..]) then Some(-(DigitsValue(h[1..]) as int))
    else None
  }

  /** Three colon-free fields read back field by field. */
  lemma {:induction false} ReadHmsOf(h: string, m: string, sec: string)
    requires ':' !in h && ':' !in m && ':' !in sec
    ensures ReadHms(h + ":" + m + ":" + sec)
              == if IsTwoDigitsBelow60(m) && IsTwoDigitsBelow60(sec) && SignedValue(h).Some?
                 then Some(SignedValue(h).value * 3600 + DigitsValue(m) * 60 + DigitsValue(sec))
                 else None
  {
    assert [h, m, sec][1..] == [m, sec] && [m, sec][1..] == [sec];
    assert Join([m, sec], ':') == m + ":" + sec;
    assert Join([h, m, sec], ':') == h + ":" + (m + ":" + sec);
    assert h + ":" + (m + ":" + sec) == h + ":" + m + ":" + sec;
    SplitJoin([h, m, sec], ':');
  }

  /** What `f'{n:02}'` writes reads back as `n` and holds no colon. */
  lemma {:induction false} SignedValueOfFormat(n: int)
    ensures SignedValue(FormatInt02(n)) == Some(n) && ':' !in FormatInt02(n)
  {
    var a := FormatInt02(n);
    if n >= 0 {
      assert forall i :: 0 <= i < |a| ==> IsDigit(a[i]);
    } else {
      assert !IsDigit(a[0]);
      assert forall i :: 1 <= i < |a| ==> a[1..][i - 1] == a[i];
    }
  }

  /** Numbers below 100 have at most two decimal digits. */
  lemma {:induction false} NatToStringShort(n: nat)
    requires n < 100
    ensures |NatToString(n)| <= 2
  {
    if n >= 10 {
      assert |NatToString(n / 10)| == 1;
    }
  }

  /** A minute or second count below 60 is written with exactly two digits. */
  lemma {:induction false} FormatInt02Short(n: int)
    requires 0 <= n < 60
    ensures IsTwoDigitsBelow60(FormatInt02(n)) && DigitsValue(FormatInt02(n)) == n
  {
    NatToStringShort(n);
  }

  /** The formatted duration reads back as the whole number of seconds
      (`game_duration_sec`), negative durations included: the minutes and seconds
      are below 60 and the hours carry the sign. */
  lemma {:induction false} FormatTimedeltaReadsBack(micros: int)
    ensures ReadHms(FormatTimedelta(micros)) == Some(TotalSeconds(micros))
  {
    HmsReadsBack(TotalSeconds(micros));
  }

  /** The `H:MM:SS` text of a whole count of seconds reads back as that count. */
  lemma {:induction false} HmsReadsBack(total: int)
    ensures var hours, remainder := total / 3600, total % 3600;
            var minutes, seconds := remainder / 60, remainder % 60;
            ReadHms(FormatInt02(hours) + ":" + FormatInt02(minutes) + ":" + FormatInt02(seconds)) == Some(total)
  {
    var hours, remainder := total / 3600, total % 3600;
    var minutes, seconds := remainder / 60, remainder % 60;
    assert hours * 3600 + minutes * 60 + seconds == total;
    var a, b, c := FormatInt02(hours), FormatInt02(minutes), FormatInt02(seconds);
    assert IsTwoDigitsBelow60(b) && DigitsValue(b) == minutes by { FormatInt02Short(minutes); }
    assert IsTwoDigitsBelow60(c) && DigitsValue(c) == seconds by { FormatInt02Short(seconds); }
    assert SignedValue(a) == Some(hours) && ':' !in a by { SignedValueOfFormat(hours); }
    assert ':' !in b by { SignedValueOfFormat(minutes); }
    assert ':' !in c by { SignedValueOfFormat(seconds); }
    assert ReadHms(a + ":" + b + ":" + c) == Some(hours * 3600 + minutes * 60 + seconds) by {
      ReadHmsOf(a, b, c);
    }
  }

  /** A count below ten is written as a zero and its digit. */
  lemma {:induction false} FormatInt02Digit(n: nat)
    requires n < 10
    ensures FormatInt02(n) == ['0', DigitChar(n)]
  {
    assert NatToString(n) == [DigitChar(n)];
    assert Zeros(1) == ['0'];
  }

  /** `format_timedelta` of 3725.5 seconds is `01:02:05`. */
  lemma {:induction false} FormatTimedeltaExample()
    ensures FormatTimedelta(3725500000) == "01:02:05"
  {
    var total := TotalSeconds(3725500000);
    assert total == 3725;
    assert total / 3600 == 1 && total % 3600 == 125;
    assert 125 / 60 == 2 && 125 % 60 == 5;
    FormatInt02Digit(1);
    FormatInt02Digit(2);
    FormatInt02Digit(5);
    assert FormatTimedelta(3725500000) == FormatInt02(1) + ":" + FormatInt02(2) + ":" + FormatInt02(5);
    assert ['0', '1'] + ":" + ['0', '2'] + ":" + ['0', '5'] == "01:02:05";
  }
}

=== FILE: games.dfy ===
/** `parse_game`: one game record of the chess.com monthly archive, flattened from the
    point of view of the requested user. The current reader (app/assets) and the older
    one (chess_api/assets) differ in how they treat a game without PGN text and in the
    `pgn_result` column. */
module Games {
  import opened Wrappers
  import opened Text
  import opened Calendar
  import opened Pgn

  /** One side of a game, as the archive's `white` and `black` objects carry it. */
  datatype Side = Side(username: Option<string>, rating: Option<int>, result: Option<string>)

  /** The archive's `accuracies` object. */
  datatype Accuracies = Accuracies(white: Option<real>, black: Option<real>)

  /** One game of the archive; every field may be missing. */
  datatype RawGame = RawGame(
    url: Option<string>,
    pgn: Option<string>,
    timeClass: Option<string>,
    endTime: Option<int>,
    white: Option<Side>,
    black: Option<Side>,
    accuracies: Option<Accuracies>)

  /** The game seen from the user's side of the board. */
  datatype Perspective = Perspective(
    userColor: string,
    userRating: Option<int>,
    opponent: Option<string>,
    opponentRating: Option<int>,
    opponentUrl: string,
    result: Option<string>,
    userAccuracy: Option<real>,
    opponentAccuracy: Option<real>)

  /** The columns both readers produce. */
  datatype GameRecord = GameRecord(
    gameUrl: string,
    pgn: string,
    gameId: string,
    timeClass: Option<string>,
    endDateTime: Option<int>,
    username: string,
    view: Perspective,
    startDate: string,
    eco: Option<PgnValue>,
    ecoUrl: Option<PgnValue>,
    startTime: Option<PgnValue>,
    movesPerPlayer: Option<PgnValue>)

  /** The current reader's row: the common columns and `pgn_result`. */
  datatype ParsedGame = ParsedGame(record: GameRecord, pgnResult: Option<PgnValue>)

  // ----------------------------------------------------------------- game id

  /** `s` ends with `t`. */
  predicate EndsWith(s: string, t: string)
  {
    |t| <= |s| && s[|s| - |t|..] == t
  }

  /** The text a `$` anchor sees the end of: a single final newline is skipped. */
  function BeforeFinalNewline(s: string): string
  {
    if |s| > 0 && s[|s| - 1] == '\n' then s[..|s| - 1] else s
  }

  /** Where the run of digits that ends `s` starts. */
  function TrailingDigitsStart(s: string): (j: nat)
    ensures j <= |s| && AllDigits(s[j..])
    ensures j > 0 ==> !IsDigit(s[j - 1])
  {
    if |s| > 0 && IsDigit(s[|s| - 1]) then
      var j := TrailingDigitsStart(s[..|s| - 1]);
      assert s[j..] == s[..|s| - 1][j..] + [s[|s| - 1]];
      j
    else |s|
  }

  /** `re.search(r"(live|daily)\/(\d+)$", url).group(2)`. A match must end with the
      digits, so the digits are the whole trailing run, and it exists exactly when that
      run is non-empty and follows `live/` or `daily/`; otherwise `.group` is called on
      `None`. */
  function GameId(url: Option<string>): Result<string>
  {
    match url
    case None => Failure(TypeError)
    case Some(s) =>
      var u := BeforeFinalNewline(s);
      var j := TrailingDigitsStart(u);
      if j < |u| && (EndsWith(u[..j], "live/") || EndsWith(u[..j], "daily/")) then Success(u[j..])
      else Failure(AttributeError)
  }

  /** A game URL ending in `live/` or `daily/` and a number yields that number. */
  lemma GameIdOfUrl(prefix: string, kind: string, id: string)
    requires kind == "live/" || kind == "daily/"
    requires |id| > 0 && AllDigits(id)
    ensures GameId(Some(prefix + kind + id)) == Success(id)
    ensures GameId(Some(prefix + kind + id + "\n")) == Success(id)
  {
    var u := prefix + kind + id;
    assert (u + "\n")[..|u|] == u;
    TrailingDigitsOf(prefix + kind, id);
    assert u[..|prefix + kind|] == prefix + kind;
  }

  lemma TrailingDigitsOf(front: string, id: string)
    requires |front| > 0 && !IsDigit(front[|front| - 1]) && AllDigits(id)
    ensures TrailingDigitsStart(front + id) == |front|
    decreases |id|
  {
    if |id| > 0 {
      var s := front + id;
      assert s[..|s| - 1] == front + id[..|id| - 1];
      TrailingDigitsOf(front, id[..|id| - 1]);
    } else {
      assert front + id == front;
    }
  }

  /** Conversely, an id is only ever a non-empty run of digits that the URL (before a
      final newline) ends with, right after `live/` or `daily/`. */
  lemma GameIdShape(url: string)
    requires GameId(Some(url)).Success?
    ensures var id := GameId(Some(url)).value;
            && |id| > 0 && AllDigits(id)
            && (EndsWith(BeforeFinalNewline(url), "live/" + id) || EndsWith(BeforeFinalNewline(url), "daily/" + id))
  {
    var u := BeforeFinalNewline(url);
    var j := TrailingDigitsStart(u);
    assert GameId(Some(url)).value == u[j..];
    if EndsWith(u[..j], "live/") {
      EndsWithThenRest(u, j, "live/");
    } else {
      EndsWithThenRest(u, j, "daily/");
    }
  }

  /** A text whose first `j` characters end with `kind` ends with `kind` and the rest. */
  lemma EndsWithThenRest(u: string, j: nat, kind: string)
    requires j <= |u| && EndsWith(u[..j], kind)
    ensures EndsWith(u, kind + u[j..])
  {
    var i := j - |kind|;
    assert kind == u[i..j];
    assert u[i..] == u[i..j] + u[j..];
  }

  /** A live game URL yields the number after `live/`. */
  lemma LiveGameExample()
    ensures GameId(Some("https://www.chess.com/game/" + "live/" + "123456789")) == Success("123456789")
  {
    GameIdOfUrl("https://www.chess.com/game/", "live/", "123456789");
  }

  // ------------------------------------------------------------- the two sides

  /** `f"https://www.chess.com/member/{opponent}"`, which prints a missing name as `None`. */
  function MemberUrl(opponent: Option<string>): string
  {
    "https://www.chess.com/member/" + (match opponent case Some(name) => name case None => "None")
  }

  /** The user plays white when white's name, lower-cased or as it is, equals the
      requested name. */
  predicate IsUser(name: string, username: string)
  {
    Lower(name) == username || name == username
  }

  /** The white/black branch of `parse_game`. Reading a field of a missing side, or
      lower-casing a missing white name, raises `AttributeError`. */
  function ViewOf(game: RawGame, username: string): Result<Perspective>
  {
    if game.white.None? || game.white.value.username.None? then Failure(AttributeError)
    else if game.black.None? then Failure(AttributeError)
    else
      var w, b := game.white.value, game.black.value;
      var acc := game.accuracies;
      if IsUser(w.username.value, username) then
        Success(Perspective("white", w.rating, b.username, b.rating, MemberUrl(b.username), w.result,
                            if acc.Some? then acc.value.white else None,
                            if acc.Some? then acc.value.black else None))
      else
        Success(Perspective("black", b.rating, w.username, w.rating, MemberUrl(w.username), b.result,
                            if acc.Some? then acc.value.black else None,
                            if acc.Some? then acc.value.white else None))
  }

  /** The same game with the colours exchanged. */
  function Mirror(game: RawGame): RawGame
  {
    game.(white := game.black, black := game.white,
          accuracies := match game.accuracies
                        case Some(a) => Some(Accuracies(a.black, a.white))
                        case None => None)
  }

  /** The user's columns come from the side of the user's colour and the opponent's
      from the other side; the colour is white exactly when white's name is the user's. */
  lemma ViewTakesUsersSide(game: RawGame, username: string)
    requires ViewOf(game, username).Success?
    ensures var v := ViewOf(game, username).value;
            var (mine, theirs) := if v.userColor == "white" then (game.white.value, game.black.value)
                                  else (game.black.value, game.white.value);
            && (v.userColor == "white" <==> IsUser(game.white.value.username.value, username))
            && (v.userColor == "white" || v.userColor == "black")
            && v.userRating == mine.rating && v.result == mine.result
            && v.opponent == theirs.username && v.opponentRating == theirs.rating
            && v.opponentUrl == MemberUrl(theirs.username)
            && (game.accuracies.None? ==> v.userAccuracy.None? && v.opponentAccuracy.None?)
  {
  }

  /** When exactly one side is the user, exchanging the colours changes only the
      reported colour: the user and the opponent stay who they were. */
  lemma MirrorKeepsPlayers(game: RawGame, username: string)
    requires game.white.Some? && game.black.Some?
    requires game.white.value.username.Some? && game.black.value.username.Some?
    requires IsUser(game.white.value.username.value, username)
    requires !IsUser(game.black.value.username.value, username)
    ensures ViewOf(game, username).Success? && ViewOf(Mirror(game), username).Success?
    ensures ViewOf(Mirror(game), username) == Success(ViewOf(game, username).value.(userColor := "black"))
  {
  }

  // ------------------------------------------------------------- PGN columns

  /** `parsed_pgn.get(key)`. */
  function Get(d: PgnDict, key: string): Option<PgnValue>
  {
    if key in d then Some(d[key]) else None
  }

  /** `parsed_pgn.get("Date").replace('.', '-')`: only a text value has `replace`. */
  function StartDate(d: PgnDict): Result<string>
  {
    match Get(d, "Date")
    case Some(Str(t)) => Success(ReplaceChar(t, '.', '-'))
    case _ => Failure(AttributeError)
  }

  /** A date as a PGN `Date` tag writes it, `YYYY.MM.DD`. */
  function PgnDate(d: Date): string
    requires Valid(d) && d.year <= 9999
  {
    ReplaceChar(Format(d), '-', '.')
  }

  /** The start date of a game whose `Date` tag is a PGN date is that date in the form
      `strptime('%Y-%m-%d')` reads back. */
  lemma StartDateOfPgnDate(pd: PgnDict, d: Date)
    requires Valid(d) && d.year <= 9999
    requires "Date" in pd && pd["Date"] == Str(PgnDate(d))
    ensures StartDate(pd) == Success(Format(d))
    ensures Parse(StartDate(pd).value) == Success(d)
  {
    var f := Format(d);
    assert ReplaceChar(PgnDate(d), '.', '-') == f by {
      FormatHasNoDot(d);
      ReplaceCharBack(f);
    }
    assert Parse(f) == Success(d) by { ParseFormat(d); }
  }

  /** `strftime('%Y-%m-%d')` writes digits and dashes only. */
  lemma FormatHasNoDot(d: Date)
    requires Valid(d) && d.year <= 9999
    ensures '.' !in Format(d)
  {
    var y, m, dd := ZeroPad(d.year, 4), ZeroPad(d.month, 2), ZeroPad(d.day, 2);
    assert Format(d) == y + "-" + m + "-" + dd;
    assert '.' !in y && '.' !in m && '.' !in dd by {
      assert !IsDigit('.');
    }
  }

  /** Swapping dashes for dots and back gives a formatted date back unchanged. */
  lemma ReplaceCharBack(f: string)
    requires '.' !in f
    ensures ReplaceChar(ReplaceChar(f, '-', '.'), '.', '-') == f
  {
    var g := ReplaceChar(ReplaceChar(f, '-', '.'), '.', '-');
    forall i | 0 <= i < |f|
      ensures g[i] == f[i]
    {
    }
  }

  // ------------------------------------------------------------- parse_game

  /** The columns common to both readers, once the URL and PGN text are known. */
  function Record(game: RawGame, username: string, pgn: string): Result<GameRecord>
  {
    match GameId(game.url)
    case Failure(e) => Failure(e)
    case Success(id) =>
      match ViewOf(game, username)
      case Failure(e) => Failure(e)
      case Success(view) =>
        match PgnToDictSpec(pgn)
        case Failure(e) => Failure(e)
        case Success(pd) =>
          match StartDate(pd)
          case Failure(e) => Failure(e)
          case Success(date) =>
            Success(GameRecord(game.url.value, pgn, id, game.timeClass, game.endTime, username, view,
                               date, Get(pd, "ECO"), Get(pd, "ECOUrl"), Get(pd, "StartTime"),
                               Get(pd, MovesCountKey())))
  }

  /** `parse_game` of app/assets: a game without PGN text gives `None`. */
  function ParseGame(game: RawGame, username: string): Result<Option<ParsedGame>>
  {
    match game.pgn
    case None => Success(None)
    case Some(pgn) =>
      match Record(game, username, pgn)
      case Failure(e) => Failure(e)
      case Success(r) => Success(Some(ParsedGame(r, Get(PgnToDictSpec(pgn).value, "Result"))))
  }

  /** `parse_game` of chess_api/assets: no `pgn_result`, and a missing PGN text fails
      only when it is split (`None.split` raises `AttributeError`). */
  function ParseGameLegacy(game: RawGame, username: string): Result<GameRecord>
  {
    match game.pgn
    case Some(pgn) => Record(game, username, pgn)
    case None =>
      match GameId(game.url)
      case Failure(e) => Failure(e)
      case Success(_) =>
        match ViewOf(game, username)
        case Failure(e) => Failure(e)
        case Success(_) => Failure(AttributeError)
  }

  /** The two readers agree on every game that has PGN text, the current one only adding
      the `Result` tag; without it the current one skips the game and the older one
      raises. */
  lemma LegacyAgreesWithCurrent(game: RawGame, username: string)
    ensures game.pgn.None? ==> ParseGame(game, username) == Success(None) && ParseGameLegacy(game, username).Failure?
    ensures game.pgn.Some? ==>
              (ParseGame(game, username).Success? <==> ParseGameLegacy(game, username).Success?)
    ensures game.pgn.Some? && ParseGameLegacy(game, username).Success? ==>
              && ParseGame(game, username).value.Some?
              && ParseGame(game, username).value.value.record == ParseGameLegacy(game, username).value
  {
  }

  /** A parsed game carries its own URL, PGN text and user, and an id the URL ends with. */
  lemma ParsedGameFields(game: RawGame, username: string)
    requires ParseGame(game, username).Success? && ParseGame(game, username).value.Some?
    ensures var r := ParseGame(game, username).value.value.record;
            && game.url == Some(r.gameUrl) && game.pgn == Some(r.pgn) && r.username == username
            && |r.gameId| > 0 && AllDigits(r.gameId)
            && (EndsWith(BeforeFinalNewline(r.gameUrl), "live/" + r.gameId)
                || EndsWith(BeforeFinalNewline(r.gameUrl), "daily/" + r.gameId))
            && (r.view.userColor == "white" || r.view.userColor == "black")
            && PgnToDictSpec(r.pgn).Success?
  {
    GameIdShape(game.url.value);
  }
}

=== FILE: monthly_dates.dfy ===
/** `generate_monthly_dates`: the month anchor dates an extraction queries, in the
    current version (app/assets/Chess.py), the older copy (chess_api/assets/Chess.py)
    and a corrected version that never skips a month. */
module MonthlyDates {
  import opened Wrappers
  import opened Calendar

  // ------------------------------------------------------------ specification

  /** The dates the `while current_date <= end` loop appends: `cur`, then one
      accumulated `relativedelta(months=1)` step after another, while not past `end`. */
  function Anchors(cur: Date, end: Date): seq<Date>
    requires Valid(cur) && Valid(end)
    decreases MonthIndex(end) - MonthIndex(cur) + 1
  {
    if Le(cur, end) then
      MonthIndexOrder(cur, end);
      [cur] + Anchors(AddOneMonth(cur), end)
    else []
  }

  /** `if dates[-1] != end: dates[-1] = end`, where `dates[-1]` raises on an empty list. */
  function OverwriteLast(dates: seq<Date>, end: Date): Result<seq<Date>>
  {
    if |dates| == 0 then Failure(IndexError) else Success(dates[|dates| - 1 := end])
  }

  /** The current version on parsed dates: the same-month shortcut, then the loop,
      then the last anchor overwritten by `end`. */
  function WindowFrom(start: Date, end: Date): Result<seq<Date>>
    requires Valid(start) && Valid(end)
  {
    if SameMonth(start, end) then Success([start, end])
    else OverwriteLast(Anchors(start, end), end)
  }

  /** The older copy on parsed dates: no same-month shortcut. */
  function LegacyWindowFrom(start: Date, end: Date): Result<seq<Date>>
    requires Valid(start) && Valid(end)
  {
    OverwriteLast(Anchors(start, end), end)
  }

  /** The current version on its two `'%Y-%m-%d'` arguments. */
  function MonthlyDates(startDate: string, endDate: string): Result<seq<Date>>
  {
    match Parse(startDate)
    case Failure(e) => Failure(e)
    case Success(start) =>
      match Parse(endDate)
      case Failure(e) => Failure(e)
      case Success(end) => WindowFrom(start, end)
  }

  /** The older copy on its two `'%Y-%m-%d'` arguments. */
  function LegacyMonthlyDates(startDate: string, endDate: string): Result<seq<Date>>
  {
    match Parse(startDate)
    case Failure(e) => Failure(e)
    case Success(start) =>
      match Parse(endDate)
      case Failure(e) => Failure(e)
      case Success(end) => LegacyWindowFrom(start, end)
  }

  // ----------------------------------------------------------------- methods

  /** The `while current_date <= end_date` loop both versions share: it appends the
      current date, then steps one month. */
  method AnchorLoop(start: Date, end: Date) returns (dates: seq<Date>)
    requires Valid(start) && Valid(end)
    ensures dates == Anchors(start, end)
  {
    dates := [];
    var current := start;
    while Le(current, end)
      invariant Valid(current)
      invariant dates + Anchors(current, end) == Anchors(start, end)
      decreases MonthIndex(end) - MonthIndex(current) + 1
    {
      MonthIndexOrder(current, end);
      dates := dates + [current];
      current := AddOneMonth(current);
    }
  }

  /** `generate_monthly_dates` of the current version. */
  method GenerateMonthlyDates(startDate: string, endDate: string) returns (r: Result<seq<Date>>)
    ensures r == MonthlyDates(startDate, endDate)
  {
    var parsedStart := Parse(startDate);
    if parsedStart.Failure? { return Failure(parsedStart.error); }
    var parsedEnd := Parse(endDate);
    if parsedEnd.Failure? { return Failure(parsedEnd.error); }
    var start, end := parsedStart.value, parsedEnd.value;

    if start.year == end.year && start.month == end.month {
      return Success([start, end]);
    }
    var dates := AnchorLoop(start, end);
    if |dates| == 0 {
      return Failure(IndexError);
    }
    if dates[|dates| - 1] != end {
      dates := dates[|dates| - 1 := end];
    }
    assert dates == Anchors(start, end)[|dates| - 1 := end];
    return Success(dates);
  }

  /** `generate_monthly_dates` of the older copy. */
  method GenerateMonthlyDatesLegacy(startDate: string, endDate: string) returns (r: Result<seq<Date>>)
    ensures r == LegacyMonthlyDates(startDate, endDate)
  {
    var parsedStart := Parse(startDate);
    if parsedStart.Failure? { return Failure(parsedStart.error); }
    var parsedEnd := Parse(endDate);
    if parsedEnd.Failure? { return Failure(parsedEnd.error); }
    var start, end := parsedStart.value, parsedEnd.value;

    var dates := AnchorLoop(start, end);
    if |dates| == 0 {
      return Failure(IndexError);
    }
    if dates[|dates| - 1] != end {
      dates := dates[|dates| - 1 := end];
    }
    assert dates == Anchors(start, end)[|dates| - 1 := end];
    return Success(dates);
  }

  // ------------------------------------------------------------------ lemmas

  /** The loop's dates: they start at `cur`, each is one month step after the one
      before, each is in the next calendar month, none is past `end`, and one more
      step would be. There are none exactly when `cur` is already past `end`. */
  lemma {:induction false} AnchorsShape(cur: Date, end: Date)
    requires Valid(cur) && Valid(end)
    ensures |Anchors(cur, end)| == 0 <==> !Le(cur, end)
    ensures forall i :: 0 <= i < |Anchors(cur, end)| ==>
              var a := Anchors(cur, end);
              Valid(a[i]) && Le(a[i], end) && MonthIndex(a[i]) == MonthIndex(cur) + i
    ensures forall i :: 0 <= i < |Anchors(cur, end)| - 1 ==>
              var a := Anchors(cur, end);
              Valid(a[i]) && a[i + 1] == AddOneMonth(a[i])
    ensures |Anchors(cur, end)| > 0 ==>
              var a := Anchors(cur, end);
              a[0] == cur && Valid(a[|a| - 1]) && !Le(AddOneMonth(a[|a| - 1]), end)
    decreases MonthIndex(end) - MonthIndex(cur) + 1
  {
    if Le(cur, end) {
      MonthIndexOrder(cur, end);
      var next := AddOneMonth(cur);
      AnchorsShape(next, end);
      var a, b := Anchors(cur, end), Anchors(next, end);
      assert a == [cur] + b;
      forall i | 0 <= i < |a|
        ensures Valid(a[i]) && Le(a[i], end) && MonthIndex(a[i]) == MonthIndex(cur) + i
      {
        if i > 0 { assert a[i] == b[i - 1]; }
      }
      forall i | 0 <= i < |a| - 1
        ensures Valid(a[i]) && a[i + 1] == AddOneMonth(a[i])
      {
        if i > 0 { assert a[i] == b[i - 1] && a[i + 1] == b[i]; }
      }
    }
  }

  /** The last loop date lies in `end`'s month or in the month just before it. */
  lemma LastAnchorMonth(start: Date, end: Date)
    requires Valid(start) && Valid(end) && Le(start, end)
    ensures |Anchors(start, end)| > 0
    ensures var a := Anchors(start, end);
            MonthIndex(a[|a| - 1]) == MonthIndex(end) || MonthIndex(a[|a| - 1]) + 1 == MonthIndex(end)
  {
    AnchorsShape(start, end);
    var a := Anchors(start, end);
    var last := a[|a| - 1];
    MonthIndexOrder(last, end);
    MonthIndexOrder(end, AddOneMonth(last));
  }

  /** Current version, one calendar month: the window is exactly the two given dates,
      in that order even when `start` is the later one. */
  lemma SameMonthWindow(startDate: string, endDate: string)
    requires Parse(startDate).Success? && Parse(endDate).Success?
    requires SameMonth(Parse(startDate).value, Parse(endDate).value)
    ensures MonthlyDates(startDate, endDate) == Success([Parse(startDate).value, Parse(endDate).value])
  {
  }

  /** Current version, different months: the window exists exactly when `start` is not
      after `end` (otherwise `dates[-1]` raises `IndexError`). It ends at `end`, rises
      strictly, and every step but the last is one accumulated month step from `start`.
      It begins at `start` unless the loop made only one step, in which case `start`
      was overwritten and the window is `[end]`. */
  lemma WindowShape(start: Date, end: Date)
    requires Valid(start) && Valid(end) && !SameMonth(start, end)
    ensures WindowFrom(start, end).Failure? <==> !Le(start, end)
    ensures WindowFrom(start, end).Failure? ==> WindowFrom(start, end).error == IndexError
    ensures WindowFrom(start, end).Success? ==>
              var w := WindowFrom(start, end).value;
              && |w| >= 1 && w[|w| - 1] == end
              && (|w| >= 2 ==> w[0] == start)
              && (|w| == 1 ==> w == [end])
              && (forall i :: 0 <= i < |w| ==> Valid(w[i]) && Le(w[i], end))
              && (forall i, j :: 0 <= i < j < |w| ==> Lt(w[i], w[j]))
              && (forall i :: 0 <= i < |w| - 2 ==> w[i + 1] == AddOneMonth(w[i]))
  {
    AnchorsShape(start, end);
    if Le(start, end) {
      var a := Anchors(start, end);
      var w := WindowFrom(start, end).value;
      assert w == a[|a| - 1 := end];
      forall i, j | 0 <= i < j < |w|
        ensures Lt(w[i], w[j])
      {
        MonthIndexOrder(a[i], a[j]);
        if j < |w| - 1 {
          assert w[i] == a[i] && w[j] == a[j];
        } else {
          assert w[i] == a[i];
          LtTransitive(a[i], a[i], a[|a| - 1]);
        }
      }
    }
  }

  /** How many anchors the loop makes from day `d` of month `m` to `end`, within
      `end`'s year. */
  function StepsWithin(m: int, d: int, end: Date): nat
  {
    if m > end.month || (m == end.month && d > end.day) then 0
    else end.month - m + (if end.day >= d then 1 else 0)
  }

  /** Within one year and from a day every month has, the anchors are that day of each
      month up to `end`. */
  lemma {:induction false} AnchorsWithinYear(y: int, m: int, d: int, end: Date)
    requires y >= 1 && 1 <= m <= 12 && 1 <= d <= 28 && Valid(end) && end.year == y
    ensures Anchors(Date(y, m, d), end) == seq(StepsWithin(m, d, end), i => Date(y, m + i, d))
    decreases 13 - m
  {
    var cur := Date(y, m, d);
    var n := StepsWithin(m, d, end);
    if Le(cur, end) {
      var next := AddOneMonth(cur);
      if m == 12 {
        assert !Le(next, end);
        assert Anchors(next, end) == [];
      } else {
        assert next == Date(y, m + 1, d);
        AnchorsWithinYear(y, m + 1, d, end);
        assert StepsWithin(m + 1, d, end) == n - 1;
      }
      assert Anchors(cur, end) == [cur] + Anchors(next, end);
    }
  }

  /** On the `'%Y-%m-%d'` texts of two dates, `generate_monthly_dates` is the window on
      those dates. */
  lemma MonthlyDatesOfFormatted(start: Date, end: Date)
    requires Valid(start) && start.year <= 9999 && Valid(end) && end.year <= 9999
    ensures MonthlyDates(Format(start), Format(end)) == WindowFrom(start, end)
    ensures LegacyMonthlyDates(Format(start), Format(end)) == LegacyWindowFrom(start, end)
  {
    ParseFormat(start);
    ParseFormat(end);
  }

  /** The example of the source's documentation: 2023-01-15 .. 2023-05-24. */
  lemma DocumentedExample()
    ensures WindowFrom(Date(2023, 1, 15), Date(2023, 5, 24)) == Success([
      Date(2023, 1, 15), Date(2023, 2, 15), Date(2023, 3, 15), Date(2023, 4, 15), Date(2023, 5, 24)])
  {
    var s, e := Date(2023, 1, 15), Date(2023, 5, 24);
    var a := [s, Date(2023, 2, 15), Date(2023, 3, 15), Date(2023, 4, 15), Date(2023, 5, 15)];
    assert Anchors(s, e) == a by {
      AnchorsWithinYear(2023, 1, 15, e);
      assert StepsWithin(1, 15, e) == 5;
    }
    assert a[4 := e] == [s, Date(2023, 2, 15), Date(2023, 3, 15), Date(2023, 4, 15), e];
  }

  // ------------------------------------------------------------- the finding

  /** As written, a window whose end day is earlier than the anchor day loses the
      month before `end`'s: April is never queried for 2023-01-15 .. 2023-05-10. */
  lemma MonthSkippedExample()
    ensures WindowFrom(Date(2023, 1, 15), Date(2023, 5, 10)) == Success([
      Date(2023, 1, 15), Date(2023, 2, 15), Date(2023, 3, 15), Date(2023, 5, 10)])
  {
    var s, e := Date(2023, 1, 15), Date(2023, 5, 10);
    var a := [s, Date(2023, 2, 15), Date(2023, 3, 15), Date(2023, 4, 15)];
    assert Anchors(s, e) == a by {
      AnchorsWithinYear(2023, 1, 15, e);
      assert StepsWithin(1, 15, e) == 4;
    }
    assert a[3 := e] == [s, Date(2023, 2, 15), Date(2023, 3, 15), e];
  }

  /** As written, 2023-01-15 .. 2023-02-10 collapses to `[2023-02-10]`: January is
      never queried and the start date is lost. */
  lemma StartLostExample()
    ensures WindowFrom(Date(2023, 1, 15), Date(2023, 2, 10)) == Success([Date(2023, 2, 10)])
  {
    var s, e := Date(2023, 1, 15), Date(2023, 2, 10);
    assert Anchors(s, e) == [s] by {
      AnchorsWithinYear(2023, 1, 15, e);
      assert StepsWithin(1, 15, e) == 1;
    }
    assert [s][0 := e] == [e];
  }

  /** The evidently intended window: like the current version, but when the last
      anchor is not in `end`'s month, `end` is appended instead of overwriting it. */
  function CorrectedWindowFrom(start: Date, end: Date): Result<seq<Date>>
    requires Valid(start) && Valid(end)
  {
    if SameMonth(start, end) then Success([start, end])
    else
      var a := Anchors(start, end);
      if |a| == 0 then Failure(IndexError)
      else if SameMonth(a[|a| - 1], end) then Success(a[..|a| - 1] + [end])
      else Success(a + [end])
  }

  /** The corrected version on its two `'%Y-%m-%d'` arguments. */
  function CorrectedMonthlyDates(startDate: string, endDate: string): Result<seq<Date>>
  {
    match Parse(startDate)
    case Failure(e) => Failure(e)
    case Success(start) =>
      match Parse(endDate)
      case Failure(e) => Failure(e)
      case Success(end) => CorrectedWindowFrom(start, end)
  }

  /** The corrected window queries every calendar month from `start`'s to `end`'s
      exactly once, in order, begins at `start`, ends at `end` and rises strictly. */
  lemma CorrectedCoversEveryMonth(start: Date, end: Date)
    requires Valid(start) && Valid(end) && !SameMonth(start, end) && Le(start, end)
    ensures CorrectedWindowFrom(start, end).Success?
    ensures var w := CorrectedWindowFrom(start, end).value;
            && |w| == MonthIndex(end) - MonthIndex(start) + 1
            && w[0] == start && w[|w| - 1] == end
            && (forall i :: 0 <= i < |w| ==> MonthIndex(w[i]) == MonthIndex(start) + i)
            && (forall i, j :: 0 <= i < j < |w| ==> Lt(w[i], w[j]))
  {
    CorrectedMonths(start, end);
    var w := CorrectedWindowFrom(start, end).value;
    forall i, j | 0 <= i < j < |w|
      ensures Lt(w[i], w[j])
    {
      MonthIndexOrder(w[i], w[j]);
    }
  }

  /** The corrected window holds one date per month from `start`'s to `end`'s. */
  lemma CorrectedMonths(start: Date, end: Date)
    requires Valid(start) && Valid(end) && !SameMonth(start, end) && Le(start, end)
    ensures CorrectedWindowFrom(start, end).Success?
    ensures var w := CorrectedWindowFrom(start, end).value;
            && |w| == MonthIndex(end) - MonthIndex(start) + 1
            && w[0] == start && w[|w| - 1] == end
            && (forall i :: 0 <= i < |w| ==> Valid(w[i]) && MonthIndex(w[i]) == MonthIndex(start) + i)
  {
    AnchorsShape(start, end);
    LastAnchorMonth(start, end);
    MonthIndexOrder(start, end);
    var a := Anchors(start, end);
    var last := a[|a| - 1];
    var w := CorrectedWindowFrom(start, end).value;
    MonthIndexOrder(last, end);
    if SameMonth(last, end) {
      assert w == a[|a| - 1 := end];
      assert |a| >= 2;
    } else {
      assert w == a + [end];
    }
    assert forall i :: 0 <= i < |w| ==> MonthIndex(w[i]) == MonthIndex(start) + i;
  }

  // ---------------------------------------------------------- older copy

  /** Older copy, one calendar month with `start <= end`: the loop makes one step and
      `end` overwrites it, so the window is `[end]` and `start` is lost. */
  lemma LegacySameMonthLosesStart(start: Date, end: Date)
    requires Valid(start) && Valid(end) && SameMonth(start, end) && Le(start, end)
    ensures LegacyWindowFrom(start, end) == Success([end])
  {
    AnchorsShape(start, end);
    MonthIndexOrder(start, end);
    var a := Anchors(start, end);
    if |a| >= 2 {
      MonthIndexOrder(a[1], end);
      assert false;
    }
    assert a[|a| - 1 := end] == [end];
  }

  /** Older copy: `start` after `end` always raises `IndexError` at `dates[-1]`, while
      the current version raises only when the months differ. */
  lemma StartAfterEndRaises(start: Date, end: Date)
    requires Valid(start) && Valid(end) && Lt(end, start)
    ensures LegacyWindowFrom(start, end) == Failure(IndexError)
    ensures WindowFrom(start, end) == if SameMonth(start, end) then Success([start, end]) else Failure(IndexError)
  {
    AnchorsShape(start, end);
  }

  /** Older copy: every successful window lies in strictly increasing months, so the
      missing de-duplication of month keys never queries a month twice. */
  lemma LegacyMonthsDistinct(start: Date, end: Date)
    requires Valid(start) && Valid(end) && LegacyWindowFrom(start, end).Success?
    ensures var w := LegacyWindowFrom(start, end).value;
            forall i, j :: 0 <= i < j < |w| ==> MonthIndex(w[i]) < MonthIndex(w[j])
  {
    AnchorsShape(start, end);
    var a := Anchors(start, end);
    var w := LegacyWindowFrom(start, end).value;
    assert Le(start, end);
    LastAnchorMonth(start, end);
    assert w == a[|a| - 1 := end];
    forall i, j | 0 <= i < j < |w|
      ensures MonthIndex(w[i]) < MonthIndex(w[j])
    {
      if j == |w| - 1 {
        assert MonthIndex(w[i]) == MonthIndex(start) + i;
      }
    }
  }
}

=== FILE: pgn.dfy ===
/** `pgn_to_dict`: the loose reader of a game's PGN text (Portable Game Notation:
    tag pairs as in section 8.1 of the PGN standard, movetext as in section 8.2).
    The current and the older copy of the reader are the same code. */
module Pgn {
  import opened Wrappers
  import opened Text

  /** A value of the returned dictionary: a tag value, the move count or the move list. */
  datatype PgnValue = Str(text: string) | Count(n: int) | Moves(moves: seq<string>)

  type PgnDict = map<string, PgnValue>

  function MovesCountKey(): string { "moves_count_per_player" }
  function MovesRowKey(): string { "moves_row" }

  // ------------------------------------------------- re.split(r' \d{1,}\. ', row)

  /** The end of the run of digits that starts at `k`. */
  function DigitRunEnd(s: string, k: nat): (j: nat)
    requires k <= |s|
    ensures k <= j <= |s| && AllDigits(s[k..j])
    ensures j < |s| ==> !IsDigit(s[j])
    decreases |s| - k
  {
    if k < |s| && IsDigit(s[k]) then
      var j := DigitRunEnd(s, k + 1);
      assert s[k..j] == [s[k]] + s[k + 1..j];
      j
    else k
  }

  /** A move-number marker: a space, one or more digits, a period and a space. */
  predicate IsMarker(t: string)
  {
    |t| >= 4 && t[0] == ' ' && t[|t| - 2] == '.' && t[|t| - 1] == ' ' && AllDigits(t[1..|t| - 2])
  }

  /** Where the marker pattern, tried at position `i`, ends. The digits are greedy and
      cannot be a period, so at most one match starts at any position. */
  function MarkerAt(s: string, i: nat): (e: Option<nat>)
    requires i <= |s|
    ensures e.Some? ==> i + 4 <= e.value <= |s| && IsMarker(s[i..e.value])
  {
    if i < |s| && s[i] == ' ' then
      var j := DigitRunEnd(s, i + 1);
      if j > i + 1 && j + 1 < |s| && s[j] == '.' && s[j + 1] == ' ' then
        var t := s[i..j + 2];
        var u, v := t[1..|t| - 2], s[i + 1..j];
        forall m | 0 <= m < |u|
          ensures IsDigit(u[m])
        {
          assert u[m] == v[m];
        }
        Some(j + 2)
      else None
    else None
  }

  /** The pieces `re.split` returns for the part of `s` from `start`, scanning for the
      leftmost marker from `i` and resuming after each one it cuts at. */
  function SplitFrom(s: string, start: nat, i: nat): (pieces: seq<string>)
    requires start <= i <= |s|
    ensures |pieces| >= 1
    decreases |s| - i
  {
    if i == |s| then [s[start..]]
    else
      match MarkerAt(s, i)
      case Some(e) => [s[start..i]] + SplitFrom(s, e, e)
      case None => SplitFrom(s, start, i + 1)
  }

  /** The markers `re.split` cuts at, in the same scan as `SplitFrom`. */
  function MarkersFrom(s: string, start: nat, i: nat): seq<string>
    requires start <= i <= |s|
    decreases |s| - i
  {
    if i == |s| then []
    else
      match MarkerAt(s, i)
      case Some(e) => [s[i..e]] + MarkersFrom(s, e, e)
      case None => MarkersFrom(s, start, i + 1)
  }

  /** `re.split(r' \d{1,}\. ', row)`. */
  function SplitMoves(row: string): seq<string>
  {
    SplitFrom(row, 0, 0)
  }

  /** The pieces with the separators put back between them. */
  function Interleave(pieces: seq<string>, seps: seq<string>): string
    requires |pieces| == |seps| + 1
  {
    if seps == [] then pieces[0] else pieces[0] + seps[0] + Interleave(pieces[1..], seps[1..])
  }

  /** The split loses nothing: there is one more piece than markers cut at, each cut is
      a marker, and putting the markers back between the pieces gives the text back. */
  lemma {:induction false} SplitFromRoundTrip(s: string, start: nat, i: nat)
    requires start <= i <= |s|
    ensures |SplitFrom(s, start, i)| == |MarkersFrom(s, start, i)| + 1
    ensures forall k :: 0 <= k < |MarkersFrom(s, start, i)| ==> IsMarker(MarkersFrom(s, start, i)[k])
    ensures Interleave(SplitFrom(s, start, i), MarkersFrom(s, start, i)) == s[start..]
    decreases |s| - i
  {
    if i < |s| {
      match MarkerAt(s, i)
      case Some(e) =>
        SplitFromRoundTrip(s, e, e);
        var rest, ms := SplitFrom(s, e, e), MarkersFrom(s, e, e);
        assert SplitFrom(s, start, i) == [s[start..i]] + rest;
        assert MarkersFrom(s, start, i) == [s[i..e]] + ms;
        assert s[start..] == s[start..i] + s[i..e] + s[e..];
      case None =>
        SplitFromRoundTrip(s, start, i + 1);
    }
  }

  /** `re.split` on a move row is undone by re-inserting the markers it cut at. */
  lemma SplitMovesRoundTrip(row: string)
    ensures |SplitMoves(row)| == |MarkersFrom(row, 0, 0)| + 1
    ensures forall k :: 0 <= k < |MarkersFrom(row, 0, 0)| ==> IsMarker(MarkersFrom(row, 0, 0)[k])
    ensures Interleave(SplitMoves(row), MarkersFrom(row, 0, 0)) == row
  {
    SplitFromRoundTrip(row, 0, 0);
  }

  // -------------------------------------------------------------- one row

  const Brackets: set<char> := {'[', ']'}
  const Quote: set<char> := {'"'}

  /** `row.find('[') == 0`. */
  predicate IsHeaderRow(row: string)
  {
    |row| > 0 && row[0] == '['
  }

  /** `row.strip('[]').split(' ', maxsplit=1)` of a header row. */
  function HeaderElement(row: string): seq<string>
  {
    SplitOnce(Strip(row, Brackets), ' ')
  }

  /** What one row does to the dictionary. */
  datatype Effect = Skip | SetTag(key: string, value: string) | SetMoves(moves: seq<string>)

  /** The loop body's reading of one row: a header row sets its tag (and raises
      `IndexError` when it has no value), an empty row is skipped, and any other row is
      the movetext. */
  function ParseRow(row: string): Result<Effect>
  {
    if IsHeaderRow(row) then
      var element := HeaderElement(row);
      if |element| < 2 then Failure(IndexError)
      else Success(SetTag(element[0], Strip(element[1], Quote)))
    else if |row| < 1 then Success(Skip)
    else Success(SetMoves(SplitMoves(row)))
  }

  function Apply(d: PgnDict, e: Effect): PgnDict
  {
    match e
    case Skip => d
    case SetTag(key, value) => d[key := Str(value)]
    case SetMoves(moves) => d[MovesCountKey() := Count(|moves|)][MovesRowKey() := Moves(moves)]
  }

  /** The key a row sets as a tag, if it is a header row with a value. */
  function RowKey(row: string): Option<string>
  {
    match ParseRow(row)
    case Success(SetTag(key, _)) => Some(key)
    case _ => None
  }

  /** Every row read in order, or the error of the first row that cannot be read. A
      raise inside the loop discards the dictionary, so the loop's result is this
      reading applied row by row. */
  function ParseRows(rows: seq<string>): (r: Result<seq<Effect>>)
    ensures r.Success? <==> forall j :: 0 <= j < |rows| ==> ParseRow(rows[j]).Success?
    ensures r.Success? ==> |r.value| == |rows| && forall j :: 0 <= j < |rows| ==> ParseRow(rows[j]) == Success(r.value[j])
    ensures r.Failure? ==> r.error == IndexError
    decreases |rows|
  {
    if rows == [] then Success([])
    else
      match ParseRow(rows[0])
      case Failure(e) => Failure(e)
      case Success(e) =>
        var rest := ParseRows(rows[1..]);
        assert forall j :: 1 <= j < |rows| ==> rows[j] == rows[1..][j - 1];
        match rest
        case Failure(e') => Failure(e')
        case Success(es) => Success([e] + es)
  }

  /** The dictionary after applying the effects in order. */
  function ApplyAll(d: PgnDict, effects: seq<Effect>): PgnDict
    decreases |effects|
  {
    if effects == [] then d
    else Apply(ApplyAll(d, effects[..|effects| - 1]), effects[|effects| - 1])
  }

  /** The loop over the remaining rows, from the dictionary built so far. */
  function ApplyRows(d: PgnDict, rows: seq<string>): Result<PgnDict>
    decreases |rows|
  {
    if rows == [] then Success(d)
    else
      match ParseRow(rows[0])
      case Failure(e) => Failure(e)
      case Success(e) => ApplyRows(Apply(d, e), rows[1..])
  }

  /** `pgn_to_dict(pgn)`: every row read, then the readings applied in order. */
  function PgnToDictSpec(pgn: string): Result<PgnDict>
  {
    match ParseRows(Split(pgn, '\n'))
    case Failure(e) => Failure(e)
    case Success(effects) => Success(ApplyAll(map[], effects))
  }

  /** `pgn_to_dict`, as the loop that mutates `pgn_dict`. */
  method PgnToDict(pgn: string) returns (r: Result<PgnDict>)
    ensures r == PgnToDictSpec(pgn)
  {
    var pgnDict: PgnDict := map[];
    var rows := Split(pgn, '\n');
    for i := 0 to |rows|
      invariant ApplyRows(pgnDict, rows[i..]) == ApplyRows(map[], rows)
    {
      assert rows[i..][1..] == rows[i + 1..];
      var row := rows[i];
      if IsHeaderRow(row) {
        var element := HeaderElement(row);
        if |element| < 2 {
          RowByRow(map[], rows);
          return Failure(IndexError);
        }
        pgnDict := pgnDict[element[0] := Str(Strip(element[1], Quote))];
      } else if |row| < 1 {
        continue;
      } else {
        var moves := SplitMoves(row);
        pgnDict := pgnDict[MovesCountKey() := Count(|moves|)];
        pgnDict := pgnDict[MovesRowKey() := Moves(moves)];
      }
    }
    RowByRow(map[], rows);
    return Success(pgnDict);
  }

  /** Applying each row as it is read is reading every row and then applying them. */
  lemma {:induction false} RowByRow(d: PgnDict, rows: seq<string>)
    ensures ApplyRows(d, rows) == match ParseRows(rows)
                                  case Failure(e) => Failure(e)
                                  case Success(effects) => Success(ApplyAll(d, effects))
    decreases |rows|
  {
    if rows != [] {
      match ParseRow(rows[0])
      case Failure(_) =>
      case Success(e) =>
        RowByRow(Apply(d, e), rows[1..]);
        match ParseRows(rows[1..])
        case Failure(_) =>
        case Success(es) =>
          assert ParseRows(rows) == Success([e] + es);
          ApplyAllAppend(d, [e], es);
          assert ([e] + es)[..0] == [];
    }
  }

  lemma ParseHeaderRow(row: string)
    requires IsHeaderRow(row)
    ensures var element := HeaderElement(row);
            ParseRow(row) == if |element| < 2 then Failure(IndexError)
                             else Success(SetTag(element[0], Strip(element[1], Quote)))
  {
  }

  // ------------------------------------------------------------------ lemmas

  /** The text of a tag pair, `[Key "Value"]`. */
  function TagPair(key: string, value: string): string
  {
    "[" + key + " \"" + value + "\"]"
  }

  /** A key and value the loose reader gives back unchanged: no space in the key, no
      bracket at the key's start, no quote at either end of the value. */
  predicate Readable(key: string, value: string)
  {
    && ' ' !in key
    && (|key| > 0 ==> key[0] !in Brackets)
    && (|value| > 0 ==> value[0] != '"' && value[|value| - 1] != '"')
  }

  /** Reading a written tag pair sets exactly that key to exactly that value. */
  lemma TagPairRoundTrip(key: string, value: string)
    requires Readable(key, value)
    ensures ParseRow(TagPair(key, value)) == Success(SetTag(key, value))
  {
    var quoted := "\"" + value + "\"";
    TagPairElement(key, value);
    StripExact("\"", value, "\"", Quote);
    assert Strip(quoted, Quote) == value;
  }

  /** The bracket-stripped tag pair splits into the key and the quoted value. */
  lemma TagPairElement(key: string, value: string)
    requires Readable(key, value)
    ensures HeaderElement(TagPair(key, value)) == [key, "\"" + value + "\""]
  {
    var quoted := "\"" + value + "\"";
    var inner := key + [' '] + quoted;
    TagPairStrip(key, value);
    SplitOnceAtFirst(key, ' ', quoted);
  }

  lemma TagPairStrip(key: string, value: string)
    requires Readable(key, value)
    ensures Strip(TagPair(key, value), Brackets) == key + [' '] + ("\"" + value + "\"")
  {
    var inner := key + [' '] + ("\"" + value + "\"");
    assert TagPair(key, value) == "[" + inner + "]";
    assert inner[|inner| - 1] == '"';
    assert |key| == 0 ==> inner[0] == ' ';
    StripExact("[", inner, "]", Brackets);
  }

  /** A header row with no space (a tag without a value) raises `IndexError`. */
  lemma HeaderWithoutValueRaises(row: string)
    requires IsHeaderRow(row) && ' ' !in row
    ensures ParseRow(row) == Failure(IndexError)
  {
    StripKeepsAbsent(row, Brackets, ' ');
  }

  /** A move row sets the move list to its `re.split` pieces and the count to their
      number, which is one more than the number of move-number markers cut at. */
  lemma MoveRowSetsCount(d: PgnDict, row: string)
    requires |row| > 0 && row[0] != '['
    ensures ParseRow(row).Success?
    ensures var d' := Apply(d, ParseRow(row).value);
            && d'[MovesRowKey()] == Moves(SplitMoves(row))
            && d'[MovesCountKey()] == Count(|MarkersFrom(row, 0, 0)| + 1)
            && Interleave(d'[MovesRowKey()].moves, MarkersFrom(row, 0, 0)) == row
  {
    SplitMovesRoundTrip(row);
  }

  /** An empty row is skipped, and skipped rows change nothing: the dictionary is the
      one built from the other rows alone. */
  lemma {:induction false} SkipsChangeNothing(d: PgnDict, effects: seq<Effect>)
    ensures ApplyAll(d, effects) == ApplyAll(d, WithoutSkips(effects))
    decreases |effects|
  {
    if effects != [] {
      var n := |effects| - 1;
      var init, e := effects[..n], effects[n];
      var ws := WithoutSkips(init);
      assert ApplyAll(d, effects) == Apply(ApplyAll(d, init), e);
      assert WithoutSkips(effects) == ws + (if e == Skip then [] else [e]);
      SkipsChangeNothing(d, init);
      if e != Skip {
        assert (ws + [e])[..|ws|] == ws;
        assert ApplyAll(d, ws + [e]) == Apply(ApplyAll(d, ws), e);
      } else {
        assert ws + [] == ws;
      }
    }
  }

  function WithoutSkips(effects: seq<Effect>): seq<Effect>
    decreases |effects|
  {
    if effects == [] then []
    else
      var n := |effects| - 1;
      WithoutSkips(effects[..n]) + (if effects[n] == Skip then [] else [effects[n]])
  }

  /** Effects that never set `key` leave its value as it was (the two derived keys are
      set by every move row, so they are excluded). */
  lemma {:induction false} UntouchedKeyKept(d: PgnDict, effects: seq<Effect>, key: string)
    requires key != MovesCountKey() && key != MovesRowKey()
    requires forall j :: 0 <= j < |effects| ==> !effects[j].SetTag? || effects[j].key != key
    ensures key in d <==> key in ApplyAll(d, effects)
    ensures key in d ==> ApplyAll(d, effects)[key] == d[key]
    decreases |effects|
  {
    if effects != [] {
      UntouchedKeyKept(d, effects[..|effects| - 1], key);
    }
  }

  /** The loop over a concatenation is the loop over the second part, started from the
      dictionary the first part built. */
  lemma {:induction false} ApplyAllAppend(d: PgnDict, effects: seq<Effect>, more: seq<Effect>)
    ensures ApplyAll(d, effects + more) == ApplyAll(ApplyAll(d, effects), more)
    decreases |more|
  {
    if more == [] {
      assert effects + more == effects;
    } else {
      var n := |more| - 1;
      assert (effects + more)[..|effects + more| - 1] == effects + more[..n];
      ApplyAllAppend(d, effects, more[..n]);
    }
  }

  /** A later duplicate tag wins: the value of a key is the one its last tag gave. */
  lemma LastSetTagWins(effects: seq<Effect>, i: nat, key: string, value: string)
    requires i < |effects| && effects[i] == SetTag(key, value)
    requires key != MovesCountKey() && key != MovesRowKey()
    requires forall j :: i < j < |effects| ==> !effects[j].SetTag? || effects[j].key != key
    ensures key in ApplyAll(map[], effects) && ApplyAll(map[], effects)[key] == Str(value)
  {
    var front, back := effects[..i + 1], effects[i + 1..];
    assert effects == front + back;
    ApplyAllAppend(map[], front, back);
    assert front[..i] == front[..|front| - 1];
    forall j | 0 <= j < |back|
      ensures !back[j].SetTag? || back[j].key != key
    {
      assert back[j] == effects[i + 1 + j];
    }
    UntouchedKeyKept(ApplyAll(map[], front), back, key);
  }

  lemma RowKeyOfEffect(row: string, e: Effect)
    requires ParseRow(row) == Success(e)
    ensures RowKey(row) == if e.SetTag? then Some(e.key) else None
  {
  }

  /** In a whole PGN text, the value of a tag is the one its last tag row gave. */
  lemma LastTagWins(pgn: string, i: nat, key: string, value: string)
    requires var rows := Split(pgn, '\n'); i < |rows| && rows[i] == TagPair(key, value)
    requires Readable(key, value) && key != MovesCountKey() && key != MovesRowKey()
    requires forall j :: i < j < |Split(pgn, '\n')| ==> RowKey(Split(pgn, '\n')[j]) != Some(key)
    requires PgnToDictSpec(pgn).Success?
    ensures key in PgnToDictSpec(pgn).value && PgnToDictSpec(pgn).value[key] == Str(value)
  {
    var rows := Split(pgn, '\n');
    var effects := ParseRows(rows).value;
    TagPairRoundTrip(key, value);
    forall j | i < j < |effects|
      ensures !effects[j].SetTag? || effects[j].key != key
    {
      RowKeyOfEffect(rows[j], effects[j]);
    }
    LastSetTagWins(effects, i, key, value);
  }

  /** With no move row (and no tag named like a derived key) neither derived key appears. */
  lemma {:induction false} NoMoveRowNoCount(effects: seq<Effect>)
    requires forall j :: 0 <= j < |effects| ==> !effects[j].SetMoves?
    requires forall j :: 0 <= j < |effects| && effects[j].SetTag? ==> effects[j].key != MovesCountKey() && effects[j].key != MovesRowKey()
    ensures MovesCountKey() !in ApplyAll(map[], effects) && MovesRowKey() !in ApplyAll(map[], effects)
    decreases |effects|
  {
    if effects != [] {
      NoMoveRowNoCount(effects[..|effects| - 1]);
    }
  }

  /** Only a non-empty row that is not a header row is a move row. */
  lemma MoveRowsAreNonHeaderRows(row: string)
    requires ParseRow(row).Success?
    ensures ParseRow(row).value.SetMoves? <==> |row| > 0 && row[0] != '['
    ensures ParseRow(row).value == Skip <==> row == ""
  {
  }
}

=== FILE: postgresql.dfy ===
/** `PostgreSqlClient` of app/connectors: the writes the pipeline performs on a
    PostgreSQL database (create, drop, insert, overwrite, upsert, upsert in chunks),
    over a database given as its tables' definitions and rows; and the `load`
    selector of app/assets that chooses one of them. */
module PostgreSql {
  import opened Wrappers

  /** A stored value: SQL `NULL`, or a value written as text. */
  datatype Value = Null | Val(text: string)

  /** A record, as `df.to_dict(orient="records")` gives it: column name to value. */
  type Row = map<string, Value>

  /** A SQLAlchemy column: the attributes `create_table` keeps and some it drops. */
  datatype Column = Column(name: string, sqlType: string, primaryKey: bool,
                           nullable: bool, unique: bool, default: Option<string>)

  datatype TableDef = TableDef(name: string, columns: seq<Column>)

  /** `MetaData.tables`: the table definitions, by name. */
  type MetaData = map<string, TableDef>

  /** A table of the database: its definition and its rows. */
  datatype Stored = Stored(def: TableDef, rows: seq<Row>)

  type Db = map<string, Stored>

  /** What a write leaves behind: the database, and whether it raised. Statements that
      completed before the one that raised stay applied. */
  datatype Outcome = Outcome(db: Db, result: Result<()>)

  // ------------------------------------------------------------ create_table

  /** `Column(column.name, column.type, primary_key=column.primary_key)`: every other
      attribute takes SQLAlchemy's default, under which a key column is not nullable. */
  function CopyColumn(c: Column): (r: Column)
    ensures r.name == c.name && r.sqlType == c.sqlType && r.primaryKey == c.primaryKey
    ensures r.nullable == !c.primaryKey && !r.unique && r.default.None?
  {
    Column(c.name, c.sqlType, c.primaryKey, !c.primaryKey, false, None)
  }

  function CopyColumns(cols: seq<Column>): (r: seq<Column>)
    ensures |r| == |cols| && forall i :: 0 <= i < |cols| ==> r[i] == CopyColumn(cols[i])
  {
    if cols == [] then [] else [CopyColumn(cols[0])] + CopyColumns(cols[1..])
  }

  /** Recreating a recreated table gives the same table. */
  lemma {:induction false} CopyColumnsIdempotent(cols: seq<Column>)
    ensures CopyColumns(CopyColumns(cols)) == CopyColumns(cols)
  {
    var once := CopyColumns(cols);
    assert forall i :: 0 <= i < |cols| ==> CopyColumns(once)[i] == once[i];
  }

  /** `create_table`: looks the table up in the metadata (`KeyError` when it is not
      there) and creates it, empty, with the copied columns; `create_all` skips a table
      that already exists. */
  function CreateTableSpec(db: Db, tableName: string, metadata: MetaData): (r: Result<Db>)
    ensures r.Success? ==> tableName in r.value
  {
    if tableName !in metadata then Failure(KeyError)
    else if tableName in db then Success(db)
    else Success(db[tableName := Stored(TableDef(tableName, CopyColumns(metadata[tableName].columns)), [])])
  }

  /** `create_table` fails only on a table the metadata lacks; it leaves an existing
      table as it is; a new table is empty and has the source's columns in order, with
      their names, types and primary-key flags; no other table changes. */
  lemma CreateTableCopies(db: Db, tableName: string, metadata: MetaData)
    ensures var r := CreateTableSpec(db, tableName, metadata);
            && (r.Success? <==> tableName in metadata)
            && (r.Failure? ==> r.error == KeyError)
            && (r.Success? && tableName in db ==> r.value == db)
            && (r.Success? && tableName !in db ==>
                  && r.value[tableName].rows == []
                  && r.value[tableName].def.name == tableName
                  && var source, copy := metadata[tableName].columns, r.value[tableName].def.columns;
                     && |copy| == |source|
                     && (forall i :: 0 <= i < |source| ==>
                           copy[i].name == source[i].name && copy[i].sqlType == source[i].sqlType
                           && copy[i].primaryKey == source[i].primaryKey))
            && (r.Success? ==> forall t :: t != tableName ==> (t in r.value <==> t in db))
            && (r.Success? ==> forall t :: t != tableName && t in db ==> r.value[t] == db[t])
  {
  }

  // ------------------------------------------------------------------ columns

  function Names(cols: seq<Column>): (r: seq<string>)
    ensures |r| == |cols| && forall i :: 0 <= i < |cols| ==> r[i] == cols[i].name
  {
    if cols == [] then [] else [cols[0].name] + Names(cols[1..])
  }

  /** `[pk_column.name for pk_column in table.primary_key.columns.values()]`. */
  function KeyColumns(cols: seq<Column>): seq<string>
  {
    if cols == [] then []
    else (if cols[0].primaryKey then [cols[0].name] else []) + KeyColumns(cols[1..])
  }

  /** The key columns are exactly the columns flagged as primary key. */
  lemma {:induction false} KeyColumnsMembers(cols: seq<Column>, n: string)
    ensures n in KeyColumns(cols) <==> exists i :: 0 <= i < |cols| && cols[i].name == n && cols[i].primaryKey
  {
    if cols != [] {
      KeyColumnsMembers(cols[1..], n);
      if exists i :: 0 <= i < |cols| && cols[i].name == n && cols[i].primaryKey {
        var i :| 0 <= i < |cols| && cols[i].name == n && cols[i].primaryKey;
        if i > 0 {
          assert cols[1..][i - 1] == cols[i];
        }
      }
      if n in KeyColumns(cols[1..]) {
        var i :| 0 <= i < |cols| - 1 && cols[1..][i].name == n && cols[1..][i].primaryKey;
        assert cols[i + 1] == cols[1..][i];
      }
    }
  }

  /** The `set_` of the upsert: `excluded` holds every column of the table, and the
      ones outside the key are written. */
  function SetColumns(cols: seq<Column>): seq<string>
  {
    if cols == [] then []
    else (if !cols[0].primaryKey then [cols[0].name] else []) + SetColumns(cols[1..])
  }

  /** The updated columns are exactly the columns outside the primary key. */
  lemma {:induction false} SetColumnsMembers(cols: seq<Column>, n: string)
    ensures n in SetColumns(cols) <==> exists i :: 0 <= i < |cols| && cols[i].name == n && !cols[i].primaryKey
  {
    if cols != [] {
      SetColumnsMembers(cols[1..], n);
      if exists i :: 0 <= i < |cols| && cols[i].name == n && !cols[i].primaryKey {
        var i :| 0 <= i < |cols| && cols[i].name == n && !cols[i].primaryKey;
        if i > 0 {
          assert cols[1..][i - 1] == cols[i];
        }
      }
      if n in SetColumns(cols[1..]) {
        var i :| 0 <= i < |cols| - 1 && cols[1..][i].name == n && !cols[1..][i].primaryKey;
        assert cols[i + 1] == cols[1..][i];
      }
    }
  }

  /** SQLAlchemy refuses a table with two columns of the same name. */
  predicate UniqueNames(cols: seq<Column>)
  {
    forall i, j :: 0 <= i < j < |cols| ==> cols[i].name != cols[j].name
  }

  /** The conflict target and the updated columns split the table's columns: every
      column is in exactly one of them. */
  lemma {:induction false} KeyAndSetPartition(cols: seq<Column>, n: string)
    requires UniqueNames(cols)
    ensures n in Names(cols) <==> n in KeyColumns(cols) || n in SetColumns(cols)
    ensures !(n in KeyColumns(cols) && n in SetColumns(cols))
  {
    KeyColumnsMembers(cols, n);
    SetColumnsMembers(cols, n);
    if n in Names(cols) {
      var i :| 0 <= i < |cols| && Names(cols)[i] == n;
      assert cols[i].name == n;
    }
  }

  // ----------------------------------------------------------------- records

  function Get(row: Row, c: string): Value
  {
    if c in row then row[c] else Null
  }

  /** What a column stores when a record gives it no value: the column's Python-side
      scalar default, which SQLAlchemy's insert supplies, or `Null` without one. */
  function ColumnDefault(c: Column): Value
  {
    if c.default.Some? then Val(c.default.value) else Null
  }

  /** The default of the first column named `name`, or `Null` when there is none. */
  function DefaultOf(cols: seq<Column>, name: string): Value
  {
    if cols == [] then Null
    else if cols[0].name == name then ColumnDefault(cols[0])
    else DefaultOf(cols[1..], name)
  }

  /** In a table whose column names are distinct, a column's default is found by its
      name. */
  lemma {:induction false} DefaultOfColumn(cols: seq<Column>, i: int)
    requires UniqueNames(cols) && 0 <= i < |cols|
    ensures DefaultOf(cols, cols[i].name) == ColumnDefault(cols[i])
  {
    if i > 0 {
      assert cols[0].name != cols[i].name;
      assert cols[1..][i - 1] == cols[i];
      DefaultOfColumn(cols[1..], i - 1);
    }
  }

  /** The record as stored: every column of the table, with the record's value, else
      the column's default, else `Null`. */
  function Fill(row: Row, cols: seq<Column>): Row
  {
    if cols == [] then map[]
    else
      var c := cols[0];
      Fill(row, cols[1..])[c.name := if c.name in row then row[c.name] else ColumnDefault(c)]
  }

  /** A filled record holds exactly the table's columns, each with the record's value
      or, for a column the record leaves out, that column's default or `Null`. */
  lemma {:induction false} FillAt(row: Row, cols: seq<Column>)
    ensures forall c :: c in Fill(row, cols) <==> c in Names(cols)
    ensures forall c :: c in Fill(row, cols) ==>
              Fill(row, cols)[c] == if c in row then row[c] else DefaultOf(cols, c)
  {
    if cols != [] {
      FillAt(row, cols[1..]);
      assert Names(cols) == [cols[0].name] + Names(cols[1..]);
    }
  }

  function FillAll(data: seq<Row>, cols: seq<Column>): (r: seq<Row>)
    ensures |r| == |data|
  {
    if data == [] then [] else [Fill(data[0], cols)] + FillAll(data[1..], cols)
  }

  /** A filled record holds exactly the table's columns, with the record's value or the
      column's default or `Null`; the batch is filled record by record. */
  lemma {:induction false} FillAllAt(data: seq<Row>, cols: seq<Column>)
    ensures forall i :: 0 <= i < |data| ==> FillAll(data, cols)[i] == Fill(data[i], cols)
    ensures forall i :: 0 <= i < |data| ==> Filled(FillAll(data, cols)[i], cols)
    ensures forall i, c :: 0 <= i < |data| && c in FillAll(data, cols)[i] ==>
              FillAll(data, cols)[i][c] == if c in data[i] then data[i][c] else DefaultOf(cols, c)
  {
    if data != [] {
      FillAllAt(data[1..], cols);
      forall i | 0 < i < |data|
        ensures FillAll(data, cols)[i] == Fill(data[i], cols)
      {
        assert data[1..][i - 1] == data[i];
      }
      forall i | 0 <= i < |data|
        ensures Filled(FillAll(data, cols)[i], cols)
        ensures forall c :: c in FillAll(data, cols)[i] ==>
                  FillAll(data, cols)[i][c] == if c in data[i] then data[i][c] else DefaultOf(cols, c)
      {
        FillAt(data[i], cols);
      }
    }
  }

  /** A cut-down `players` table: the player's id and a snapshot timestamp form the key,
      and the timestamp's default is the moment the table was defined. */
  function SnapshotColumns(definedAt: string): seq<Column>
  {
    [Column("player_id", "BigInteger", true, true, false, None),
     Column("snaphot_date", "TIMESTAMP", true, true, false, Some(definedAt)),
     Column("name", "String", false, true, false, None)]
  }

  /** A player as the players load gives it: no snapshot date. */
  function PlayerRecord(): Row
  {
    map["player_id" := Val("1"), "name" := Val("Ann")]
  }

  /** The player record as stored by a run whose table was defined at `definedAt`. */
  function StoredPlayer(definedAt: string): Row
  {
    map["player_id" := Val("1"), "snaphot_date" := Val(definedAt), "name" := Val("Ann")]
  }

  /** The stored record takes the snapshot date from the column default. */
  lemma FillSnapshot(definedAt: string)
    ensures FillAll([PlayerRecord()], SnapshotColumns(definedAt)) == [StoredPlayer(definedAt)]
    ensures KeyColumns(SnapshotColumns(definedAt)) == ["player_id", "snaphot_date"]
    ensures AllFit([PlayerRecord()], SnapshotColumns(definedAt))
  {
    var cols, player := SnapshotColumns(definedAt), PlayerRecord();
    assert cols[1..][1..] == [cols[2]] && cols[2..] == [cols[2]];
    assert Fill(player, cols[1..][1..]) == map["name" := Val("Ann")];
    assert Fill(player, cols[1..]) == map["name" := Val("Ann"), "snaphot_date" := Val(definedAt)];
    assert Fill(player, cols) == StoredPlayer(definedAt);
    assert KeyColumns(cols[1..][1..]) == [];
    assert Names(cols) == ["player_id", "snaphot_date", "name"];
    assert Fits(player, cols);
  }

  /** The key of a stored player: its id, then its snapshot date. */
  lemma SnapshotKey(definedAt: string)
    ensures KeyOf(StoredPlayer(definedAt), ["player_id", "snaphot_date"]) == [Val("1"), Val(definedAt)]
  {
    var keys := ["player_id", "snaphot_date"];
    assert keys[1..] == ["snaphot_date"] && keys[1..][1..] == [];
    assert KeyOf(StoredPlayer(definedAt), keys[1..]) == [Val(definedAt)];
  }

  /** A player record without a snapshot date is stored with the timestamp of the run
      that defined the table. */
  lemma SnapshotStored(definedAt: string)
    ensures ExecuteInsert([], [PlayerRecord()], SnapshotColumns(definedAt)) == Success([StoredPlayer(definedAt)])
  {
    FillSnapshot(definedAt);
    InsertStatement([], [PlayerRecord()], SnapshotColumns(definedAt));
    assert [] + [StoredPlayer(definedAt)] == [StoredPlayer(definedAt)];
  }

  /** The run that stored a player cannot insert it again: the default gives the same
      key. */
  lemma SnapshotSameRunClashes(definedAt: string)
    ensures ExecuteInsert([StoredPlayer(definedAt)], [PlayerRecord()], SnapshotColumns(definedAt))
            == Failure(SqlError("duplicate key value"))
  {
    FillSnapshot(definedAt);
    var stored := StoredPlayer(definedAt);
    var keys := ["player_id", "snaphot_date"];
    assert DistinctKeys([stored], keys);
    assert KeyTaken([stored], FillAll([PlayerRecord()], SnapshotColumns(definedAt))[0], keys);
  }

  /** A later run, whose table was defined at another time, adds a second snapshot of
      the same player. */
  lemma SnapshotsAccumulate(firstRun: string, secondRun: string)
    requires firstRun != secondRun
    ensures ExecuteInsert([StoredPlayer(firstRun)], [PlayerRecord()], SnapshotColumns(secondRun))
            == Success([StoredPlayer(firstRun), StoredPlayer(secondRun)])
  {
    FillSnapshot(secondRun);
    SnapshotKey(firstRun);
    SnapshotKey(secondRun);
    var keys := ["player_id", "snaphot_date"];
    var first, second := StoredPlayer(firstRun), StoredPlayer(secondRun);
    assert KeyOf(first, keys) != KeyOf(second, keys);
    InsertStatement([first], [PlayerRecord()], SnapshotColumns(secondRun));
    assert !KeyTaken([first], second, keys);
    assert DistinctKeys([second], keys);
    assert [first] + [second] == [first, second];
  }

  /** The record names no column the table lacks. */
  predicate Fits(row: Row, cols: seq<Column>)
  {
    forall c :: c in row ==> c in Names(cols)
  }

  /** Every record of the batch fits, checked record by record. */
  predicate AllFit(data: seq<Row>, cols: seq<Column>)
    decreases |data|
  {
    data == [] || (Fits(data[0], cols) && AllFit(data[1..], cols))
  }

  lemma {:induction false} AllFitAt(data: seq<Row>, cols: seq<Column>)
    ensures AllFit(data, cols) <==> forall i :: 0 <= i < |data| ==> Fits(data[i], cols)
    decreases |data|
  {
    if data != [] {
      AllFitAt(data[1..], cols);
      assert forall i :: 0 < i < |data| ==> data[i] == data[1..][i - 1];
    }
  }

  /** Every record of the batch names the same columns, as `to_dict(orient="records")`
      and `run_sql` give them. */
  predicate SameKeys(data: seq<Row>)
  {
    forall i :: 0 <= i < |data| ==> data[i].Keys == data[0].Keys
  }

  /** SQLAlchemy takes a multi-row insert's column set from its first record and checks
      only that record for names the table lacks; on a batch whose records share their
      columns, that check and the record-by-record one agree. */
  lemma {:induction false} SameKeysFitAsFirst(data: seq<Row>, cols: seq<Column>)
    requires data != [] && SameKeys(data)
    ensures AllFit(data, cols) <==> Fits(data[0], cols)
  {
    AllFitAt(data, cols);
    if Fits(data[0], cols) {
      forall i | 0 <= i < |data|
        ensures Fits(data[i], cols)
      {
        assert data[i].Keys == data[0].Keys;
      }
    }
  }

  /** The values of the key columns. */
  function KeyOf(row: Row, keys: seq<string>): seq<Value>
  {
    if keys == [] then [] else [Get(row, keys[0])] + KeyOf(row, keys[1..])
  }

  /** The key holds the value of each key column, in the order of the key. */
  lemma {:induction false} KeyOfAt(row: Row, keys: seq<string>, k: nat)
    requires k < |keys|
    ensures |KeyOf(row, keys)| == |keys| && KeyOf(row, keys)[k] == Get(row, keys[k])
  {
    if k > 0 {
      KeyOfAt(row, keys[1..], k - 1);
    } else {
      KeyOfLength(row, keys[1..]);
    }
  }

  lemma {:induction false} KeyOfLength(row: Row, keys: seq<string>)
    ensures |KeyOf(row, keys)| == |keys|
  {
    if keys != [] {
      KeyOfLength(row, keys[1..]);
    }
  }

  /** No record shares its key with a later one. */
  predicate DistinctKeys(rows: seq<Row>, keys: seq<string>)
    decreases |rows|
  {
    rows == [] || (!KeyTaken(rows[1..], rows[0], keys) && DistinctKeys(rows[1..], keys))
  }

  /** Distinct keys: no two records of the batch have the same key. */
  lemma {:induction false} DistinctKeysPairwise(rows: seq<Row>, keys: seq<string>)
    ensures DistinctKeys(rows, keys) <==>
              forall i, j :: 0 <= i < j < |rows| ==> KeyOf(rows[i], keys) != KeyOf(rows[j], keys)
    decreases |rows|
  {
    if rows != [] {
      var tail := rows[1..];
      DistinctKeysPairwise(tail, keys);
      assert forall i :: 0 < i < |rows| ==> rows[i] == tail[i - 1];
      if !KeyTaken(tail, rows[0], keys) {
        forall i | 0 < i < |rows|
          ensures KeyOf(rows[0], keys) != KeyOf(rows[i], keys)
        {
          assert tail[i - 1] == rows[i];
        }
      } else {
        var i :| 0 <= i < |tail| && KeyOf(tail[i], keys) == KeyOf(rows[0], keys);
        assert rows[i + 1] == tail[i];
      }
    }
  }

  /** Some row of `rows` has the key of `row`. */
  predicate KeyTaken(rows: seq<Row>, row: Row, keys: seq<string>)
  {
    exists i :: 0 <= i < |rows| && KeyOf(rows[i], keys) == KeyOf(row, keys)
  }

  // ------------------------------------------------------ the two statements

  /** `insert(table).values(data)` on a table holding `rows`: a record naming an unknown
      column is refused, and so is a batch that repeats a primary key or reuses one
      already stored. */
  function ExecuteInsert(rows: seq<Row>, data: seq<Row>, cols: seq<Column>): (r: Result<seq<Row>>)
  {
    var filled, keys := FillAll(data, cols), KeyColumns(cols);
    if !AllFit(data, cols) then Failure(SqlError("unconsumed column names"))
    else if keys != [] && !DistinctKeys(filled, keys) then Failure(SqlError("duplicate key value"))
    else if keys != [] && exists j :: 0 <= j < |data| && KeyTaken(rows, filled[j], keys) then
      Failure(SqlError("duplicate key value"))
    else Success(rows + filled)
  }

  /** The insert statement succeeds exactly when every record fits the table and, for a
      table with a primary key, no key repeats within the batch or matches a stored
      record; the records are then appended as stored. */
  lemma InsertStatement(rows: seq<Row>, data: seq<Row>, cols: seq<Column>)
    ensures var r := ExecuteInsert(rows, data, cols);
            && (r.Success? ==> r.value == rows + FillAll(data, cols))
            && (r.Success? <==>
                  && AllFit(data, cols)
                  && (KeyColumns(cols) != [] ==>
                        && DistinctKeys(FillAll(data, cols), KeyColumns(cols))
                        && forall j :: 0 <= j < |data| ==> !KeyTaken(rows, FillAll(data, cols)[j], KeyColumns(cols))))
  {
  }

  /** `on_conflict_do_update`'s effect on one stored record: the `set_` columns take
      the incoming values. */
  function UpdateRow(stored: Row, incoming: Row, setColumns: seq<string>): Row
  {
    if setColumns == [] then stored
    else
      var rest := UpdateRow(stored, incoming, setColumns[1..]);
      if setColumns[0] in incoming then rest[setColumns[0] := incoming[setColumns[0]]] else rest
  }

  /** A column of the updated record: the incoming value for a `set_` column the
      incoming record has, the stored value otherwise. */
  lemma {:induction false} UpdateRowAt(stored: Row, incoming: Row, setColumns: seq<string>, c: string)
    ensures c in UpdateRow(stored, incoming, setColumns) <==> c in stored || (c in setColumns && c in incoming)
    ensures c in UpdateRow(stored, incoming, setColumns) ==>
              UpdateRow(stored, incoming, setColumns)[c]
              == if c in setColumns && c in incoming then incoming[c] else stored[c]
  {
    if setColumns != [] {
      UpdateRowAt(stored, incoming, setColumns[1..], c);
      assert c in setColumns <==> c == setColumns[0] || c in setColumns[1..];
    }
  }

  /** One incoming record: it updates the stored record with the same key, or is
      appended when there is none. */
  function UpsertRow(rows: seq<Row>, incoming: Row, keys: seq<string>, setColumns: seq<string>): seq<Row>
  {
    if rows == [] then [incoming]
    else if KeyOf(rows[0], keys) == KeyOf(incoming, keys) then
      [UpdateRow(rows[0], incoming, setColumns)] + rows[1..]
    else
      [rows[0]] + UpsertRow(rows[1..], incoming, keys, setColumns)
  }

  /** A record whose key is taken replaces a row; any other one adds a row. */
  lemma {:induction false} UpsertRowLength(rows: seq<Row>, incoming: Row, keys: seq<string>, setColumns: seq<string>)
    ensures |UpsertRow(rows, incoming, keys, setColumns)| == |rows| + (if KeyTaken(rows, incoming, keys) then 0 else 1)
  {
    if rows != [] {
      if KeyOf(rows[0], keys) == KeyOf(incoming, keys) {
        assert KeyTaken(rows, incoming, keys);
      } else {
        UpsertRowLength(rows[1..], incoming, keys, setColumns);
        KeyTakenTail(rows, incoming, keys);
      }
    }
  }

  /** The incoming records one after the other. The statement refuses a batch with a
      repeated key, so the order among them does not matter. */
  function UpsertRows(rows: seq<Row>, data: seq<Row>, keys: seq<string>, setColumns: seq<string>): seq<Row>
    decreases |data|
  {
    if data == [] then rows
    else UpsertRows(UpsertRow(rows, data[0], keys, setColumns), data[1..], keys, setColumns)
  }

  /** `insert(table).values(data).on_conflict_do_update(index_elements=key_columns,
      set_=...)`: a record naming an unknown column is refused; without a primary key
      there is no conflict target; a batch that repeats a key would update one row twice. */
  function ExecuteUpsert(rows: seq<Row>, data: seq<Row>, cols: seq<Column>): (r: Result<seq<Row>>)
  {
    var filled, keys := FillAll(data, cols), KeyColumns(cols);
    if SetColumns(cols) == [] then Failure(ValueError)
    else if !AllFit(data, cols) then Failure(SqlError("unconsumed column names"))
    else if keys == [] then Failure(SqlError("no conflict target"))
    else if !DistinctKeys(filled, keys) then Failure(SqlError("row updated a second time"))
    else Success(UpsertRows(rows, filled, keys, SetColumns(cols)))
  }

  /** The upsert statement succeeds exactly when the table has a column outside the
      key to update, every record fits the table, the table has a primary key, and no
      key repeats within the batch. A table whose columns are all key columns leaves
      `set_` empty, and SQLAlchemy raises `ValueError` while building the statement. */
  lemma UpsertStatementSucceeds(rows: seq<Row>, data: seq<Row>, cols: seq<Column>)
    ensures ExecuteUpsert(rows, data, cols).Success? <==>
              && SetColumns(cols) != [] && AllFit(data, cols) && KeyColumns(cols) != []
              && DistinctKeys(FillAll(data, cols), KeyColumns(cols))
    ensures SetColumns(cols) == [] ==> ExecuteUpsert(rows, data, cols) == Failure(ValueError)
    ensures ExecuteUpsert(rows, data, cols).Success? ==>
              ExecuteUpsert(rows, data, cols).value == UpsertRows(rows, FillAll(data, cols), KeyColumns(cols), SetColumns(cols))
  {
  }

  // ---------------------------------------------------- what an upsert does

  /** A stored record: exactly the table's columns. */
  predicate Filled(row: Row, cols: seq<Column>)
  {
    (forall c :: c in row ==> c in Names(cols)) && (forall c :: c in Names(cols) ==> c in row)
  }

  predicate AllFilled(rows: seq<Row>, cols: seq<Column>)
  {
    forall i :: 0 <= i < |rows| ==> Filled(rows[i], cols)
  }

  /** Equal keys agree on every key column. */
  lemma {:induction false} SameKeySameColumns(s: Row, f: Row, keys: seq<string>, c: string)
    requires KeyOf(s, keys) == KeyOf(f, keys) && c in keys
    ensures Get(s, c) == Get(f, c)
  {
    var k :| 0 <= k < |keys| && keys[k] == c;
    KeyOfAt(s, keys, k);
    KeyOfAt(f, keys, k);
  }

  /** The update writes only non-key columns, so a record keeps its key. */
  lemma {:induction false} UpdateKeepsKey(s: Row, f: Row, cols: seq<Column>)
    requires UniqueNames(cols)
    ensures KeyOf(UpdateRow(s, f, SetColumns(cols)), KeyColumns(cols)) == KeyOf(s, KeyColumns(cols))
  {
    var keys, u := KeyColumns(cols), UpdateRow(s, f, SetColumns(cols));
    KeyOfLength(u, keys);
    KeyOfLength(s, keys);
    forall k | 0 <= k < |keys|
      ensures KeyOf(u, keys)[k] == KeyOf(s, keys)[k]
    {
      KeyAndSetPartition(cols, keys[k]);
      UpdateRowAt(s, f, SetColumns(cols), keys[k]);
      KeyOfAt(u, keys, k);
      KeyOfAt(s, keys, k);
    }
  }

  /** A stored record updated by an incoming record with the same key becomes exactly
      the incoming record: the key columns already agree and every other column is
      written. */
  lemma {:induction false} UpdateGivesIncoming(s: Row, f: Row, cols: seq<Column>)
    requires UniqueNames(cols) && Filled(s, cols) && Filled(f, cols)
    requires KeyOf(s, KeyColumns(cols)) == KeyOf(f, KeyColumns(cols))
    ensures UpdateRow(s, f, SetColumns(cols)) == f
  {
    var u := UpdateRow(s, f, SetColumns(cols));
    forall c | c in u
      ensures c in f && u[c] == f[c]
    {
      UpdatedColumn(s, f, cols, c);
    }
    forall c | c in f
      ensures c in u
    {
      UpdateRowAt(s, f, SetColumns(cols), c);
    }
    assert u.Keys == f.Keys;
  }

  /** One column of the updated record: the incoming value, written or, for a key
      column, already equal. */
  lemma {:induction false} UpdatedColumn(s: Row, f: Row, cols: seq<Column>, c: string)
    requires UniqueNames(cols) && Filled(s, cols) && Filled(f, cols)
    requires KeyOf(s, KeyColumns(cols)) == KeyOf(f, KeyColumns(cols))
    requires c in UpdateRow(s, f, SetColumns(cols))
    ensures c in f && UpdateRow(s, f, SetColumns(cols))[c] == f[c]
  {
    var setColumns := SetColumns(cols);
    KeyAndSetPartition(cols, c);
    UpdateRowAt(s, f, setColumns, c);
    if c !in setColumns {
      assert c in s && c in Names(cols);
      SameKeySameColumns(s, f, KeyColumns(cols), c);
    }
  }

  lemma {:induction false} DistinctKeysTail(rows: seq<Row>, keys: seq<string>)
    requires rows != [] && DistinctKeys(rows, keys)
    ensures DistinctKeys(rows[1..], keys)
    ensures forall i :: 0 < i < |rows| ==> KeyOf(rows[0], keys) != KeyOf(rows[i], keys)
  {
    var tail := rows[1..];
    forall i | 0 < i < |rows|
      ensures KeyOf(rows[0], keys) != KeyOf(rows[i], keys)
    {
      assert tail[i - 1] == rows[i];
    }
  }

  lemma {:induction false} KeyTakenTail(rows: seq<Row>, f: Row, keys: seq<string>)
    requires rows != [] && KeyOf(rows[0], keys) != KeyOf(f, keys)
    ensures KeyTaken(rows, f, keys) <==> KeyTaken(rows[1..], f, keys)
  {
    if KeyTaken(rows, f, keys) {
      var i :| 0 <= i < |rows| && KeyOf(rows[i], keys) == KeyOf(f, keys);
      assert rows[1..][i - 1] == rows[i];
    }
    if KeyTaken(rows[1..], f, keys) {
      var i :| 0 <= i < |rows| - 1 && KeyOf(rows[1..][i], keys) == KeyOf(f, keys);
      assert rows[i + 1] == rows[1..][i];
    }
  }

  /** Upserting one record into records with distinct keys updates the one record
      with its key, if any, leaves all others where they were, and otherwise appends it. */
  lemma {:induction false} UpsertRowShape(rows: seq<Row>, f: Row, keys: seq<string>, setColumns: seq<string>)
    requires DistinctKeys(rows, keys)
    ensures var r := UpsertRow(rows, f, keys, setColumns);
            && |r| == |rows| + (if KeyTaken(rows, f, keys) then 0 else 1)
            && (forall i :: 0 <= i < |rows| ==>
                  r[i] == if KeyOf(rows[i], keys) == KeyOf(f, keys) then UpdateRow(rows[i], f, setColumns) else rows[i])
            && (!KeyTaken(rows, f, keys) ==> r[|rows|] == f)
  {
    UpsertRowLength(rows, f, keys, setColumns);
    if rows != [] {
      var r := UpsertRow(rows, f, keys, setColumns);
      var tail := rows[1..];
      DistinctKeysTail(rows, keys);
      if KeyOf(rows[0], keys) != KeyOf(f, keys) {
        UpsertRowShape(tail, f, keys, setColumns);
        KeyTakenTail(rows, f, keys);
        var rest := UpsertRow(tail, f, keys, setColumns);
        assert r == [rows[0]] + rest;
        forall i | 0 < i < |rows|
          ensures r[i] == if KeyOf(rows[i], keys) == KeyOf(f, keys) then UpdateRow(rows[i], f, setColumns) else rows[i]
        {
          assert rows[i] == tail[i - 1] && r[i] == rest[i - 1];
        }
        if !KeyTaken(rows, f, keys) {
          UpsertRowLength(tail, f, keys, setColumns);
          assert r[|rows|] == rest[|tail|];
        }
      } else {
        assert r == [UpdateRow(rows[0], f, setColumns)] + tail;
        assert KeyTaken(rows, f, keys);
      }
    }
  }

  // ----------------------------------------------------------- client writes

  /** `drop table if exists`. */
  function DropTableSpec(db: Db, tableName: string): (r: Db)
    ensures tableName !in r
    ensures forall t :: t != tableName ==> (t in r <==> t in db) && (t in db ==> r[t] == db[t])
  {
    db - {tableName}
  }

  /** Runs a statement on the table once `create_table` has made sure it exists. */
  function WriteAfterCreate(db: Db, table: TableDef, metadata: MetaData, statement: Result<seq<Row>>): Outcome
    requires table.name in db
  {
    match statement
    case Failure(e) => Outcome(db, Failure(e))
    case Success(rows) => Outcome(db[table.name := db[table.name].(rows := rows)], Success(()))
  }

  /** `insert`: `create_table`, then the insert statement. */
  function InsertSpec(db: Db, data: seq<Row>, table: TableDef, metadata: MetaData): Outcome
  {
    match CreateTableSpec(db, table.name, metadata)
    case Failure(e) => Outcome(db, Failure(e))
    case Success(created) =>
      WriteAfterCreate(created, table, metadata, ExecuteInsert(created[table.name].rows, data, table.columns))
  }

  /** `upsert`: `create_table`, then the upsert statement. */
  function UpsertSpec(db: Db, data: seq<Row>, table: TableDef, metadata: MetaData): Outcome
  {
    match CreateTableSpec(db, table.name, metadata)
    case Failure(e) => Outcome(db, Failure(e))
    case Success(created) =>
      WriteAfterCreate(created, table, metadata, ExecuteUpsert(created[table.name].rows, data, table.columns))
  }

  /** `overwrite`: `drop_table`, then `insert`. */
  function OverwriteSpec(db: Db, data: seq<Row>, table: TableDef, metadata: MetaData): Outcome
  {
    InsertSpec(DropTableSpec(db, table.name), data, table, metadata)
  }

  /** `insert` and `upsert` make sure the table exists before they write: a table the
      metadata lacks raises `KeyError` and nothing changes; otherwise the table is there
      afterwards, whether or not the statement succeeded, and no other table changes. */
  lemma WritesCreateTableFirst(db: Db, data: seq<Row>, table: TableDef, metadata: MetaData)
    ensures var i, u := InsertSpec(db, data, table, metadata), UpsertSpec(db, data, table, metadata);
            && (table.name !in metadata ==> i == Outcome(db, Failure(KeyError)) && u == Outcome(db, Failure(KeyError)))
            && (table.name in metadata ==> table.name in i.db && table.name in u.db)
            && (forall t :: t != table.name ==> (t in i.db <==> t in db) && (t in u.db <==> t in db))
            && (forall t :: t != table.name && t in db ==> i.db[t] == db[t] && u.db[t] == db[t])
  {
    CreateTableCopies(db, table.name, metadata);
  }

  /** An upsert into a table whose columns are all key columns creates the table and
      then raises `ValueError` for the empty `set_`, writing no row. */
  lemma AllKeyUpsertRaises(db: Db, data: seq<Row>, table: TableDef, metadata: MetaData)
    requires table.name in metadata && SetColumns(table.columns) == []
    ensures UpsertSpec(db, data, table, metadata) == Outcome(CreateTableSpec(db, table.name, metadata).value, Failure(ValueError))
  {
  }

  /** After a successful `overwrite` the table holds exactly the new records, each
      completed to the table's columns, and no other table changed. It succeeds exactly
      when the table is in the metadata, every record fits the table and, for a table
      with a primary key, no key repeats among the records: the old rows are gone, so
      none of them can clash. */
  lemma OverwriteHoldsData(db: Db, data: seq<Row>, table: TableDef, metadata: MetaData)
    ensures var o, cols := OverwriteSpec(db, data, table, metadata), table.columns;
            && (o.result.Success? <==>
                  table.name in metadata && AllFit(data, cols)
                  && (KeyColumns(cols) != [] ==> DistinctKeys(FillAll(data, cols), KeyColumns(cols))))
            && (o.result.Success? ==> table.name in o.db && o.db[table.name].rows == FillAll(data, cols))
            && (forall t :: t != table.name ==> (t in o.db <==> t in db))
            && (forall t :: t != table.name && t in db ==> o.db[t] == db[t])
  {
    var dropped := DropTableSpec(db, table.name);
    CreateTableCopies(dropped, table.name, metadata);
    if table.name in metadata {
      var created := CreateTableSpec(dropped, table.name, metadata).value;
      assert created[table.name].rows == [];
      InsertStatement([], data, table.columns);
      assert forall j :: 0 <= j < |data| ==> !KeyTaken([], FillAll(data, table.columns)[j], KeyColumns(table.columns));
      assert [] + FillAll(data, table.columns) == FillAll(data, table.columns);
    }
  }

  // ------------------------------------------------------------------ chunks

  /** The slices `data[i:upper]` for `i` in `range(start, len(data), chunksize)`, where
      the last slice stops at the end of the data. */
  function SlicesFrom(data: seq<Row>, chunksize: nat, start: nat): seq<seq<Row>>
    requires chunksize > 0
    decreases |data| - start
  {
    if start >= |data| then []
    else
      var upper := if start + chunksize >= |data| then |data| else start + chunksize;
      [data[start..upper]] + SlicesFrom(data, chunksize, start + chunksize)
  }

  /** `upsert` on one table, as a step of the chunk loop. */
  function UpsertStep(table: TableDef, metadata: MetaData): (Db, seq<Row>) -> Outcome
  {
    (db: Db, slice: seq<Row>) => UpsertSpec(db, slice, table, metadata)
  }

  /** `upsert_in_chunks`: `range` raises `ValueError` for a step of 0 and is empty for a
      negative step. */
  function UpsertInChunksSpec(db: Db, data: seq<Row>, table: TableDef, metadata: MetaData, chunksize: int): Outcome
  {
    if chunksize == 0 then Outcome(db, Failure(ValueError))
    else if chunksize < 0 then Outcome(db, Success(()))
    else UpsertFrom(UpsertStep(table, metadata), db, data, chunksize, 0)
  }

  /** The loop of `upsert_in_chunks` from `start` on, with `upsert` for the call made on
      each slice: it stops at the end of the data. */
  function UpsertFrom(upsert: (Db, seq<Row>) -> Outcome, db: Db, data: seq<Row>, chunksize: nat, start: nat): Outcome
    requires chunksize > 0
    decreases |data| - start, 2
  {
    if start >= |data| then Outcome(db, Success(())) else UpsertTurn(upsert, db, data, chunksize, start)
  }

  /** One turn of the loop: its slice runs from `start` to the next bound, or to the end
      of the data. */
  function UpsertTurn(upsert: (Db, seq<Row>) -> Outcome, db: Db, data: seq<Row>, chunksize: nat, start: nat): Outcome
    requires chunksize > 0 && start < |data|
    decreases |data| - start, 1
  {
    var upper := if start + chunksize >= |data| then |data| else start + chunksize;
    UpsertThenRest(upsert, db, data, chunksize, start, upper)
  }

  /** The call on the slice `data[start..upper]`, then the rest of the loop, unless the
      call raised. */
  function UpsertThenRest(upsert: (Db, seq<Row>) -> Outcome, db: Db, data: seq<Row>, chunksize: nat, start: nat, upper: nat): Outcome
    requires chunksize > 0 && start < upper <= |data|
    decreases |data| - start, 0
  {
    var o := upsert(db, data[start..upper]);
    if o.result.Failure? then o else UpsertFrom(upsert, o.db, data, chunksize, start + chunksize)
  }

  /** The calls on the slices, one after the other, stopping at the first that raises. */
  function UpsertSlices(upsert: (Db, seq<Row>) -> Outcome, db: Db, slices: seq<seq<Row>>): Outcome
    decreases |slices|
  {
    if slices == [] then Outcome(db, Success(()))
    else
      var o := upsert(db, slices[0]);
      if o.result.Failure? then o else UpsertSlices(upsert, o.db, slices[1..])
  }

  /** The first slice from `start`, and the slices after it. */
  lemma SlicesFromFirst(data: seq<Row>, chunksize: nat, start: nat, upper: nat)
    requires chunksize > 0 && start < |data|
    requires upper == if start + chunksize >= |data| then |data| else start + chunksize
    ensures SlicesFrom(data, chunksize, start) != []
    ensures SlicesFrom(data, chunksize, start)[0] == data[start..upper]
    ensures SlicesFrom(data, chunksize, start)[1..] == SlicesFrom(data, chunksize, start + chunksize)
  {
  }

  /** The loop makes its calls on exactly the slices, one after the other. */
  lemma {:induction false} UpsertFromSlices(upsert: (Db, seq<Row>) -> Outcome, db: Db, data: seq<Row>, chunksize: nat, start: nat)
    requires chunksize > 0
    ensures UpsertFrom(upsert, db, data, chunksize, start) == UpsertSlices(upsert, db, SlicesFrom(data, chunksize, start))
    decreases |data| - start
  {
    if start < |data| {
      var upper := if start + chunksize >= |data| then |data| else start + chunksize;
      SlicesFromFirst(data, chunksize, start, upper);
      var o := upsert(db, data[start..upper]);
      assert UpsertFrom(upsert, db, data, chunksize, start) == UpsertTurn(upsert, db, data, chunksize, start);
      assert UpsertTurn(upsert, db, data, chunksize, start) == UpsertThenRest(upsert, db, data, chunksize, start, upper);
      if o.result.Success? {
        UpsertFromSlices(upsert, o.db, data, chunksize, start + chunksize);
      }
    }
  }

  function Flatten(slices: seq<seq<Row>>): seq<Row>
  {
    if slices == [] then [] else slices[0] + Flatten(slices[1..])
  }

  /** The slices are non-empty, at most `chunksize` long, and together they are the
      data from `start` on, in order. */
  lemma {:induction false} SlicesCover(data: seq<Row>, chunksize: nat, start: nat)
    requires chunksize > 0 && start <= |data|
    ensures Flatten(SlicesFrom(data, chunksize, start)) == data[start..]
    ensures forall k :: 0 <= k < |SlicesFrom(data, chunksize, start)| ==>
              0 < |SlicesFrom(data, chunksize, start)[k]| <= chunksize
    decreases |data| - start
  {
    var slices := SlicesFrom(data, chunksize, start);
    if start < |data| {
      var upper := if start + chunksize >= |data| then |data| else start + chunksize;
      if start + chunksize >= |data| {
        assert SlicesFrom(data, chunksize, start + chunksize) == [];
        assert data[start..upper] == data[start..];
        assert slices == [data[start..]];
        assert Flatten(slices) == data[start..] + Flatten([]);
      } else {
        SlicesCover(data, chunksize, start + chunksize);
        assert slices == [data[start..upper]] + SlicesFrom(data, chunksize, start + chunksize);
        assert slices[1..] == SlicesFrom(data, chunksize, start + chunksize);
        assert data[start..] == data[start..upper] + data[upper..];
        forall k | 0 <= k < |slices|
          ensures 0 < |slices[k]| <= chunksize
        {
          if k > 0 {
            assert slices[k] == SlicesFrom(data, chunksize, start + chunksize)[k - 1];
          }
        }
      }
    } else {
      assert data[start..] == [];
    }
  }

  /** With no data, `upsert_in_chunks` makes no call and changes nothing. */
  lemma NoDataNoCalls(db: Db, table: TableDef, metadata: MetaData, chunksize: int)
    requires chunksize != 0
    ensures UpsertInChunksSpec(db, [], table, metadata, chunksize) == Outcome(db, Success(()))
  {
  }

  /** Data that fits in one chunk is written by a single `upsert`. */
  lemma OneChunk(db: Db, data: seq<Row>, table: TableDef, metadata: MetaData, chunksize: int)
    requires 0 < |data| <= chunksize
    ensures UpsertInChunksSpec(db, data, table, metadata, chunksize) == UpsertSpec(db, data, table, metadata)
  {
    var upsert := UpsertStep(table, metadata);
    var o := UpsertSpec(db, data, table, metadata);
    assert data[0..|data|] == data;
    assert upsert(db, data[0..|data|]) == o;
    assert UpsertFrom(upsert, db, data, chunksize, 0) == UpsertTurn(upsert, db, data, chunksize, 0);
    assert UpsertTurn(upsert, db, data, chunksize, 0) == UpsertThenRest(upsert, db, data, chunksize, 0, |data|);
    if o.result.Success? {
      assert UpsertFrom(upsert, o.db, data, chunksize, chunksize) == Outcome(o.db, Success(()));
    }
  }

  // ------------------------------------------------- reflection and scripts

  /** A column as reflection reads it back: what the database stores of it, which holds
      no Python-side `default` (such a default is applied by SQLAlchemy when it writes,
      and never reaches the table's definition in the database). */
  function ReflectedColumn(c: Column): (r: Column)
    ensures r.name == c.name && r.sqlType == c.sqlType && r.primaryKey == c.primaryKey
    ensures r.nullable == c.nullable && r.unique == c.unique && r.default.None?
  {
    c.(default := None)
  }

  function ReflectedColumns(cols: seq<Column>): (r: seq<Column>)
    ensures |r| == |cols| && forall i :: 0 <= i < |cols| ==> r[i] == ReflectedColumn(cols[i])
  {
    if cols == [] then [] else [ReflectedColumn(cols[0])] + ReflectedColumns(cols[1..])
  }

  /** Reflection keeps everything `create_table` copies: recreating a reflected table
      gives the columns that recreating the original gives. */
  lemma {:induction false} CopyReflectedColumns(cols: seq<Column>)
    ensures CopyColumns(ReflectedColumns(cols)) == CopyColumns(cols)
  {
    var reflected := ReflectedColumns(cols);
    assert forall i :: 0 <= i < |cols| ==> CopyColumns(reflected)[i] == CopyColumn(cols[i]);
  }

  /** `MetaData.reflect()`: the definitions of the database's tables, by name, as the
      database describes them. */
  function ReflectedMetadata(db: Db): MetaData
  {
    map t | t in db :: TableDef(db[t].def.name, ReflectedColumns(db[t].def.columns))
  }

  /** `get_table_schema`: the table's definition together with the reflected metadata;
      a table the database lacks is a `KeyError`. */
  function TableSchemaSpec(db: Db, tableName: string): Result<(TableDef, MetaData)>
  {
    var metadata := ReflectedMetadata(db);
    if tableName in metadata then Success((metadata[tableName], metadata)) else Failure(KeyError)
  }

  /** The schema is found exactly for a table of the database; it is that table's
      definition as reflected, with the stored columns in order and no Python-side
      default, and the metadata describes every table of the database and no other, so
      `create_table` with it recreates the table's columns elsewhere. */
  lemma TableSchemaOf(db: Db, tableName: string, elsewhere: Db)
    ensures TableSchemaSpec(db, tableName).Success? <==> tableName in db
    ensures tableName in db ==>
              var (table, metadata) := TableSchemaSpec(db, tableName).value;
              && table.name == db[tableName].def.name
              && table.columns == ReflectedColumns(db[tableName].def.columns)
              && (forall i :: 0 <= i < |table.columns| ==> table.columns[i].default.None?)
              && (forall t :: t in metadata <==> t in db)
              && (tableName !in elsewhere ==>
                    CreateTableSpec(elsewhere, tableName, metadata)
                    == Success(elsewhere[tableName := Stored(TableDef(tableName, CopyColumns(db[tableName].def.columns)), [])]))
  {
    if tableName in db {
      CopyReflectedColumns(db[tableName].def.columns);
    }
  }

  /** What running a script leaves behind; `execute` says what the script does to the
      database, or the error the database raises. */
  function ExecuteSpec(db: Db, sql: string, execute: (Db, string) -> Result<Db>): Outcome
  {
    match execute(db, sql)
    case Failure(e) => Outcome(db, Failure(e))
    case Success(after) => Outcome(after, Success(()))
  }

  // -------------------------------------------------------------- the class

  /** The client, with the database it writes to as its state. */
  class PostgreSqlClient {
    var db: Db

    constructor (initial: Db)
      ensures db == initial
    {
      db := initial;
    }

    /** `table_exists`. */
    predicate TableExists(tableName: string)
      reads this
    {
      tableName in db
    }

    method CreateTable(tableName: string, metadata: MetaData) returns (r: Result<()>)
      modifies this
      ensures CreateTableSpec(old(db), tableName, metadata).Success? ==>
                r == Success(()) && db == CreateTableSpec(old(db), tableName, metadata).value
      ensures CreateTableSpec(old(db), tableName, metadata).Failure? ==> r == Failure(KeyError) && db == old(db)
    {
      if tableName !in metadata {
        return Failure(KeyError);
      }
      if tableName !in db {
        var columns := CopyColumns(metadata[tableName].columns);
        db := db[tableName := Stored(TableDef(tableName, columns), [])];
      }
      return Success(());
    }

    /** `execute_sql`. */
    method ExecuteSql(sql: string, execute: (Db, string) -> Result<Db>) returns (r: Result<()>)
      modifies this
      ensures Outcome(db, r) == ExecuteSpec(old(db), sql, execute)
    {
      var result := execute(db, sql);
      if result.Failure? {
        return Failure(result.error);
      }
      db := result.value;
      return Success(());
    }

    method DropTable(tableName: string)
      modifies this
      ensures db == DropTableSpec(old(db), tableName)
    {
      db := db - {tableName};
    }

    method Insert(data: seq<Row>, table: TableDef, metadata: MetaData) returns (r: Result<()>)
      modifies this
      ensures Outcome(db, r) == InsertSpec(old(db), data, table, metadata)
    {
      r := CreateTable(table.name, metadata);
      if r.Failure? {
        return;
      }
      var statement := ExecuteInsert(db[table.name].rows, data, table.columns);
      if statement.Failure? {
        return Failure(statement.error);
      }
      db := db[table.name := db[table.name].(rows := statement.value)];
    }

    method Overwrite(data: seq<Row>, table: TableDef, metadata: MetaData) returns (r: Result<()>)
      modifies this
      ensures Outcome(db, r) == OverwriteSpec(old(db), data, table, metadata)
    {
      DropTable(table.name);
      r := Insert(data, table, metadata);
    }

    method Upsert(data: seq<Row>, table: TableDef, metadata: MetaData) returns (r: Result<()>)
      modifies this
      ensures Outcome(db, r) == UpsertSpec(old(db), data, table, metadata)
    {
      r := CreateTable(table.name, metadata);
      if r.Failure? {
        return;
      }
      var statement := ExecuteUpsert(db[table.name].rows, data, table.columns);
      if statement.Failure? {
        return Failure(statement.error);
      }
      db := db[table.name := db[table.name].(rows := statement.value)];
    }

    method UpsertInChunks(data: seq<Row>, table: TableDef, metadata: MetaData, chunksize: int) returns (r: Result<()>)
      modifies this
      ensures Outcome(db, r) == UpsertInChunksSpec(old(db), data, table, metadata, chunksize)
    {
      if chunksize == 0 {
        return Failure(ValueError);
      }
      if chunksize < 0 {
        return Success(());
      }
      ghost var goal := UpsertFrom(UpsertStep(table, metadata), db, data, chunksize, 0);
      var maxLength := |data|;
      var i := 0;
      while i < maxLength
        invariant 0 <= i
        invariant UpsertFrom(UpsertStep(table, metadata), db, data, chunksize, i) == goal
        decreases maxLength - i
      {
        r := UpsertChunk(data, chunksize, i, table, metadata, goal);
        if r.Failure? {
          return;
        }
        i := i + chunksize;
      }
      return Success(());
    }

    /** One turn of the loop of `upsert_in_chunks`: the slice from `i` to the next
        bound, or to the end of the data for the last slice. */
    method UpsertChunk(data: seq<Row>, chunksize: nat, i: nat, table: TableDef, metadata: MetaData, ghost goal: Outcome)
      returns (r: Result<()>)
      requires chunksize > 0 && i < |data|
      requires UpsertFrom(UpsertStep(table, metadata), db, data, chunksize, i) == goal
      modifies this
      ensures r.Failure? ==> Outcome(db, r) == goal
      ensures r.Success? ==> UpsertFrom(UpsertStep(table, metadata), db, data, chunksize, i + chunksize) == goal
    {
      var maxLength := |data|;
      var lowerBound, upperBound;
      if i + chunksize >= maxLength {
        lowerBound, upperBound := i, maxLength;
      } else {
        lowerBound, upperBound := i, i + chunksize;
      }
      ghost var upsert := UpsertStep(table, metadata);
      assert UpsertFrom(upsert, db, data, chunksize, i) == UpsertTurn(upsert, db, data, chunksize, i);
      assert UpsertTurn(upsert, db, data, chunksize, i) == UpsertThenRest(upsert, db, data, chunksize, lowerBound, upperBound);
      r := Upsert(data[lowerBound..upperBound], table, metadata);
    }
  }

  // -------------------------------------------------------------------- load

  function LoadMethodMessage(): string
  {
    "Please specify a correct load method: [insert, upsert, overwrite]"
  }

  /** `load`: one of the three writes, chosen by name; any other name raises before
      anything is written. */
  method Load(client: PostgreSqlClient, data: seq<Row>, table: TableDef, metadata: MetaData, loadMethod: string)
    returns (r: Result<()>)
    modifies client
    ensures loadMethod == "insert" ==> Outcome(client.db, r) == InsertSpec(old(client.db), data, table, metadata)
    ensures loadMethod == "upsert" ==> Outcome(client.db, r) == UpsertSpec(old(client.db), data, table, metadata)
    ensures loadMethod == "overwrite" ==> Outcome(client.db, r) == OverwriteSpec(old(client.db), data, table, metadata)
    ensures loadMethod !in {"insert", "upsert", "overwrite"} ==>
              r == Failure(Raised(LoadMethodMessage())) && client.db == old(client.db)
  {
    if loadMethod == "insert" {
      r := client.Insert(data, table, metadata);
    } else if loadMethod == "upsert" {
      r := client.Upsert(data, table, metadata);
    } else if loadMethod == "overwrite" {
      r := client.Overwrite(data, table, metadata);
    } else {
      r := Failure(Raised(LoadMethodMessage()));
    }
  }
}

=== FILE: text.dfy ===
/** The pieces of Python's `str` behaviour the pipeline relies on: `split` on one
    separator, `strip(chars)`, `replace` of one character, ASCII `lower`, and decimal
    digits as read by `int(...)` and written by `f'{n:02}'`. */
module Text {

  // ---------------------------------------------------------------- searching

  /** The first position of `c` in `s` (`s.index(c)`). */
  function IndexOf(s: string, c: char): (k: nat)
    requires c in s
    ensures k < |s| && s[k] == c && c !in s[..k]
  {
    if s[0] == c then 0 else 1 + IndexOf(s[1..], c)
  }

  // ---------------------------------------------------------- split and join

  /** `s.split(c)` for a one-character separator: the pieces between separators,
      the empty string included, so there is always at least one piece. */
  function Split(s: string, c: char): (parts: seq<string>)
    ensures |parts| >= 1
    ensures forall i :: 0 <= i < |parts| ==> c !in parts[i]
    decreases |s|
  {
    if c !in s then [s]
    else
      var k := IndexOf(s, c);
      [s[..k]] + Split(s[k + 1..], c)
  }

  /** `c.join(parts)`. */
  function Join(parts: seq<string>, c: char): string
    requires |parts| >= 1
  {
    if |parts| == 1 then parts[0] else parts[0] + [c] + Join(parts[1..], c)
  }

  /** Splitting loses nothing: joining the pieces with the separator gives the text back. */
  lemma {:induction false} JoinSplit(s: string, c: char)
    ensures Join(Split(s, c), c) == s
    decreases |s|
  {
    if c in s {
      var k := IndexOf(s, c);
      var rest := Split(s[k + 1..], c);
      var parts := Split(s, c);
      assert parts == [s[..k]] + rest;
      assert |parts| > 1 && parts[0] == s[..k] && parts[1..] == rest;
      assert Join(parts, c) == s[..k] + [c] + Join(rest, c);
      JoinSplit(s[k + 1..], c);
      assert s == s[..k] + [c] + s[k + 1..];
    }
  }

  /** Splitting a join of separator-free pieces gives exactly those pieces back. */
  lemma {:induction false} SplitJoin(parts: seq<string>, c: char)
    requires |parts| >= 1
    requires forall i :: 0 <= i < |parts| ==> c !in parts[i]
    ensures Split(Join(parts, c), c) == parts
  {
    if |parts| > 1 {
      var s := Join(parts, c);
      var p := parts[0];
      assert s == p + [c] + Join(parts[1..], c);
      assert s[|p|] == c;
      assert s[..|p|] == p;
      assert c in s;
      IndexOfUnique(s, c, |p|);
      assert s[|p| + 1..] == Join(parts[1..], c);
      SplitJoin(parts[1..], c);
    }
  }

  /** The first position of a character is the one with no earlier occurrence. */
  lemma IndexOfUnique(s: string, c: char, k: nat)
    requires k < |s| && s[k] == c && c !in s[..k]
    ensures IndexOf(s, c) == k
  {
  }

  /** Python `s.split(c, maxsplit=1)`: at most one cut, at the first separator. */
  function SplitOnce(s: string, c: char): (parts: seq<string>)
    ensures c !in s ==> parts == [s]
    ensures c in s ==> |parts| == 2 && c !in parts[0] && parts[0] + [c] + parts[1] == s
  {
    if c !in s then [s]
    else
      var k := IndexOf(s, c);
      assert s == s[..k] + [c] + s[k + 1..];
      [s[..k], s[k + 1..]]
  }

  /** Splitting once at `c` cuts at its first occurrence. */
  lemma SplitOnceAtFirst(before: string, c: char, after: string)
    requires c !in before
    ensures SplitOnce(before + [c] + after, c) == [before, after]
  {
    var s := before + [c] + after;
    assert s[|before|] == c && s[..|before|] == before;
    IndexOfUnique(s, c, |before|);
    assert s[|before| + 1..] == after;
  }

  // ------------------------------------------------------------------- strip

  /** The first index from `i` on whose character is not in `cs`, or `|s|`. */
  function SkipLeading(s: string, cs: set<char>, i: nat): (j: nat)
    requires i <= |s|
    ensures i <= j <= |s|
    ensures forall k :: i <= k < j ==> s[k] in cs
    ensures j < |s| ==> s[j] !in cs
    decreases |s| - i
  {
    if i < |s| && s[i] in cs then SkipLeading(s, cs, i + 1) else i
  }

  /** The last index down from `j`, no lower than `lo`, whose preceding character is
      not in `cs`. */
  function SkipTrailing(s: string, cs: set<char>, lo: nat, j: nat): (i: nat)
    requires lo <= j <= |s|
    ensures lo <= i <= j
    ensures forall k :: i <= k < j ==> s[k] in cs
    ensures i > lo ==> s[i - 1] !in cs
    decreases j
  {
    if j > lo && s[j - 1] in cs then SkipTrailing(s, cs, lo, j - 1) else j
  }

  /** Python `s.strip(chars)`: drop every leading and trailing character that is in
      `cs`, which leaves a slice of `s` that neither starts nor ends with one. */
  function Strip(s: string, cs: set<char>): (r: string)
    ensures exists i :: StrippedAt(s, cs, i, r)
    ensures |r| > 0 ==> r[0] !in cs && r[|r| - 1] !in cs
  {
    var i := SkipLeading(s, cs, 0);
    var j := SkipTrailing(s, cs, i, |s|);
    assert StrippedAt(s, cs, i, s[i..j]);
    s[i..j]
  }

  /** `r` is `s` with its first `i` characters and some final characters removed,
      all of them from `cs`. */
  ghost predicate StrippedAt(s: string, cs: set<char>, i: int, r: string)
  {
    && 0 <= i <= |s| - |r| && r == s[i..i + |r|]
    && (forall k :: 0 <= k < i ==> s[k] in cs)
    && (forall k :: i + |r| <= k < |s| ==> s[k] in cs)
  }

  /** Scanning from `i` stops at the first index outside `cs`. */
  lemma {:induction false} SkipLeadingAt(s: string, cs: set<char>, i: nat, j: nat)
    requires i <= j <= |s|
    requires forall k :: i <= k < j ==> s[k] in cs
    requires j < |s| ==> s[j] !in cs
    ensures SkipLeading(s, cs, i) == j
    decreases j - i
  {
    if i < j {
      SkipLeadingAt(s, cs, i + 1, j);
    }
  }

  /** Scanning down from `j` stops at the first index whose preceding character lies
      outside `cs`. */
  lemma {:induction false} SkipTrailingAt(s: string, cs: set<char>, lo: nat, i: nat, j: nat)
    requires lo <= i <= j <= |s|
    requires forall k :: i <= k < j ==> s[k] in cs
    requires i > lo ==> s[i - 1] !in cs
    ensures SkipTrailing(s, cs, lo, j) == i
    decreases j
  {
    if i < j {
      SkipTrailingAt(s, cs, lo, i, j - 1);
    }
  }

  /** `strip` removes exactly a prefix and a suffix drawn from `cs` when what lies
      between them neither starts nor ends with a character of `cs`. */
  lemma StripExact(pre: string, mid: string, suf: string, cs: set<char>)
    requires forall k :: 0 <= k < |pre| ==> pre[k] in cs
    requires forall k :: 0 <= k < |suf| ==> suf[k] in cs
    requires |mid| > 0 ==> mid[0] !in cs && mid[|mid| - 1] !in cs
    ensures Strip(pre + mid + suf, cs) == mid
  {
    var s := pre + mid + suf;
    var a, b := |pre|, |pre| + |mid|;
    if mid == [] {
      forall k | 0 <= k < |s|
        ensures s[k] in cs
      {
        if k < a { assert s[k] == pre[k]; } else { assert s[k] == suf[k - a]; }
      }
      SkipLeadingAt(s, cs, 0, |s|);
      SkipTrailingAt(s, cs, |s|, |s|, |s|);
      assert s[|s|..|s|] == mid;
    } else {
      forall k | 0 <= k < a
        ensures s[k] in cs
      {
        assert s[k] == pre[k];
      }
      assert s[a] == mid[0];
      SkipLeadingAt(s, cs, 0, a);
      forall k | b <= k < |s|
        ensures s[k] in cs
      {
        assert s[k] == suf[k - b];
      }
      assert s[b - 1] == mid[|mid| - 1];
      SkipTrailingAt(s, cs, a, b, |s|);
      assert s[a..b] == mid;
    }
  }

  /** `strip` only removes characters: one absent from `s` is absent from the result. */
  lemma StripKeepsAbsent(s: string, cs: set<char>, c: char)
    requires c !in s
    ensures c !in Strip(s, cs)
  {
    var r := Strip(s, cs);
    var i :| StrippedAt(s, cs, i, r);
    forall k | 0 <= k < |r|
      ensures r[k] != c
    {
      assert r[k] == s[i + k];
    }
  }

  // ------------------------------------------------------- replace and lower

  /** Python `s.replace(a, b)` for single characters. */
  function ReplaceChar(s: string, a: char, b: char): (r: string)
    ensures |r| == |s|
    ensures forall i :: 0 <= i < |s| ==> r[i] == (if s[i] == a then b else s[i])
  {
    if s == [] then [] else [if s[0] == a then b else s[0]] + ReplaceChar(s[1..], a, b)
  }

  /** Lower-case of one character, for the ASCII letters. */
  function LowerChar(c: char): char
  {
    if 'A' <= c <= 'Z' then (c as int - 'A' as int + 'a' as int) as char else c
  }

  /** Python `s.lower()`, restricted to ASCII letters. */
  function Lower(s: string): (r: string)
    ensures |r| == |s|
    ensures forall i :: 0 <= i < |s| ==> r[i] == LowerChar(s[i])
  {
    if s == [] then [] else [LowerChar(s[0])] + Lower(s[1..])
  }

  // ------------------------------------------------------------------ digits

  predicate IsDigit(c: char) { '0' <= c <= '9' }

  predicate AllDigits(s: string) { forall i :: 0 <= i < |s| ==> IsDigit(s[i]) }

  function DigitValue(c: char): (d: nat)
    requires IsDigit(c)
    ensures d < 10
  {
    c as int - '0' as int
  }

  function DigitChar(d: nat): (c: char)
    requires d < 10
    ensures IsDigit(c) && DigitValue(c) == d
  {
    (d + '0' as int) as char
  }

  /** `int(s)` for a string of decimal digits; leading zeros are allowed. */
  function DigitsValue(s: string): nat
    requires AllDigits(s)
  {
    if s == [] then 0 else 10 * DigitsValue(s[..|s| - 1]) + DigitValue(s[|s| - 1])
  }

  /** The value of a four-digit string, position by position. */
  lemma DigitsValue4(s: string)
    requires |s| == 4 && AllDigits(s)
    ensures DigitsValue(s) == 1000 * DigitValue(s[0]) + 100 * DigitValue(s[1]) + 10 * DigitValue(s[2]) + DigitValue(s[3])
  {
    var s1, s2, s3 := s[..1], s[..2], s[..3];
    assert s1[..0] == [] && s2[..1] == s1 && s3[..2] == s2 && s[..3] == s3;
    assert DigitsValue(s1) == DigitValue(s[0]);
    assert DigitsValue(s2) == 10 * DigitValue(s[0]) + DigitValue(s[1]);
    assert DigitsValue(s3) == 100 * DigitValue(s[0]) + 10 * DigitValue(s[1]) + DigitValue(s[2]);
  }

  /** The value of a two-digit string, position by position. */
  lemma DigitsValue2(s: string)
    requires |s| == 2 && AllDigits(s)
    ensures DigitsValue(s) == 10 * DigitValue(s[0]) + DigitValue(s[1])
  {
    var s1 := s[..1];
    assert s1[..0] == [];
    assert DigitsValue(s1) == DigitValue(s[0]);
  }

  /** `str(n)` for a natural number: decimal digits without leading zeros. */
  function NatToString(n: nat): (s: string)
    ensures |s| >= 1 && AllDigits(s)
    ensures s[0] == '0' ==> n == 0
  {
    if n < 10 then [DigitChar(n)] else NatToString(n / 10) + [DigitChar(n % 10)]
  }

  /** Reading back what `str(n)` wrote gives `n`. */
  lemma {:induction false} NatToStringValue(n: nat)
    ensures DigitsValue(NatToString(n)) == n
  {
    if n >= 10 {
      NatToStringValue(n / 10);
      var s := NatToString(n);
      assert s[..|s| - 1] == NatToString(n / 10);
    }
  }

  /** `n` zero-padded on the left to at least `width` digits (`f'{n:0{width}}'`). */
  function ZeroPad(n: nat, width: nat): (s: string)
    ensures AllDigits(s) && |s| >= 1
    ensures |s| == if |NatToString(n)| >= width then |NatToString(n)| else width
  {
    var digits := NatToString(n);
    if |digits| >= width then digits else Zeros(width - |digits|) + digits
  }

  function Zeros(k: nat): (s: string)
    ensures |s| == k && AllDigits(s) && forall i :: 0 <= i < k ==> s[i] == '0'
  {
    if k == 0 then [] else ['0'] + Zeros(k - 1)
  }

  /** Leading zeros do not change the value of a digit string. */
  lemma {:induction false} ZerosPrefixValue(k: nat, s: string)
    requires AllDigits(s)
    ensures AllDigits(Zeros(k) + s) && DigitsValue(Zeros(k) + s) == DigitsValue(s)
    decreases |s|
  {
    var t := Zeros(k) + s;
    assert AllDigits(t);
    if s == [] {
      ZerosValue(k);
      assert t == Zeros(k);
    } else {
      assert t[..|t| - 1] == Zeros(k) + s[..|s| - 1];
      ZerosPrefixValue(k, s[..|s| - 1]);
    }
  }

  lemma {:induction false} ZerosValue(k: nat)
    ensures DigitsValue(Zeros(k)) == 0
  {
    if k > 0 {
      assert Zeros(k)[..k - 1] == Zeros(k - 1) by {
        assert Zeros(k) == ['0'] + Zeros(k - 1);
        assert forall i :: 0 <= i < k - 1 ==> Zeros(k)[i] == '0' == Zeros(k - 1)[i];
      }
      ZerosValue(k - 1);
    }
  }

  /** A zero-padded number reads back as that number. */
  lemma ZeroPadValue(n: nat, width: nat)
    ensures DigitsValue(ZeroPad(n, width)) == n
  {
    var digits := NatToString(n);
    assert DigitsValue(digits) == n by { NatToStringValue(n); }
    if |digits| < width {
      assert DigitsValue(Zeros(width - |digits|) + digits) == DigitsValue(digits) by {
        ZerosPrefixValue(width - |digits|, digits);
      }
    }
  }

  /** A digit string of value zero is all zeros. */
  lemma {:induction false} ZeroValueIsZeros(t: string)
    requires AllDigits(t) && DigitsValue(t) == 0
    ensures t == Zeros(|t|)
  {
    if t != [] {
      ZeroValueIsZeros(t[..|t| - 1]);
      assert t == t[..|t| - 1] + [t[|t| - 1]];
      assert Zeros(|t|) == Zeros(|t| - 1) + ['0'] by { ZerosSnoc(|t| - 1); }
    }
  }

  lemma ZerosSnoc(k: nat)
    ensures Zeros(k + 1) == Zeros(k) + ['0']
  {
    assert forall i :: 0 <= i < k + 1 ==> Zeros(k + 1)[i] == (Zeros(k) + ['0'])[i];
  }

  /** Writing back, zero-padded to its own width, the number a digit string denotes
      gives the same digit string. */
  lemma {:induction false} ZeroPadOfDigits(t: string)
    requires AllDigits(t) && |t| >= 1
    ensures ZeroPad(DigitsValue(t), |t|) == t
  {
    var n := DigitsValue(t);
    var t', c := t[..|t| - 1], t[|t| - 1];
    assert t == t' + [c];
    assert n == 10 * DigitsValue(t') + DigitValue(c);
    if n < 10 {
      ZeroValueIsZeros(t');
      assert NatToString(n) == [c];
      assert ZeroPad(n, |t|) == Zeros(|t'|) + [c];
    } else {
      assert |t'| >= 1;
      ZeroPadOfDigits(t');
      assert n / 10 == DigitsValue(t') && n % 10 == DigitValue(c);
      assert NatToString(n) == NatToString(DigitsValue(t')) + [c];
    }
  }

  /** Python `f'{n:02}'` for an integer: the sign counts toward the width of two. */
  function FormatInt02(n: int): (s: string)
    ensures n >= 0 ==> AllDigits(s) && DigitsValue(s) == n
    ensures n < 0 ==> |s| >= 2 && s[0] == '-' && AllDigits(s[1..]) && DigitsValue(s[1..]) == -n
    ensures |s| >= 2
  {
    ZeroPadValue(if n >= 0 then n else -n, if n >= 0 then 2 else 1);
    if n >= 0 then ZeroPad(n, 2) else "-" + ZeroPad(-n, 1)
  }
}

=== FILE: wrappers.dfy ===
/** Optional values, results and the Python exception kinds the pipeline can raise. */
module Wrappers {

  /** A Python value that may be `None`. */
  datatype Option<+T> = None | Some(value: T)

  /** The exception classes the modelled code raises or lets propagate. */
  datatype Error =
    | IndexError        // `xs[-1]` on an empty list, `element[1]` on a one-element split
    | AttributeError    // a method called on `None` (`None.replace`, `None.split`)
    | TypeError         // `re.search(..., None)`, iterating over `None`
    | ValueError        // `datetime.strptime` on a malformed date, `range` with step 0, an empty upsert `set_`
    | KeyError          // a missing dictionary key (`metadata.tables[name]`)
    | OverflowError     // a date arithmetic result before year 1
    | CycleError        // `graphlib` finding a cycle in the dependency graph
    | TemplateNotFound(name: string) // Jinja's `get_template` on a name it does not have
    | Raised(message: string)  // an explicit `raise Exception(...)`
    | SqlError(message: string) // a statement the database refused

  /** Either a value or the exception that was raised instead. */
  datatype Result<+T> = Success(value: T) | Failure(error: Error)
}
